=== FILE: README.md ===
# SicknessSim in Dafny

SicknessSim is an epidemic simulation. A room of 800 × 800 units holds a
population of persons. Each person walks on a grid of four directions and turns
at random every ten ticks. A person goes from Healthy to Infectious, then Sick
(after 50 ticks), then Dead (after 50 more). Every non-Healthy person may infect
the Healthy persons within its influence radius. The infection rate depends on
the infecting person's status: 0.02 when Infectious, 0.08 when Sick, 0.5 when
Dead. Dead persons are removed 80 ticks after they die. Two quadtrees organise
the space:

- a point quadtree over persons (`QuadTree`, 32 persons per node, depth at most 200);
- a generic bounding-box quadtree (`QuadTree<T>` in QuadTreeDirection.cs). It grows
  its root outwards when an object lands outside it and merges children when a
  removal leaves few enough objects.

The project is a functional model of that core, in these modules:

| module | file | models |
|---|---|---|
| `Support` | support.dfy | `Option` and `Result` wrappers |
| `Config` | config.dfy | the constants of Constants.cs |
| `Vectors` | vector.dfy | `Vector` and its operators, including the `DistanceTo` as written |
| `Rects` | rect.dfy | the WPF `Rect` as a closed rectangle, `IntersectsWith`, `Contains` |
| `Agent` | person.dfy | `Person`: the id pool, turning, moving with wrap-around, the status clock |
| `PointTree` | pointtree.dfy | the point quadtree: index, split, insert, query, clear, refresh |
| `Engine` | engine.dfy | `Simulation`: the population's construction and `Tick` |
| `BoxTree` | boxtree.dfy | `QuadTree<T>`: root sizing and expansion, insert, query with sort order, remove with merging |

Randomness is the parameter `draws: nat -> real`, a stream of `NextDouble()`
values read at a cursor. The simulation hands its single `Random` to every
person, so a tick's draws interleave in call order, and the cursor threads
through the model in that same order. In the engine, proximity is the parameter
`near(target, source)` because the source's `DistanceTo` is broken (see
Findings). Doubles are modelled as mathematical reals.

Mutable objects are values here. The point tree's persons are stored by value,
and the box tree's `T` is `Item(id, bounds)`, where `id` stands for the
object's reference identity. The box tree's parent links and object-to-node
dictionary are recomputed by searching the tree rather than stored.

## Model

| member | source | states |
|---|---|---|
| Vectors.Sub | SicknessSim/Vector.cs:35-41 | the difference is zero exactly when the two vectors are equal |
| Vectors.Add | SicknessSim/Vector.cs:35-41 | subtraction undoes addition; adding the zero vector changes nothing |
| Vectors.Mul | SicknessSim/Vector.cs:43-53 | component-wise product: `One` is its identity and `Zero` annihilates |
| Vectors.Scale | SicknessSim/Vector.cs:47-49 | scaling by a number is the component-wise product with the vector having that number in both coordinates |
| Vectors.AddScalar | SicknessSim/Vector.cs:51-53 | adding a number is vector addition of the vector having that number in both coordinates |
| Vectors.MulCommutes | SicknessSim/Vector.cs:43-45 | the component-wise product commutes |
| Vectors.MulDistributes | SicknessSim/Vector.cs:43-45 | the component-wise product distributes over vector addition |
| Vectors.Equals | SicknessSim/Vector.cs:15-21 | `Equals` holds exactly when both coordinates agree |
| Vectors.NotEquals | SicknessSim/Vector.cs:55-61 | `!=` is the negation of `==` |
| Vectors.Dot | SicknessSim/Vector.cs:31-33 | the dot product is the coordinate sum of the component-wise product; with `One` it sums the coordinates, with `Zero` it is 0 |
| Vectors.DotDistributes | SicknessSim/Vector.cs:31-33 | the dot product is linear in its second argument |
| Vectors.DotSymmetric | SicknessSim/Vector.cs:31-33 | the dot product is symmetric |
| Vectors.DotSelfNonNegative | SicknessSim/Vector.cs:31-33 | a vector's dot product with itself is never negative |
| Vectors.AddCommutes | SicknessSim/Vector.cs:35-37 | vector addition commutes |
| Vectors.RadicandAntisymmetric | SicknessSim/Vector.cs:63-67 | the quantity under `Math.Sqrt` in `DistanceTo`, as written, changes sign when the arguments swap; so the as-written proximity test is symmetric only where that quantity is 0 |
| Vectors.FarPairCountsAsNear | SicknessSim/Vector.cs:63-67 | as written, (0,0) and (100,100) count as within radius 25, though they are about 141 apart |
| Vectors.ClosePairCountsAsFar | SicknessSim/Vector.cs:63-67 | as written, (10,10) and (12,10) do not count as within radius 25 (the radicand is -240, so the distance is NaN), though they are 2 apart |
| Vectors.WithinSymmetric | SicknessSim/Vector.cs:63-67 | the corrected Euclidean proximity test is symmetric and reflexive |
| Vectors.WithinOnLine | SicknessSim/Vector.cs:63-67 | along one axis the corrected test holds exactly when the offset is at most the radius |
| Vectors.SquareBound | SicknessSim/Vector.cs:63-67 | comparing squared distance with the squared radius is the same as comparing the distance itself, which is why the corrected test needs no square root |
| Rects.CommonPointIntersects | SicknessSim/QuadTree.cs:144 | two rectangles sharing a point intersect in the `IntersectsWith` sense |
| Rects.IntersectsGrows | SicknessSim/QuadTreeDirection.cs:90-99 | a rectangle meeting a region's content also meets the region, which is why pruning by node bounds is safe |
| Agent.AvailableIndex | SicknessSim/Person.cs:93-102 | returns the first free slot of the id pool, or -1 exactly when every slot is taken |
| Agent.NewPerson | SicknessSim/Person.cs:52-72 | a new person starts at the given position and status, facing Right, due to turn, with no timestamps and not flagged for removal; it takes the first free id without marking it taken, or appends a new taken slot when none is free |
| Agent.Dispose | SicknessSim/Person.cs:83-87 | frees exactly the person's slot, which becomes available again at or before that index |
| Agent.ReusedSlotIsHandedOutTwice | SicknessSim/Person.cs:54-60 | once a slot has been freed, two consecutive constructions receive the same id |
| Agent.DuplicateLiveIds | SicknessSim/Person.cs:52-87 | concrete case: dispose id 0 of two persons, then build two more; both get id 0 |
| Agent.DirectionOf | SicknessSim/Person.cs:104-108 | `Next(4)` is the quarter of [0, 1) the draw falls in |
| Agent.Step | SicknessSim/Person.cs:110-128 | the unclamped step moves the position by `distance` along the heading of the direction |
| Agent.Wrap | SicknessSim/Person.cs:129-150 | the wrapped coordinate is always inside the room, and a coordinate already inside is unchanged |
| Agent.MoveVector | SicknessSim/Person.cs:110-151 | the new position is always inside the room; it is the plain step whenever that stays inside; a vertical move keeps x and a horizontal move keeps y |
| Agent.WrapLandsOnOppositeEdge | SicknessSim/Person.cs:134-146 | leaving the room past one edge puts the person on the opposite edge |
| Agent.Move | SicknessSim/Person.cs:153-165 | only Healthy and Infectious persons move; nothing but the position changes |
| Agent.Advance | SicknessSim/Person.cs:180-200 | the status takes exactly one step when its time is up (Infectious for 50 ticks, or Sick for 50 ticks; a missing start time is never up) and none otherwise; a new Sick or Dead status records the tick; a recorded time changes only with its status; nothing but the status and its times changes |
| Agent.Tick | SicknessSim/Person.cs:171-201 | the status moves exactly one step along Healthy, Infectious, Sick, Dead when its time is up and stays otherwise, keeping its recorded times when it stays; Sick and Dead persons neither turn, move nor consume a draw; a moving person draws a new direction exactly when due and then steps that way; a person in the room stays in the room; id, removal flag and infection time are unchanged |
| Agent.FreshPersonTurnsAtOnce | SicknessSim/Person.cs:65-67 | a newly built person is due to turn on its first tick at any non-negative time |
| Agent.Survivors | SicknessSim/Simulation.cs:88 | `RemoveAll(p => p.ToBeRemoved)` keeps exactly the unflagged persons, never adding any |
| Agent.SurvivorsAppend | SicknessSim/Simulation.cs:88 | the removal distributes over concatenation, so it keeps list order |
| Agent.SurvivorsKeepAll | SicknessSim/Simulation.cs:88 | with nobody flagged, the list is unchanged |
| PointTree.GetIndex | SicknessSim/QuadTree.cs:74-104 | each quadrant index holds exactly when the point lies strictly on that side of both midlines; -1 exactly when it lies on a midline |
| PointTree.IndexedPointInQuadrant | SicknessSim/QuadTree.cs:74-104 | a point with an index lies in the quadrant of that index |
| PointTree.ChildRect | SicknessSim/QuadTree.cs:63-72 | under the exact rule a child region is the true quadrant; as written its sides are truncated integer halves |
| PointTree.Split | SicknessSim/QuadTree.cs:63-72 | four empty children one level deeper; as written their corners are laid out from the truncated corner and half-sizes |
| PointTree.Filter | SicknessSim/QuadTree.cs:136-152 | keeps exactly the persons inside the rectangle (closed edges), never adding any |
| PointTree.FilterAppend | SicknessSim/QuadTree.cs:148-159 | filtering distributes over concatenation, so results keep storage order |
| PointTree.Query | SicknessSim/QuadTree.cs:141-164 | returns only stored persons, each inside the query rectangle |
| PointTree.QueryComplete | SicknessSim/QuadTree.cs:141-164 | in a tree whose persons lie in their nodes' regions, the pruned query equals filtering every stored person |
| PointTree.Clear | SicknessSim/QuadTree.cs:54-60 | clearing leaves no persons, keeps the node's level and region and whether it has children, and keeps the tree well formed |
| PointTree.ClearKeepsPlaced | SicknessSim/QuadTree.cs:54-60 | clearing keeps the children laid out on their parents' quadrants |
| PointTree.Insert | SicknessSim/QuadTree.cs:166-195 | the tree gains exactly the inserted person; levels, regions and existing children are kept; a person on a midline stays in the node's own list |
| PointTree.Midline | SicknessSim/QuadTree.cs:182-193 | the persons of a list that `getIndex` places in no quadrant, in list order (a reference list for `Redistribute`) |
| PointTree.Redistribute | SicknessSim/QuadTree.cs:182-193 | the relocation loop loses and duplicates nothing; the list it keeps is exactly the midline persons, in their original order |
| PointTree.NoSplitAtMaxDepth | SicknessSim/QuadTree.cs:175-177 | at depth 200 or deeper a node only appends |
| PointTree.LeafBelowCapacityAppends | SicknessSim/QuadTree.cs:175-177 | a leaf that stays under 32 persons only appends |
| PointTree.InsertSettles | SicknessSim/QuadTree.cs:166-195 | after an insertion no person that fits strictly into a child is kept by a split node |
| PointTree.InsertKeepsPlaced | SicknessSim/QuadTree.cs:166-195 | inserting a person inside the region keeps every person inside its node's region, provided splitting is exact |
| PointTree.HalvableSplits | SicknessSim/QuadTree.cs:63-72 | on whole coordinates with sides divisible by 2^k, the truncating split produces the true quadrants |
| PointTree.NewQuadTree | SicknessSim/QuadTree.cs:10-13 | the new tree is empty, covers the square room, and satisfies the tree invariant |
| PointTree.TreeInsert | SicknessSim/QuadTree.cs:27-30 | the person is appended to the list and stored in the tree, keeping them in step |
| PointTree.TreeInsertKeepsGood | SicknessSim/QuadTree.cs:27-30 | inserting a person inside the room preserves the tree invariant |
| PointTree.TreeQuery | SicknessSim/QuadTree.cs:32-34 | results are stored persons inside the rectangle |
| PointTree.TreeQueryComplete | SicknessSim/QuadTree.cs:32-34 | under the invariant, a query returns exactly the listed persons inside the rectangle, with multiplicities |
| PointTree.InsertAll | SicknessSim/QuadTree.cs:18-20 | re-inserting a list stores exactly those persons in addition to the node's own |
| PointTree.Refresh | SicknessSim/QuadTree.cs:15-21 | the list keeps exactly the unflagged persons, and the tree holds exactly that list over the same region |
| PointTree.RefreshDropsFlagged | SicknessSim/QuadTree.cs:15-21 | after a refresh the tree stores a person exactly when it was listed and not flagged |
| PointTree.RefreshKeepsGood | SicknessSim/QuadTree.cs:15-21 | refreshing preserves the tree invariant |
| PointTree.TruncatedSplitLosesPerson | SicknessSim/QuadTree.cs:63-72 | as written: in a level-5 node 25 units wide, a person at (24.5, 1) is stored in a child truncated to end at 24, so a query around the person misses it |
| PointTree.ExactSplitFindsPerson | SicknessSim/QuadTree.cs:63-72 | with exact halving the same query finds the person |
| Engine.PlaceInArena | SicknessSim/Simulation.cs:17-18 | a position drawn from two uniform values lies in the room |
| Engine.Spawn | SicknessSim/Simulation.cs:16-29 | one constructor loop builds `count` persons of one status, placed at consecutive draw pairs; Infectious ones carry infection time 0; fresh ids are consecutive from the pool's end |
| Engine.NewSimulation | SicknessSim/Simulation.cs:12-32 | the population is `popSize - 100` Healthy persons (none if negative) followed by 100 Infectious ones, placed by consecutive draw pairs, at time 0 |
| Engine.NewSimulationInArena | SicknessSim/Simulation.cs:12-32 | every person of a new simulation starts in the room |
| Engine.Rate | SicknessSim/Simulation.cs:57-71 | a probability below 1, zero exactly for Healthy |
| Engine.RateGrowsWithSeverity | SicknessSim/Simulation.cs:57-71 | a more advanced status infects strictly more often |
| Engine.Targets | SicknessSim/Simulation.cs:42-47 | the ascending indices of exactly the Healthy persons near the source |
| Engine.Infect | SicknessSim/Simulation.cs:55-78 | each target with draw at most the rate becomes Infectious at the current time; nobody else changes; one draw per target |
| Engine.Visit | SicknessSim/Simulation.cs:50-84 | one loop iteration: the visitor becomes `Person.Tick`'s result, flagged exactly when dead for 80 ticks; when the ticked visitor is not Healthy, its m-th target becomes Infectious now exactly when the m-th draw after the tick's own is at most the rate of the ticked status, one draw per target; anyone else who changes was Healthy and near the ticked visitor |
| Engine.Spread | SicknessSim/Simulation.cs:53-84 | after the tick: the visitor is written back, flagged exactly when dead for 80 ticks; when it is not Healthy, one draw per target and the m-th target is infected exactly when the m-th draw is at most the rate; anyone else who changes was Healthy and near it and becomes Infectious now |
| Engine.RollsAroundVisitor | SicknessSim/Simulation.cs:55-78 | the visitor is never its own target, so the roll outcomes on the list holding the ticked visitor are those read off the list before the turn |
| Engine.VisitKeepsOthers | SicknessSim/Simulation.cs:53-84 | a turn changes nobody but the visitor and, when the ticked visitor is not Healthy, its targets |
| Engine.SpreadKeepsOthers | SicknessSim/Simulation.cs:53-84 | the same for any ticked visitor |
| Engine.Pass | SicknessSim/Simulation.cs:50-85 | the rest of the loop from a given index: persons before it change only by becoming infected; each person from it on only progresses (ticks, and possibly becomes infected) |
| Engine.SimulationTick | SicknessSim/Simulation.cs:49-94 | time advances by one, flagged persons are gone, and every survivor is a progressed version of someone in the old population |
| Engine.TurnsCompose | SicknessSim/Simulation.cs:50-85 | running turns i..k and then k..n is running turns i..n |
| Engine.PassIsTurns | SicknessSim/Simulation.cs:50-85 | the loop from index i is the turns from i to the end of the list |
| Engine.BeforeNext | SicknessSim/Simulation.cs:50-85 | the state before turn i + 1 is turn i applied to the state before turn i |
| Engine.PassSplits | SicknessSim/Simulation.cs:50-85 | the whole loop is its first i turns followed by the loop from i |
| Engine.RolledAt | SicknessSim/Simulation.cs:55-73 | since targets are distinct, the roll for the m-th target is the m-th draw |
| Engine.VisitInfectsTheHit | SicknessSim/Simulation.cs:51-78 | one turn makes a Healthy person non-Healthy exactly when the ticked visitor is not Healthy, the person is its target and the target's draw is at most the rate; a non-Healthy person stays non-Healthy |
| Engine.RolledTarget | SicknessSim/Simulation.cs:55-78 | the m-th target of a turn becomes non-Healthy exactly when it was already so or the turn hits it |
| Engine.HitsTheRolled | SicknessSim/Simulation.cs:55-73 | a turn hits its m-th target exactly when the m-th draw is at most the rate |
| Engine.HitAtTurn | SicknessSim/Simulation.cs:50-78 | turn h of the loop infects a person Healthy just before it exactly when it hits that person |
| Engine.HitsBeforeTurn | SicknessSim/Simulation.cs:50-78 | before turn i, a person who started Healthy is non-Healthy exactly when one of the first i turns hit it |
| Engine.TickInfectsExactlyTheHit | SicknessSim/Simulation.cs:49-85 | across a tick, a person who was Healthy becomes non-Healthy exactly when some turn hits it (the ticked visitor is not Healthy, the person is among its targets and the draw is at most the rate), and then it is Infectious since this tick |
| Engine.AheadOfTurn | SicknessSim/Simulation.cs:50-78 | before its own turn a person is as it started, or was just infected while Healthy |
| Engine.AfterTurn | SicknessSim/Simulation.cs:50-85 | after its own turn, the rest of the loop can only infect a person still Healthy |
| Engine.OwnTurnIsTick | SicknessSim/Simulation.cs:49-85 | across a tick each person is, at its own turn, `Person.Tick` of what it was just before (flagged when due for removal); before that it is as it started or just infected; after it, only an infection of a still Healthy person can follow |
| Engine.TickRemovesExactlyTheDue | SicknessSim/Simulation.cs:80-88 | a person survives the tick exactly when it was not already flagged and is not a Dead person 80 ticks past death; no status goes backwards |
| Engine.InfectionChainsWithinOneTick | SicknessSim/Simulation.cs:50-85 | in list order A (Infectious), B, C along a line with only neighbours near, B infected by A can infect C within the same tick |
| Engine.ReversedOrderStopsTheChain | SicknessSim/Simulation.cs:50-85 | with the same persons listed C, B, A, only B is infected in that tick, so the outcome depends on list order |
| BoxTree.SetupChildNodes | SicknessSim/QuadTreeDirection.cs:213-229 | children are created exactly when both halves stay at least the minimum leaf size; they are empty leaves on the four quadrants |
| BoxTree.QuadrantsCover | SicknessSim/QuadTreeDirection.cs:213-229 | every point of a region lies in one of its quadrants |
| BoxTree.FirstFit | SicknessSim/QuadTreeDirection.cs:158-165 | picks a child that contains the object's bounds, or reports that none does |
| BoxTree.FirstFitIsFirst | SicknessSim/QuadTreeDirection.cs:158-165 | the chosen child is the first one in NW, NE, SW, SE order that contains the bounds |
| BoxTree.StartRoot | SicknessSim/QuadTreeDirection.cs:57-65 | the starting node of an insertion: the existing root unchanged, or for an empty tree a fresh empty leaf at least one minimum leaf in size that contains the new object's bounds |
| BoxTree.InsertNode | SicknessSim/QuadTreeDirection.cs:130-169 | fails with NotContained exactly when the node does not contain the object; otherwise the node gains exactly that object and keeps its region and children; the object lands under the first child that contains it, or in the node's own list when none does |
| BoxTree.Split | SicknessSim/QuadTreeDirection.cs:135-156 | a full leaf gains four children and loses no object |
| BoxTree.Relocate | SicknessSim/QuadTreeDirection.cs:141-155 | moving objects into the children loses and duplicates nothing; those kept fit no child |
| BoxTree.InsertKeepsPlaced | SicknessSim/QuadTreeDirection.cs:130-169 | after insertion every object still lies within its node's bounds |
| BoxTree.InsertSettles | SicknessSim/QuadTreeDirection.cs:130-169 | after insertion no split node keeps an object that fits into one of its children |
| BoxTree.QueryNode | SicknessSim/QuadTreeDirection.cs:86-101 | results are stored objects that intersect the query |
| BoxTree.QueryComplete | SicknessSim/QuadTreeDirection.cs:86-101 | in a placed tree the pruned query equals the intersecting stored objects in storage order |
| BoxTree.Count | SicknessSim/QuadTreeDirection.cs:315-334 | the object count of a subtree is the size of its contents |
| BoxTree.Merge | SicknessSim/QuadTreeDirection.cs:253-275 | collapsing a node's children into it keeps exactly the same objects |
| BoxTree.CheckChildNodes | SicknessSim/QuadTreeDirection.cs:249-278 | merges exactly when the subtree holds at most `maxObjectsPerLeaf` objects; either way the tree invariant, the rectangle and the multiset of objects are kept; a merge leaves a leaf whose list starts with the node's own objects |
| BoxTree.Hits | SicknessSim/QuadTreeDirection.cs:91-94 | the objects of a node's list that intersect the query region, each as often as in the list and nothing else |
| BoxTree.RemoveOne | SicknessSim/QuadTreeDirection.cs:183 | `List.Remove` of a present object takes out exactly one copy and shortens the list by one |
| BoxTree.RemoveFrom | SicknessSim/QuadTreeDirection.cs:231-278 | removal from a subtree takes out exactly one copy of the object and keeps the node's region |
| BoxTree.RemoveKeepsPlaced | SicknessSim/QuadTreeDirection.cs:231-278 | removal and merging keep every object within its node's bounds |
| BoxTree.RemoveSettles | SicknessSim/QuadTreeDirection.cs:231-278 | removal and merging keep objects out of split nodes when a child would take them |
| BoxTree.RootBounds | SicknessSim/QuadTreeDirection.cs:57-65 | the corrected first root (see Findings): a whole number of minimum leaves wide and high, at least one, centred on the object, and containing it |
| BoxTree.RootBoundsAgree | SicknessSim/QuadTreeDirection.cs:57-64 | the corrected root equals the as-written one exactly when the as-written multiplier is at least 1, which holds for every object with a positive width or height |
| BoxTree.MultipleSpans | SicknessSim/QuadTreeDirection.cs:58-61 | a multiplier at least the source's `Math.Max` of the two ceiling ratios, and at least 1, spans the object and one minimum leaf in each direction |
| BoxTree.CentredCovers | SicknessSim/QuadTreeDirection.cs:61-63 | a root centred on the object whose sides span the object contains it |
| BoxTree.ExpandRoot | SicknessSim/QuadTreeDirection.cs:103-128 | the new root is twice as wide and high, contains the old root as the quadrant on the object's side, and holds the same objects |
| BoxTree.OldRootIsQuadrant | SicknessSim/QuadTreeDirection.cs:103-128 | the old root is exactly the chosen quadrant of the expanded root |
| BoxTree.Grow | SicknessSim/QuadTreeDirection.cs:67-69 | expands until the root contains the object, keeping the objects; fails only when the bound on expansions runs out |
| BoxTree.GrowReaches | SicknessSim/QuadTreeDirection.cs:67-69 | from a root of positive size, a computable number of expansions always reaches any object |
| BoxTree.PointRootNeverGrows | SicknessSim/QuadTreeDirection.cs:57-69 | as written, a zero-size first object gives a zero-size root, and the expansion loop never contains any object outside it |
| BoxTree.PointThenBoxLoops | SicknessSim/QuadTreeDirection.cs:57-69 | concrete case: a point at (0,0) then a 1×1 box at (5,5) never fits, for any number of expansions |
| BoxTree.PointRootGrows | SicknessSim/QuadTreeDirection.cs:57-69 | with the corrected root of at least one leaf, the same situation always terminates |
| BoxTree.NewTree | SicknessSim/QuadTreeDirection.cs:23-36 | a new tree is empty and satisfies the tree invariant |
| BoxTree.GetSortOrder | SicknessSim/QuadTreeDirection.cs:42-48 | -1 exactly for objects without a number; with sorting on, those are the objects not stored; numbers stay below the next one to hand out |
| BoxTree.ObjectCount | SicknessSim/QuadTreeDirection.cs:315-334 | the count equals the number of stored objects |
| BoxTree.Insert | SicknessSim/QuadTreeDirection.cs:50-73 | fails with DuplicateObject exactly when the object is already stored; on success the tree gains exactly that object and its root contains it |
| BoxTree.InsertSucceeds | SicknessSim/QuadTreeDirection.cs:50-73 | inserting a new object succeeds given enough expansions |
| BoxTree.InsertKeepsGood | SicknessSim/QuadTreeDirection.cs:50-73 | insertion preserves the tree invariant: placement, uniqueness and sort numbering |
| BoxTree.InsertNumbersLast | SicknessSim/QuadTreeDirection.cs:52-54 | with sorting on, the new object gets the next number, above every stored object's, whose numbers are unchanged |
| BoxTree.SortByOrder | SicknessSim/QuadTreeDirection.cs:80-81 | the result is ordered by sort number and is a permutation of the input |
| BoxTree.Query | SicknessSim/QuadTreeDirection.cs:75-84 | results are stored objects that intersect the query, ordered by sort number when sorting is on |
| BoxTree.QueryFindsAll | SicknessSim/QuadTreeDirection.cs:75-84 | under the invariant an object is returned exactly when it is stored and intersects the query, and at most once |
| BoxTree.QueryInInsertionOrder | SicknessSim/QuadTreeDirection.cs:75-84 | with sorting on, results appear in strictly increasing insertion order |
| BoxTree.Remove | SicknessSim/QuadTreeDirection.cs:231-246 | fails with KeyNotFound exactly when the object is not stored; otherwise exactly that object leaves, the count drops by one and its sort number is gone |
| BoxTree.RemoveKeepsGood | SicknessSim/QuadTreeDirection.cs:231-246 | removal preserves the tree invariant |

## Left out

- Locks (`lock (Lock)`, `syncLock`), console output, `Debug.Fail`, and the WPF
  drawing code and colours: these have no effect on the modelled state.
- `DieRate` and the older `Tick` engine in Person.cs after line 202: the
  simulation loop in Simulation.cs does not use them.
- Agent.Tick: it requires the draw at the cursor to be a `NextDouble()` value
  only for a moving person due to turn, the only case that reads it.
- `System.Random`: the model uses the parameter `draws` instead. `Next(4)` is
  taken as the quarter of [0, 1) that a `NextDouble()` value falls in.
- Floating point: doubles are reals, so no rounding, NaN or infinity. The
  as-written `DistanceTo` is modelled through the sign of its radicand, with a
  negative radicand (a NaN distance) comparing false.
- The WPF `Rect` is taken as a closed rectangle with non-negative size. Its
  `Empty` value and its infinities are not modelled.
- Engine.SimulationTick: proximity is the parameter `near`, not the
  `DistanceTo <= InfluenceRadius` test, because the source's distance is broken
  (see Findings). Engine.TickInfectsExactlyTheHit, Engine.OwnTurnIsTick and
  Engine.TickRemovesExactlyTheDue hold for any `near`. The order-dependence
  lemmas Engine.InfectionChainsWithinOneTick and
  Engine.ReversedOrderStopsTheChain are instances: they fix `near` to `OnLine`
  (at most 12 apart along x) and every draw to 0.
- Engine.NewSimulation: the persons take fresh ids only when the pool has no
  free slot. With a free slot, `NewPerson` states the reuse, and the contract
  says nothing about ids.
- The `Person` id pool is a global list in the source. Here it is the explicit
  value `Pool`, threaded through construction and `Dispose`.
- The id pool's reuse defect has no corrected member. When `GetAvailableIndex`
  finds a free slot, the constructor does not mark it taken again, so live
  persons can share an id (Agent.ReusedSlotIsHandedOutTwice,
  Agent.DuplicateLiveIds). Ids only label persons in this model, and nothing
  else depends on them.
- PointTree.InsertKeepsPlaced and the other placement lemmas under the
  as-written split rule: they require a region that halves exactly down to
  depth 200. No real room does this (the 800-unit room stops halving evenly at
  depth 5), so the tree invariant is proved for the exact rule, and the
  truncating rule appears only in the finding.
- QuadTree.cs `Refresh` re-inserts the persons in list order into the cleared
  tree. Cleared child nodes stay in place as the source keeps them.
- BoxTree.Insert: on a duplicate object the source keeps the object's sort
  number (the numbering at QuadTreeDirection.cs:52 is guarded by
  `ContainsKey`). It then appends the object to a node's list a second time,
  possibly splitting that node, and only then throws from the dictionary's
  `Add`. The model refuses the duplicate atomically with DuplicateObject and
  leaves the tree unchanged. It does not model the half-done insertion the
  exception leaves behind.
- BoxTree.Insert: the source's expansion loop is unbounded. The model takes a
  bound `expansions` and fails with ExpansionLimit when it runs out.
  BoxTree.GrowReaches and BoxTree.InsertSucceeds give a bound that always
  suffices.
- BoxTree.Remove: the source deletes the sort number before it checks whether
  the object is stored. Under the tree invariant, an object without a node has
  no sort number, so the two orders agree.
- BoxTree.Relocate: during a split the source adds an object to
  `childrenToRelocate` once per child rectangle that contains it. Child
  rectangles are closed, so an object on a shared edge is listed twice, in
  adjacent entries. Its second removal and re-insertion put it back in the same
  child, so the repeat changes nothing. The model relocates each object once.
  The merge's `Contains` check is omitted because stored objects are unique.
- The root-collapse branch of `CheckChildNodes` (QuadTreeDirection.cs:279-297)
  runs right after the root's four children were set to null. It therefore
  finds no child holding objects and never replaces the root, so it is not
  modelled.
- BoxTree.RootBounds / BoxTree.Insert: both use the corrected first root of
  at least one minimum leaf (`Math.Max(multiplier, 1)`), not the source's
  multiplier, which is 0 for a zero-size first object. The as-written root is
  BoxTree.RootBoundsAsWritten, and BoxTree.PointRootNeverGrows and
  BoxTree.PointThenBoxLoops show where it leads (see Findings). For every
  object with a positive width or height the two roots agree
  (BoxTree.RootBoundsAgree).
- BoxTree settings must have a positive minimum leaf size (`Sane`). The source
  does not check this, and with zero the first root would have no size.
- `BoundsChanged` events and the re-insertion they trigger, `GetQuadNodeCount`,
  `GetAllNodes`, the `QuadNode` parent links and the private
  `ClearQuadObjectsFromNode`, which nothing calls: bookkeeping and traversals
  the modelled operations do not depend on.
- The `getIndex(Rect)` overload of QuadTree.cs and `QuadTree.AllPersons`: the
  model keeps `allPersons` as a field of the tree value.

## Findings

| source | as written | input that shows it | evidently intended | confidence | as-written member | corrected member |
|---|---|---|---|---|---|---|
| SicknessSim/Vector.cs:63-67 | the radicand is `(X - other.X) * (X * other.X) + (Y - other.Y) * (Y * other.Y)`, a product where the squared difference belongs | (0,0) and (100,100), 141 apart, have radicand 0 and count as within 25; (10,10) and (12,10), 2 apart, have radicand -240 and a NaN distance | `Math.Sqrt((X - other.X)^2 + (Y - other.Y)^2)` | high; not executed | Vectors.FarPairCountsAsNear | Vectors.WithinSymmetric |
| SicknessSim/QuadTree.cs:63-72 | children are sized with `(int) bounds.Width / 2` from the truncated corner, while `getIndex` compares with the exact midpoint | in a level-5 node of the 800 room (25 × 25 at the origin), the person at (24.5, 1) goes to child 0, sized [12, 24] × [0, 12]; a query of [24.25, 24.75] × [0.5, 1.5] prunes that child and misses the person | children that are the exact quadrants, so every stored person lies in its node's region | high; not executed | PointTree.TruncatedSplitLosesPerson | PointTree.ExactSplitFindsPerson |
| SicknessSim/QuadTreeDirection.cs:57-69 | the first root is `Max(Ceiling(w / minW), Ceiling(h / minH))` minimum leaves wide, which is 0 for a zero-size object, and `ExpandRoot` doubles a zero-size root into itself | with `minLeafSize` 1 × 1, insert a point at (0,0) and then a 1 × 1 box at (5,5); the expansion loop never ends | a first root of at least one minimum leaf, so expansion reaches every object | high; not executed | BoxTree.PointThenBoxLoops | BoxTree.PointRootGrows |

=== FILE: boxtree.dfy ===
/** The generic bounding-box quadtree `QuadTree<T>` of
    SicknessSim/QuadTreeDirection.cs, modelled functionally. An object is an
    `Item`: its identity (the C# object reference) and its bounds. Nodes are
    values; the parent links, the object-to-node dictionary and the
    `BoundsChanged` subscriptions of the source are replaced by searching the
    tree. */
module BoxTree {
  import opened Rects
  import opened Support

  /** A stored object: `id` stands for the reference identity of the C#
      object, `bounds` for its `Bounds`. */
  datatype Item = Item(id: nat, bounds: Rect)

  /** `QTDirection`, in the order of `QuadNode.Nodes`. */
  datatype Quarter = NW | NE | SW | SE

  /** A node: its region, the objects it stores itself, and its children. */
  datatype BNode = BNode(bounds: Rect, objects: seq<Item>, kids: Kids)

  /** Either no children (`HasChildNodes()` is false) or all four. */
  datatype Kids = NoKids | Four(nw: BNode, ne: BNode, sw: BNode, se: BNode)

  /** The constructor arguments: `minLeafSize`, `maxObjectsPerLeaf`, `sort`. */
  datatype Settings = Settings(minWidth: real, minHeight: real, maxObjectsPerLeaf: int, sort: bool)

  /** The exceptions the tree throws. */
  datatype Error =
    | NotContained      // InsertNodeObject: "child does not fit within node bounds"
    | DuplicateObject   // AddQuadObjectToNode: the dictionary already holds the object
    | KeyNotFound       // Remove: the object is not in the tree
    | ExpansionLimit    // the model's bound on ExpandRoot calls ran out

  /** A usable minimum leaf size. */
  predicate Sane(s: Settings)
  {
    s.minWidth > 0.0 && s.minHeight > 0.0
  }

  function Kid(c: Kids, d: Quarter): BNode
    requires c.Four?
  {
    match d
    case NW => c.nw
    case NE => c.ne
    case SW => c.sw
    case SE => c.se
  }

  function WithKid(c: Kids, d: Quarter, k: BNode): (r: Kids)
    requires c.Four?
    ensures r.Four? && Kid(r, d) == k
    ensures forall e :: e != d ==> Kid(r, e) == Kid(c, e)
  {
    match d
    case NW => c.(nw := k)
    case NE => c.(ne := k)
    case SW => c.(sw := k)
    case SE => c.(se := k)
  }

  // ---------------------------------------------------------------- geometry

  /** The quadrant `d` of `b` as `SetupChildNodes` lays it out. */
  function Quadrant(b: Rect, d: Quarter): Rect
  {
    var w := b.width / 2.0;
    var h := b.height / 2.0;
    match d
    case NW => Rect(b.x, b.y, w, h)
    case NE => Rect(b.x + w, b.y, w, h)
    case SW => Rect(b.x, b.y + h, w, h)
    case SE => Rect(b.x + w, b.y + h, w, h)
  }

  /** A quadrant lies inside its rectangle. */
  lemma QuadrantInside(b: Rect, d: Quarter)
    requires b.width >= 0.0 && b.height >= 0.0
    ensures ContainsRect(b, Quadrant(b, d))
  {
  }

  /** The four quadrants cover their rectangle: each point of `b` lies in one. */
  lemma QuadrantsCover(b: Rect, px: real, py: real)
    requires b.Left() <= px <= b.Right() && b.Top() <= py <= b.Bottom()
    ensures exists d :: var q := Quadrant(b, d); q.Left() <= px <= q.Right() && q.Top() <= py <= q.Bottom()
  {
    var d := if px <= b.x + b.width / 2.0 then (if py <= b.y + b.height / 2.0 then NW else SW)
             else (if py <= b.y + b.height / 2.0 then NE else SE);
    var q := Quadrant(b, d);
    assert q.Left() <= px <= q.Right() && q.Top() <= py <= q.Bottom();
  }

  /** The `SetupChildNodes` test: half the node is at least `minLeafSize`. */
  predicate Splittable(s: Settings, b: Rect)
  {
    s.minWidth <= b.width / 2.0 && s.minHeight <= b.height / 2.0
  }

  /** Four empty leaves on the quadrants of `b`. */
  function NewKids(b: Rect): (r: Kids)
    ensures r.Four? && forall d :: Kid(r, d) == BNode(Quadrant(b, d), [], NoKids)
  {
    Four(BNode(Quadrant(b, NW), [], NoKids), BNode(Quadrant(b, NE), [], NoKids),
         BNode(Quadrant(b, SW), [], NoKids), BNode(Quadrant(b, SE), [], NoKids))
  }

  /** `SetupChildNodes`: the node gains four empty quadrant children exactly
      when half its size reaches `minLeafSize`; otherwise it stays a leaf. */
  function SetupChildNodes(s: Settings, b: Rect): (r: Kids)
    ensures r.Four? <==> Splittable(s, b)
    ensures r.Four? ==> forall d :: Kid(r, d).bounds == Quadrant(b, d) && Kid(r, d).objects == [] && Kid(r, d).kids.NoKids?
  {
    if Splittable(s, b) then NewKids(b) else NoKids
  }

  /** How many times `w` can be halved while staying at least `2 * m`: a
      bound on how deep children can be set up below a node of width `w`. */
  function Levels(w: real, m: real): nat
    requires m > 0.0
    decreases if w <= 0.0 then 0 else (w / m).Floor
  {
    if w < 2.0 * m then 0
    else
      LevelsShrink(w, m);
      1 + Levels(w / 2.0, m)
  }

  /** A child has fewer levels below it than its splittable parent. */
  lemma KidLevels(s: Settings, b: Rect, d: Quarter)
    requires Sane(s) && Splittable(s, b)
    ensures Levels(Quadrant(b, d).width, s.minWidth) < Levels(b.width, s.minWidth)
  {
    assert Quadrant(b, d).width == b.width / 2.0;
    assert b.width >= 2.0 * s.minWidth;
  }

  lemma LevelsShrink(w: real, m: real)
    requires m > 0.0 && w >= 2.0 * m
    ensures 0 <= ((w / 2.0) / m).Floor < (w / m).Floor
  {
    var q := w / m;
    assert q * m == w;
    assert (q / 2.0) * m == w / 2.0;
    assert (w / 2.0) / m == q / 2.0;
    assert q >= 2.0 by {
      if q < 2.0 {
        MulLess(q, 2.0, m);
      }
    }
  }

  lemma MulLess(a: real, b: real, m: real)
    requires a < b && m > 0.0
    ensures a * m < b * m
  {
    assert b * m - a * m == (b - a) * m;
  }

  // -------------------------------------------------------------- structure

  /** Children come four at a time, on the quadrants, and only where
      `SetupChildNodes` would create them. */
  predicate Valid(s: Settings, n: BNode)
    decreases n
  {
    && n.bounds.width > 0.0 && n.bounds.height > 0.0
    && (n.kids.NoKids? || (Splittable(s, n.bounds) && ValidKids(s, n.bounds, n.kids)))
  }

  predicate ValidKids(s: Settings, b: Rect, c: Kids)
    decreases c
  {
    && c.Four?
    && c.nw.bounds == Quadrant(b, NW) && Valid(s, c.nw)
    && c.ne.bounds == Quadrant(b, NE) && Valid(s, c.ne)
    && c.sw.bounds == Quadrant(b, SW) && Valid(s, c.sw)
    && c.se.bounds == Quadrant(b, SE) && Valid(s, c.se)
  }

  lemma KidIsValid(s: Settings, b: Rect, c: Kids, d: Quarter)
    requires ValidKids(s, b, c)
    ensures Kid(c, d).bounds == Quadrant(b, d) && Valid(s, Kid(c, d))
  {
  }

  /** An empty leaf holds nothing, so nothing in it is misplaced. */
  lemma EmptyLeaf(b: Rect)
    ensures var n := BNode(b, [], NoKids); Bag(n) == multiset{} && Placed(n) && Settled(n)
  {
  }

  lemma NewKidsValid(s: Settings, b: Rect)
    requires b.width > 0.0 && b.height > 0.0
    ensures ValidKids(s, b, NewKids(b))
    ensures BagKids(NewKids(b)) == multiset{}
    ensures PlacedKids(NewKids(b)) && SettledKids(NewKids(b))
  {
    var c := NewKids(b);
    EmptyLeaf(Quadrant(b, NW));
    EmptyLeaf(Quadrant(b, NE));
    EmptyLeaf(Quadrant(b, SW));
    EmptyLeaf(Quadrant(b, SE));
  }

  /** `GetChildObjects`: the subtree's objects, node before children,
      children in `Nodes` order. */
  function Flatten(n: BNode): seq<Item>
    decreases n
  {
    n.objects + FlattenKids(n.kids)
  }

  function FlattenKids(c: Kids): seq<Item>
    decreases c
  {
    match c
    case NoKids => []
    case Four(a, b, d, e) => Flatten(a) + Flatten(b) + Flatten(d) + Flatten(e)
  }

  /** The multiset of objects stored in the subtree. */
  function Bag(n: BNode): multiset<Item>
    decreases n
  {
    multiset(n.objects) + BagKids(n.kids)
  }

  function BagKids(c: Kids): multiset<Item>
    decreases c
  {
    match c
    case NoKids => multiset{}
    case Four(a, b, d, e) => Bag(a) + Bag(b) + Bag(d) + Bag(e)
  }

  lemma {:induction false} BagIsFlatten(n: BNode)
    decreases n
    ensures Bag(n) == multiset(Flatten(n))
  {
    BagKidsIsFlatten(n.kids);
  }

  lemma {:induction false} BagKidsIsFlatten(c: Kids)
    decreases c
    ensures BagKids(c) == multiset(FlattenKids(c))
  {
    match c
    case NoKids =>
    case Four(a, b, d, e) =>
      BagIsFlatten(a); BagIsFlatten(b); BagIsFlatten(d); BagIsFlatten(e);
  }

  /** Replacing child `d` swaps its objects for the new child's. */
  lemma ReplaceKid(s: Settings, b: Rect, c: Kids, d: Quarter, k: BNode)
    requires c.Four?
    ensures ValidKids(s, b, c) && k.bounds == Kid(c, d).bounds && Valid(s, k) ==> ValidKids(s, b, WithKid(c, d, k))
  {
  }

  /** Replacing child `d` swaps its objects for the new child's. */
  lemma SwapKid(c: Kids, d: Quarter, k: BNode)
    requires c.Four?
    ensures BagKids(WithKid(c, d, k)) + Bag(Kid(c, d)) == BagKids(c) + Bag(k)
  {
    match d
    case NW => assert WithKid(c, d, k) == c.(nw := k);
    case NE => assert WithKid(c, d, k) == c.(ne := k);
    case SW => assert WithKid(c, d, k) == c.(sw := k);
    case SE => assert WithKid(c, d, k) == c.(se := k);
  }

  /** Adding `o` to child `d` adds it to the children. */
  lemma AddToKid(c: Kids, d: Quarter, k: BNode, o: Item)
    requires c.Four? && Bag(k) == Bag(Kid(c, d)) + multiset{o}
    ensures BagKids(WithKid(c, d, k)) == BagKids(c) + multiset{o}
  {
    match d
    case NW => assert WithKid(c, d, k) == c.(nw := k);
    case NE => assert WithKid(c, d, k) == c.(ne := k);
    case SW => assert WithKid(c, d, k) == c.(sw := k);
    case SE => assert WithKid(c, d, k) == c.(se := k);
  }

  /** Taking `o` out of child `d` takes it out of the children. */
  lemma TakeOutOfKid(c: Kids, d: Quarter, k: BNode, o: Item)
    requires c.Four? && o in Bag(Kid(c, d)) && Bag(k) == Bag(Kid(c, d)) - multiset{o}
    ensures o in BagKids(c) && BagKids(WithKid(c, d, k)) == BagKids(c) - multiset{o}
  {
    match d
    case NW => assert WithKid(c, d, k) == c.(nw := k);
    case NE => assert WithKid(c, d, k) == c.(ne := k);
    case SW => assert WithKid(c, d, k) == c.(sw := k);
    case SE => assert WithKid(c, d, k) == c.(se := k);
  }

  // ---------------------------------------------------------------- insert

  /** The first child, in `Nodes` order, whose bounds contain `b`. */
  function FirstFit(c: Kids, b: Rect): (r: Option<Quarter>)
    ensures r.Some? ==> c.Four? && ContainsRect(Kid(c, r.value).bounds, b)
    ensures r.None? && c.Four? ==> forall d :: !ContainsRect(Kid(c, d).bounds, b)
  {
    if c.NoKids? then None
    else if ContainsRect(c.nw.bounds, b) then Some(NW)
    else if ContainsRect(c.ne.bounds, b) then Some(NE)
    else if ContainsRect(c.sw.bounds, b) then Some(SW)
    else if ContainsRect(c.se.bounds, b) then Some(SE)
    else None
  }

  /** `FirstFit` picks the earliest child that fits. */
  lemma FirstFitIsFirst(c: Kids, b: Rect)
    requires c.Four?
    ensures FirstFit(c, b) == Some(NE) ==> !ContainsRect(c.nw.bounds, b)
    ensures FirstFit(c, b) == Some(SW) ==> !ContainsRect(c.nw.bounds, b) && !ContainsRect(c.ne.bounds, b)
    ensures FirstFit(c, b) == Some(SE) ==> !ContainsRect(c.nw.bounds, b) && !ContainsRect(c.ne.bounds, b) && !ContainsRect(c.sw.bounds, b)
    ensures FirstFit(c, b).None? <==> forall d :: !ContainsRect(Kid(c, d).bounds, b)
  {
    if FirstFit(c, b).Some? {
      var d := FirstFit(c, b).value;
      assert ContainsRect(Kid(c, d).bounds, b);
    }
  }

  /** `FirstFit` looks only at the children's bounds. */
  lemma FirstFitSameBounds(c: Kids, c': Kids, b: Rect)
    requires c.Four? && c'.Four? && forall d :: Kid(c, d).bounds == Kid(c', d).bounds
    ensures FirstFit(c, b) == FirstFit(c', b)
  {
    assert c.nw.bounds == c'.nw.bounds by { assert Kid(c, NW) == c.nw; }
    assert c.ne.bounds == c'.ne.bounds by { assert Kid(c, NE) == c.ne; }
    assert c.sw.bounds == c'.sw.bounds by { assert Kid(c, SW) == c.sw; }
    assert c.se.bounds == c'.se.bounds by { assert Kid(c, SE) == c.se; }
  }

  /** Replacing a child by one with the same bounds leaves `FirstFit` alone. */
  lemma WithKidSameFit(c: Kids, d: Quarter, k: BNode)
    requires c.Four? && k.bounds == Kid(c, d).bounds
    ensures forall b :: FirstFit(WithKid(c, d, k), b) == FirstFit(c, b)
  {
    forall b {
      FirstFitSameBounds(c, WithKid(c, d, k), b);
    }
  }

  /** Storing `it` in child `d` stores it in the node. */
  lemma DelegateStores(s: Settings, n: BNode, d: Quarter, k: BNode, it: Item)
    requires Valid(s, n) && n.kids.Four? && k.bounds == Kid(n.kids, d).bounds && Valid(s, k)
    requires Bag(k) == Bag(Kid(n.kids, d)) + multiset{it}
    ensures Valid(s, n.(kids := WithKid(n.kids, d, k)))
    ensures Bag(n.(kids := WithKid(n.kids, d, k))) == Bag(n) + multiset{it}
  {
    ReplaceKid(s, n.bounds, n.kids, d, k);
    AddToKid(n.kids, d, k, it);
  }

  /** `InsertNodeObject`: refuses an object the node does not contain; a
      full leaf first sets up its children and relocates every stored object
      that fits one; then the object goes into the first child containing it,
      or stays in the node. */
  function InsertNode(s: Settings, n: BNode, it: Item): (r: Result<BNode, Error>)
    requires Sane(s) && Valid(s, n)
    decreases Levels(n.bounds.width, s.minWidth), if n.kids.NoKids? then 1 else 0, 0
    ensures r.Success? <==> ContainsRect(n.bounds, it.bounds)
    ensures r.Failure? ==> r.error == NotContained
    ensures r.Success? ==> Valid(s, r.value) && r.value.bounds == n.bounds
    ensures r.Success? && n.kids.Four? ==> r.value.kids.Four?
    ensures r.Success? ==> Bag(r.value) == Bag(n) + multiset{it}
    // the object goes under the first child containing it, else into the node's list
    ensures r.Success? && FirstFit(r.value.kids, it.bounds).Some? ==>
      it in Bag(Kid(r.value.kids, FirstFit(r.value.kids, it.bounds).value))
    ensures r.Success? && FirstFit(r.value.kids, it.bounds).None? ==> it in r.value.objects
  {
    if !ContainsRect(n.bounds, it.bounds) then Failure(NotContained)
    else
      var m := if n.kids.NoKids? && |n.objects| + 1 > s.maxObjectsPerLeaf && Splittable(s, n.bounds)
               then Split(s, n) else n;
      var d := FirstFit(m.kids, it.bounds);
      if d.Some? then
        KidIsValid(s, m.bounds, m.kids, d.value);
        KidLevels(s, m.bounds, d.value);
        var k := InsertNode(s, Kid(m.kids, d.value), it);
        DelegateStores(s, m, d.value, k.value, it);
        WithKidSameFit(m.kids, d.value, k.value);
        assert Kid(WithKid(m.kids, d.value, k.value), d.value) == k.value;
        Success(m.(kids := WithKid(m.kids, d.value, k.value)))
      else
        Success(m.(objects := m.objects + [it]))
  }

  /** The split of a full leaf: four new children, then the relocation loop. */
  function Split(s: Settings, n: BNode): (r: BNode)
    requires Sane(s) && Valid(s, n) && n.kids.NoKids? && Splittable(s, n.bounds)
    decreases Levels(n.bounds.width, s.minWidth), 0, |n.objects| + 1
    ensures Valid(s, r) && r.bounds == n.bounds && r.kids.Four? && Bag(r) == Bag(n)
  {
    NewKidsValid(s, n.bounds);
    var (kept, kids) := Relocate(s, n.bounds, n.objects, NewKids(n.bounds));
    BNode(n.bounds, kept, kids)
  }

  /** Moving `o` into child `d` moves it into the children. */
  lemma MoveToKid(s: Settings, b: Rect, c: Kids, d: Quarter, k: BNode, o: Item)
    requires ValidKids(s, b, c)
    requires k.bounds == Kid(c, d).bounds && Valid(s, k)
    requires Bag(k) == Bag(Kid(c, d)) + multiset{o}
    ensures ValidKids(s, b, WithKid(c, d, k))
    ensures BagKids(WithKid(c, d, k)) == BagKids(c) + multiset{o}
  {
    ReplaceKid(s, b, c, d, k);
    AddToKid(c, d, k, o);
  }

  /** The relocation loop of a split, over the node's list in order: an
      object some child contains is taken out and inserted again through the
      node, which sends it to the first such child; the others stay, in
      order. Returns the kept objects and the updated children. */
  function Relocate(s: Settings, b: Rect, objs: seq<Item>, c: Kids): (r: (seq<Item>, Kids))
    requires Sane(s) && Splittable(s, b) && ValidKids(s, b, c)
    decreases Levels(b.width, s.minWidth), 0, |objs|
    ensures ValidKids(s, b, r.1)
    ensures multiset(r.0) + BagKids(r.1) == multiset(objs) + BagKids(c)
    ensures forall o :: o in r.0 ==> o in objs && FirstFit(c, o.bounds).None?
  {
    if objs == [] then ([], c)
    else
      var o := objs[0];
      assert multiset(objs) == multiset{o} + multiset(objs[1..]) by {
        assert objs == [o] + objs[1..];
      }
      var d := FirstFit(c, o.bounds);
      if d.None? then
        var rest := Relocate(s, b, objs[1..], c);
        assert multiset([o] + rest.0) + BagKids(rest.1) == multiset{o} + (multiset(rest.0) + BagKids(rest.1));
        assert multiset(objs) + BagKids(c) == multiset{o} + (multiset(objs[1..]) + BagKids(c));
        assert forall x :: x in objs[1..] ==> x in objs;
        ([o] + rest.0, rest.1)
      else
        KidIsValid(s, b, c, d.value);
        KidLevels(s, b, d.value);
        var k := InsertNode(s, Kid(c, d.value), o);
        MoveToKid(s, b, c, d.value, k.value, o);
        var c' := WithKid(c, d.value, k.value);
        WithKidSameFit(c, d.value, k.value);
        Relocate(s, b, objs[1..], c')
  }

  // -------------------------------------------------------------- invariants

  /** Every object lies inside the node that stores it. */
  predicate Placed(n: BNode)
    decreases n
  {
    (forall o :: o in n.objects ==> ContainsRect(n.bounds, o.bounds)) && PlacedKids(n.kids)
  }

  predicate PlacedKids(c: Kids)
    decreases c
  {
    c.NoKids? || (Placed(c.nw) && Placed(c.ne) && Placed(c.sw) && Placed(c.se))
  }

  lemma PlacedKid(c: Kids, d: Quarter)
    requires c.Four? && PlacedKids(c)
    ensures Placed(Kid(c, d))
  {
  }

  lemma PlacedWithKid(c: Kids, d: Quarter, k: BNode)
    requires c.Four? && PlacedKids(c) && Placed(k)
    ensures PlacedKids(WithKid(c, d, k))
  {
  }

  /** An object stored at a node with children fits none of them: it could
      not have been sent further down. */
  predicate Settled(n: BNode)
    decreases n
  {
    && (n.kids.Four? ==> forall o :: o in n.objects ==> FirstFit(n.kids, o.bounds).None?)
    && SettledKids(n.kids)
  }

  predicate SettledKids(c: Kids)
    decreases c
  {
    c.NoKids? || (Settled(c.nw) && Settled(c.ne) && Settled(c.sw) && Settled(c.se))
  }

  lemma SettledKid(c: Kids, d: Quarter)
    requires c.Four? && SettledKids(c)
    ensures Settled(Kid(c, d))
  {
  }

  lemma SettledWithKid(c: Kids, d: Quarter, k: BNode)
    requires c.Four? && SettledKids(c) && Settled(k)
    ensures SettledKids(WithKid(c, d, k))
  {
  }

  /** Two sets of children on the same quadrants send every object the same way. */
  lemma SameQuadrantsSameFit(s: Settings, b: Rect, c: Kids, c': Kids)
    requires ValidKids(s, b, c) && ValidKids(s, b, c')
    ensures forall x :: FirstFit(c, x) == FirstFit(c', x)
  {
    forall d ensures Kid(c, d).bounds == Kid(c', d).bounds {
      KidIsValid(s, b, c, d);
      KidIsValid(s, b, c', d);
    }
    forall x {
      FirstFitSameBounds(c, c', x);
    }
  }

  lemma {:induction false} InsertKeepsPlaced(s: Settings, n: BNode, it: Item)
    requires Sane(s) && Valid(s, n) && Placed(n) && ContainsRect(n.bounds, it.bounds)
    decreases Levels(n.bounds.width, s.minWidth), if n.kids.NoKids? then 1 else 0, 0
    ensures Placed(InsertNode(s, n, it).value)
  {
    var split := n.kids.NoKids? && |n.objects| + 1 > s.maxObjectsPerLeaf && Splittable(s, n.bounds);
    var m := if split then Split(s, n) else n;
    if split {
      NewKidsValid(s, n.bounds);
      RelocateKeepsPlaced(s, n.bounds, n.objects, NewKids(n.bounds));
    }
    assert Placed(m);
    var d := FirstFit(m.kids, it.bounds);
    if d.Some? {
      KidIsValid(s, m.bounds, m.kids, d.value);
      PlacedKid(m.kids, d.value);
      InsertKeepsPlaced(s, Kid(m.kids, d.value), it);
      PlacedWithKid(m.kids, d.value, InsertNode(s, Kid(m.kids, d.value), it).value);
    }
  }

  lemma {:induction false} RelocateKeepsPlaced(s: Settings, b: Rect, objs: seq<Item>, c: Kids)
    requires Sane(s) && Splittable(s, b) && ValidKids(s, b, c) && PlacedKids(c)
    requires forall o :: o in objs ==> ContainsRect(b, o.bounds)
    decreases Levels(b.width, s.minWidth), 0, |objs|
    ensures PlacedKids(Relocate(s, b, objs, c).1)
    ensures forall o :: o in Relocate(s, b, objs, c).0 ==> ContainsRect(b, o.bounds)
  {
    if objs != [] {
      var o := objs[0];
      assert forall x :: x in objs[1..] ==> x in objs;
      var d := FirstFit(c, o.bounds);
      if d.None? {
        RelocateKeepsPlaced(s, b, objs[1..], c);
      } else {
        KidIsValid(s, b, c, d.value);
        PlacedKid(c, d.value);
        InsertKeepsPlaced(s, Kid(c, d.value), o);
        var k := InsertNode(s, Kid(c, d.value), o).value;
        PlacedWithKid(c, d.value, k);
        MoveToKid(s, b, c, d.value, k, o);
        RelocateKeepsPlaced(s, b, objs[1..], WithKid(c, d.value, k));
      }
    }
  }

  lemma {:induction false} InsertSettles(s: Settings, n: BNode, it: Item)
    requires Sane(s) && Valid(s, n) && Settled(n) && ContainsRect(n.bounds, it.bounds)
    decreases Levels(n.bounds.width, s.minWidth), if n.kids.NoKids? then 1 else 0, 0
    ensures Settled(InsertNode(s, n, it).value)
  {
    var split := n.kids.NoKids? && |n.objects| + 1 > s.maxObjectsPerLeaf && Splittable(s, n.bounds);
    var m := if split then Split(s, n) else n;
    if split {
      SplitSettles(s, n);
    }
    var d := FirstFit(m.kids, it.bounds);
    if d.Some? {
      KidIsValid(s, m.bounds, m.kids, d.value);
      SettledKid(m.kids, d.value);
      assert Levels(Kid(m.kids, d.value).bounds.width, s.minWidth) < Levels(n.bounds.width, s.minWidth);
      InsertSettles(s, Kid(m.kids, d.value), it);
      var k := InsertNode(s, Kid(m.kids, d.value), it).value;
      SettledWithKid(m.kids, d.value, k);
      WithKidSameFit(m.kids, d.value, k);
    }
  }

  /** Splitting a leaf leaves each kept object where no child takes it. */
  lemma {:induction false} SplitSettles(s: Settings, n: BNode)
    requires Sane(s) && Valid(s, n) && n.kids.NoKids? && Splittable(s, n.bounds)
    decreases Levels(n.bounds.width, s.minWidth), 0, |n.objects| + 1
    ensures Settled(Split(s, n))
  {
    NewKidsValid(s, n.bounds);
    var c := NewKids(n.bounds);
    RelocateSettles(s, n.bounds, n.objects, c);
    var r := Relocate(s, n.bounds, n.objects, c);
    SameQuadrantsSameFit(s, n.bounds, c, r.1);
  }

  lemma {:induction false} RelocateSettles(s: Settings, b: Rect, objs: seq<Item>, c: Kids)
    requires Sane(s) && Splittable(s, b) && ValidKids(s, b, c) && SettledKids(c)
    decreases Levels(b.width, s.minWidth), 0, |objs|
    ensures SettledKids(Relocate(s, b, objs, c).1)
  {
    if objs != [] {
      var o := objs[0];
      var d := FirstFit(c, o.bounds);
      if d.None? {
        RelocateSettles(s, b, objs[1..], c);
      } else {
        KidIsValid(s, b, c, d.value);
        SettledKid(c, d.value);
        InsertSettles(s, Kid(c, d.value), o);
        var k := InsertNode(s, Kid(c, d.value), o).value;
        SettledWithKid(c, d.value, k);
        MoveToKid(s, b, c, d.value, k, o);
        RelocateSettles(s, b, objs[1..], WithKid(c, d.value, k));
      }
    }
  }

  /** A stored object lies inside every node on its path, the subtree's
      root included. */
  lemma {:induction false} PlacedInside(s: Settings, n: BNode)
    requires Valid(s, n) && Placed(n)
    decreases n
    ensures forall o :: o in Flatten(n) ==> ContainsRect(n.bounds, o.bounds)
  {
    if n.kids.Four? {
      forall d ensures forall o :: o in Flatten(Kid(n.kids, d)) ==> ContainsRect(n.bounds, o.bounds) {
        KidIsValid(s, n.bounds, n.kids, d);
        PlacedKid(n.kids, d);
        PlacedInside(s, Kid(n.kids, d));
        QuadrantInside(n.bounds, d);
      }
      assert FlattenKids(n.kids) == Flatten(n.kids.nw) + Flatten(n.kids.ne) + Flatten(n.kids.sw) + Flatten(n.kids.se);
      assert Kid(n.kids, NW) == n.kids.nw && Kid(n.kids, NE) == n.kids.ne;
      assert Kid(n.kids, SW) == n.kids.sw && Kid(n.kids, SE) == n.kids.se;
    }
  }

  // ------------------------------------------------------------------ query

  /** The objects of `s` whose bounds intersect `q`, in order. */
  function Hits(s: seq<Item>, q: Rect): (r: seq<Item>)
    ensures multiset(r) <= multiset(s)
    ensures forall o :: o in r <==> o in s && Intersects(q, o.bounds)
  {
    if s == [] then []
    else
      assert s == [s[0]] + s[1..];
      var rest := Hits(s[1..], q);
      if Intersects(q, s[0].bounds) then [s[0]] + rest else rest
  }

  lemma {:induction false} HitsAppend(a: seq<Item>, b: seq<Item>, q: Rect)
    decreases |a|
    ensures Hits(a + b, q) == Hits(a, q) + Hits(b, q)
  {
    if a != [] {
      assert (a + b)[1..] == a[1..] + b;
      HitsAppend(a[1..], b, q);
    } else {
      assert a + b == b;
    }
  }

  /** `Query(bounds, node, results)`: a node the rectangle misses is skipped
      whole; otherwise its own hits come first, then each child's. */
  function QueryNode(n: BNode, q: Rect): (r: seq<Item>)
    decreases n
    ensures multiset(r) <= Bag(n)
    ensures forall o :: o in r ==> Intersects(q, o.bounds)
  {
    if Intersects(q, n.bounds) then Hits(n.objects, q) + QueryKids(n.kids, q) else []
  }

  function QueryKids(c: Kids, q: Rect): (r: seq<Item>)
    decreases c
    ensures multiset(r) <= BagKids(c)
    ensures forall o :: o in r ==> Intersects(q, o.bounds)
  {
    match c
    case NoKids => []
    case Four(a, b, d, e) =>
      var r := QueryNode(a, q) + QueryNode(b, q) + QueryNode(d, q) + QueryNode(e, q);
      assert multiset(r) == multiset(QueryNode(a, q)) + multiset(QueryNode(b, q)) + multiset(QueryNode(d, q)) + multiset(QueryNode(e, q));
      r
  }

  lemma HitsNone(s: seq<Item>, q: Rect)
    requires forall o :: o in s ==> !Intersects(q, o.bounds)
    ensures Hits(s, q) == []
  {
    if Hits(s, q) != [] {
      assert Hits(s, q)[0] in Hits(s, q);
    }
  }

  /** Pruning loses nothing: in a tree whose objects lie inside their nodes,
      the query returns every stored object that intersects the rectangle. */
  lemma {:induction false} QueryComplete(s: Settings, n: BNode, q: Rect)
    requires Valid(s, n) && Placed(n)
    decreases n
    ensures QueryNode(n, q) == Hits(Flatten(n), q)
  {
    HitsAppend(n.objects, FlattenKids(n.kids), q);
    if Intersects(q, n.bounds) {
      QueryKidsComplete(s, n.bounds, n.kids, q);
    } else {
      PlacedInside(s, n);
      forall o | o in Flatten(n)
        ensures !Intersects(q, o.bounds)
      {
        if Intersects(q, o.bounds) {
          IntersectsGrows(n.bounds, o.bounds, q);
        }
      }
      HitsNone(Flatten(n), q);
    }
  }

  lemma {:induction false} QueryKidsComplete(s: Settings, b: Rect, c: Kids, q: Rect)
    requires (c.NoKids? || ValidKids(s, b, c)) && PlacedKids(c)
    decreases c
    ensures QueryKids(c, q) == Hits(FlattenKids(c), q)
  {
    match c
    case NoKids =>
    case Four(a, x, d, e) =>
      QueryComplete(s, a, q); QueryComplete(s, x, q); QueryComplete(s, d, q); QueryComplete(s, e, q);
      HitsAppend(Flatten(a) + Flatten(x) + Flatten(d), Flatten(e), q);
      HitsAppend(Flatten(a) + Flatten(x), Flatten(d), q);
      HitsAppend(Flatten(a), Flatten(x), q);
  }

  // ------------------------------------------------------------------ count

  /** `GetQuadObjectCount(node)`: the node's own objects plus its children's
      counts. */
  function Count(n: BNode): (r: nat)
    decreases n
    ensures r == |Bag(n)|
  {
    |n.objects| + CountKids(n.kids)
  }

  function CountKids(c: Kids): (r: nat)
    decreases c
    ensures r == |BagKids(c)|
  {
    match c
    case NoKids => 0
    case Four(a, b, d, e) => Count(a) + Count(b) + Count(d) + Count(e)
  }

  // ----------------------------------------------------------------- remove

  /** `List.Remove`: drops the first occurrence. */
  function RemoveOne(s: seq<Item>, it: Item): (r: seq<Item>)
    requires it in s
    ensures multiset(r) == multiset(s) - multiset{it}
    ensures |r| == |s| - 1
  {
    if s[0] == it then
      assert s == [s[0]] + s[1..];
      s[1..]
    else
      assert s == [s[0]] + s[1..];
      [s[0]] + RemoveOne(s[1..], it)
  }

  /** The first child, in `Nodes` order, whose subtree holds `it`: the node
      the object-to-node dictionary would lead to when `it` is stored once. */
  function Holder(c: Kids, it: Item): (d: Quarter)
    requires c.Four? && it in BagKids(c)
    ensures it in Bag(Kid(c, d))
  {
    if it in Bag(c.nw) then NW
    else if it in Bag(c.ne) then NE
    else if it in Bag(c.sw) then SW
    else SE
  }

  /** Taking `it` out of child `d` takes it out of the node. */
  lemma TakeFromKid(s: Settings, n: BNode, d: Quarter, k: BNode, it: Item)
    requires Valid(s, n) && n.kids.Four? && k.bounds == Kid(n.kids, d).bounds && Valid(s, k)
    requires it in Bag(Kid(n.kids, d)) && Bag(k) == Bag(Kid(n.kids, d)) - multiset{it}
    ensures Valid(s, n.(kids := WithKid(n.kids, d, k)))
    ensures Bag(n.(kids := WithKid(n.kids, d, k))) == Bag(n) - multiset{it}
  {
    ReplaceKid(s, n.bounds, n.kids, d, k);
    TakeOutOfKid(n.kids, d, k, it);
    SubtractRight(multiset(n.objects), BagKids(n.kids), it);
  }

  /** Taking an element out of the right operand of a sum takes it out of the sum. */
  lemma SubtractRight(a: multiset<Item>, b: multiset<Item>, o: Item)
    requires o in b
    ensures a + (b - multiset{o}) == (a + b) - multiset{o}
  {
  }

  /** `CheckChildNodes`' merge: every object below the node moves into the
      node's own list, after the objects already there, and the children go. */
  function Merge(n: BNode): (r: BNode)
    ensures r.bounds == n.bounds && r.kids.NoKids?
    ensures Bag(r) == Bag(n)
  {
    BagKidsIsFlatten(n.kids);
    BNode(n.bounds, n.objects + FlattenKids(n.kids), NoKids)
  }

  /** `CheckChildNodes(node)` for a node whose subtree just lost an object:
      at most `maxObjectsPerLeaf` objects left means merge, and the check
      carries on at the parent (`true`); otherwise it stops there. */
  function CheckChildNodes(s: Settings, n: BNode): (r: (BNode, bool))
    requires Valid(s, n)
    // merge exactly when the whole subtree fits in one leaf
    ensures r.1 <==> |Bag(n)| <= s.maxObjectsPerLeaf
    // either way the node keeps its rectangle, its objects and its shape
    ensures Valid(s, r.0) && r.0.bounds == n.bounds && Bag(r.0) == Bag(n)
    // a merge leaves a leaf whose list starts with the node's own objects
    ensures r.1 ==>
      r.0.kids.NoKids? && |n.objects| <= |r.0.objects| && r.0.objects[..|n.objects|] == n.objects
    ensures r.1 ==> r.0 == Merge(n)
    ensures !r.1 ==> r.0 == n
  {
    if Count(n) <= s.maxObjectsPerLeaf then (Merge(n), true) else (n, false)
  }

  /** `RemoveQuadObjectFromNode` on the node holding `it`, followed by
      `CheckChildNodes` on its ancestors for as long as they merge. The flag
      says whether the check goes on at this node's parent. */
  function RemoveFrom(s: Settings, n: BNode, it: Item): (r: (BNode, bool))
    requires Valid(s, n) && it in Bag(n)
    decreases n
    ensures Valid(s, r.0) && r.0.bounds == n.bounds
    ensures Bag(r.0) == Bag(n) - multiset{it}
  {
    if it in n.objects then
      (n.(objects := RemoveOne(n.objects, it)), true)
    else
      assert multiset(n.objects)[it] == 0;
      assert it in BagKids(n.kids);
      var d := Holder(n.kids, it);
      KidIsValid(s, n.bounds, n.kids, d);
      var (k, up) := RemoveFrom(s, Kid(n.kids, d), it);
      TakeFromKid(s, n, d, k, it);
      var n1 := n.(kids := WithKid(n.kids, d, k));
      if up then CheckChildNodes(s, n1) else (n1, false)
  }

  lemma MergeKeepsPlaced(s: Settings, n: BNode)
    requires Valid(s, n) && Placed(n)
    ensures Placed(Merge(n))
  {
    PlacedInside(s, n);
  }

  /** The child `RemoveFrom` descends into, and the node it rebuilds. */
  lemma RemoveFromKid(s: Settings, n: BNode, it: Item) returns (d: Quarter, k: BNode, n1: BNode)
    requires Valid(s, n) && it in Bag(n) && it !in n.objects
    ensures n.kids.Four? && d == Holder(n.kids, it) && it in Bag(Kid(n.kids, d))
    ensures Valid(s, Kid(n.kids, d)) && k == RemoveFrom(s, Kid(n.kids, d), it).0
    ensures Valid(s, k) && k.bounds == Kid(n.kids, d).bounds
    ensures n1 == n.(kids := WithKid(n.kids, d, k))
    ensures RemoveFrom(s, n, it).0 == n1 || RemoveFrom(s, n, it).0 == Merge(n1)
  {
    assert multiset(n.objects)[it] == 0;
    assert it in BagKids(n.kids);
    d := Holder(n.kids, it);
    KidIsValid(s, n.bounds, n.kids, d);
    k := RemoveFrom(s, Kid(n.kids, d), it).0;
    n1 := n.(kids := WithKid(n.kids, d, k));
  }

  lemma RemoveOneSubset(s: seq<Item>, it: Item)
    requires it in s
    ensures forall o :: o in RemoveOne(s, it) ==> o in s
  {
    var r := RemoveOne(s, it);
    forall o | o in r ensures o in s {
      assert multiset(r)[o] > 0;
    }
  }

  lemma {:induction false} RemoveKeepsPlaced(s: Settings, n: BNode, it: Item)
    requires Valid(s, n) && Placed(n) && it in Bag(n)
    decreases n
    ensures Placed(RemoveFrom(s, n, it).0)
  {
    if it in n.objects {
      RemoveOneSubset(n.objects, it);
    } else {
      var d, k, n1 := RemoveFromKid(s, n, it);
      assert Placed(k) by {
        PlacedKid(n.kids, d);
        RemoveKeepsPlaced(s, Kid(n.kids, d), it);
      }
      assert Placed(n1) by {
        PlacedWithKid(n.kids, d, k);
      }
      assert Valid(s, n1) by {
        TakeFromKid(s, n, d, k, it);
      }
      MergeKeepsPlaced(s, n1);
    }
  }

  lemma {:induction false} RemoveSettles(s: Settings, n: BNode, it: Item)
    requires Valid(s, n) && Settled(n) && it in Bag(n)
    decreases n
    ensures Settled(RemoveFrom(s, n, it).0)
  {
    if it in n.objects {
      RemoveOneSubset(n.objects, it);
    } else {
      var d, k, n1 := RemoveFromKid(s, n, it);
      assert Settled(k) by {
        SettledKid(n.kids, d);
        RemoveSettles(s, Kid(n.kids, d), it);
      }
      assert Settled(n1) by {
        SettledWithKid(n.kids, d, k);
        WithKidSameFit(n.kids, d, k);
      }
      assert Settled(Merge(n1));
    }
  }

  // ------------------------------------------------------------- the root

  /** `Math.Ceiling`. */
  function Ceiling(r: real): int
  {
    -((-r).Floor)
  }

  lemma CeilingBounds(r: real)
    ensures r <= Ceiling(r) as real < r + 1.0
  {
  }

  /** `Math.Max(rootSize.Width, rootSize.Height)` for the first object: how
      many minimum leaves it takes to span the object in either direction. */
  function Multiplier(s: Settings, b: Rect): int
    requires Sane(s)
  {
    var mw := Ceiling(b.width / s.minWidth);
    var mh := Ceiling(b.height / s.minHeight);
    if mw >= mh then mw else mh
  }

  /** The root `Insert` creates for its first object, as written: `Multiplier`
      minimum leaves wide and high, centred on the object. */
  function RootBoundsAsWritten(s: Settings, b: Rect): Rect
    requires Sane(s)
  {
    Centred(s, b, Multiplier(s, b))
  }

  /** A root `m` minimum leaves wide and high centred on `b`. */
  function Centred(s: Settings, b: Rect, m: int): (r: Rect)
    ensures r.x + r.width / 2.0 == b.x + b.width / 2.0
    ensures r.y + r.height / 2.0 == b.y + b.height / 2.0
  {
    var w := s.minWidth * m as real;
    var h := s.minHeight * m as real;
    Rect(b.x + b.width / 2.0 - w / 2.0, b.y + b.height / 2.0 - h / 2.0, w, h)
  }

  /** The multiplier kept at least 1. */
  function RootMultiple(s: Settings, b: Rect): (k: int)
    requires Sane(s)
    ensures k >= 1 && k >= Multiplier(s, b)
  {
    var m := Multiplier(s, b);
    if m >= 1 then m else 1
  }

  /** The correction only matters for a zero-size first object: any other
      object already gets a multiplier of at least 1. */
  lemma RootBoundsAgree(s: Settings, b: Rect)
    requires Sane(s) && Proper(b)
    ensures RootBounds(s, b) == RootBoundsAsWritten(s, b) <==> Multiplier(s, b) >= 1
    ensures b.width > 0.0 || b.height > 0.0 ==> RootBounds(s, b) == RootBoundsAsWritten(s, b)
  {
    CeilingBounds(b.width / s.minWidth);
    CeilingBounds(b.height / s.minHeight);
    if Multiplier(s, b) < 1 {
      assert RootMultiple(s, b) == 1;
      assert RootBounds(s, b).width == s.minWidth;
      assert RootBoundsAsWritten(s, b).width != s.minWidth;
    }
  }

  /** The root creation with the multiplier kept at least 1: it contains the
      object, is at least one minimum leaf in each direction and is centred
      on the object. */
  function RootBounds(s: Settings, b: Rect): (r: Rect)
    requires Sane(s) && Proper(b)
    ensures ContainsRect(r, b)
    ensures r.width >= s.minWidth && r.height >= s.minHeight
    ensures r.width == s.minWidth * RootMultiple(s, b) as real && r.height == s.minHeight * RootMultiple(s, b) as real
    ensures r.x + r.width / 2.0 == b.x + b.width / 2.0 && r.y + r.height / 2.0 == b.y + b.height / 2.0
  {
    var k := RootMultiple(s, b);
    MultipleSpans(s, b, k);
    CentredCovers(s, b, k);
    Centred(s, b, k)
  }

  /** A root centred on `b` whose sides are at least `b`'s and at least one
      leaf contains `b` and is at least one leaf in each direction. */
  lemma CentredCovers(s: Settings, b: Rect, k: int)
    requires s.minWidth * k as real >= b.width && s.minWidth * k as real >= s.minWidth
    requires s.minHeight * k as real >= b.height && s.minHeight * k as real >= s.minHeight
    ensures var r := Centred(s, b, k); ContainsRect(r, b) && r.width >= s.minWidth && r.height >= s.minHeight
  {
    var w := s.minWidth * k as real;
    var h := s.minHeight * k as real;
    CentredBox(b, w, h);
    assert Centred(s, b, k) == Rect(b.x + b.width / 2.0 - w / 2.0, b.y + b.height / 2.0 - h / 2.0, w, h);
  }

  /** A multiplier of at least 1 and at least the source's `Multiplier`
      spans the object, and one minimum leaf, in each direction. */
  lemma MultipleSpans(s: Settings, b: Rect, k: int)
    requires Sane(s) && Proper(b) && k >= 1 && k >= Multiplier(s, b)
    ensures s.minWidth * k as real >= b.width && s.minWidth * k as real >= s.minWidth
    ensures s.minHeight * k as real >= b.height && s.minHeight * k as real >= s.minHeight
  {
    MultiplierBounds(s, b, k);
    SpanCovers(b.width, s.minWidth, k);
    SpanCovers(b.height, s.minHeight, k);
  }

  /** A multiplier at least `Multiplier` is at least each axis's ceiling ratio. */
  lemma MultiplierBounds(s: Settings, b: Rect, k: int)
    requires Sane(s) && k >= Multiplier(s, b)
    ensures Ceiling(b.width / s.minWidth) <= k && Ceiling(b.height / s.minHeight) <= k
  {
  }

  /** A `w` by `h` rectangle centred on `b` contains it when it is at least as large. */
  lemma CentredBox(b: Rect, w: real, h: real)
    requires w >= b.width && h >= b.height
    ensures ContainsRect(Rect(b.x + b.width / 2.0 - w / 2.0, b.y + b.height / 2.0 - h / 2.0, w, h), b)
  {
    CentredSpan(b.x, b.width, w);
    CentredSpan(b.y, b.height, h);
  }

  /** A span of length `w` centred on `[lo, lo + d]` covers it when `w >= d`. */
  lemma CentredSpan(lo: real, d: real, w: real)
    requires w >= d
    ensures lo + d / 2.0 - w / 2.0 <= lo && lo + d <= lo + d / 2.0 - w / 2.0 + w
  {
  }

  /** `k` leaves of width `w`, for `k` at least 1 and at least `Ceiling(d / w)`,
      span `d` and at least one leaf. */
  lemma SpanCovers(d: real, w: real, k: int)
    requires d >= 0.0 && w > 0.0 && k >= 1
    requires k >= Ceiling(d / w)
    ensures w * k as real >= d && w * k as real >= w
  {
    CeilingBounds(d / w);
    assert (d / w) * w == d;
    if w * k as real < d {
      MulLess(k as real, d / w, w);
    }
    if k > 1 {
      MulLess(1.0, k as real, w);
    }
  }

  /** `ExpandRoot`'s new bounds: twice as wide and high, keeping the old
      root's corner on the side of the object. */
  function ExpandBounds(r: Rect, b: Rect): Rect
  {
    var west := r.x < b.x;
    var north := r.y < b.y;
    Rect(if west then r.x else r.x - r.width, if north then r.y else r.y - r.height, 2.0 * r.width, 2.0 * r.height)
  }

  /** The quadrant of the new root the old root becomes. */
  function OldRootQuarter(r: Rect, b: Rect): Quarter
  {
    var west := r.x < b.x;
    var north := r.y < b.y;
    if north then (if west then NW else NE) else (if west then SW else SE)
  }

  /** The old root is exactly the quadrant of the expanded root it is put in. */
  lemma OldRootIsQuadrant(r: Rect, b: Rect)
    ensures Quadrant(ExpandBounds(r, b), OldRootQuarter(r, b)) == r
  {
  }

  /** `ExpandRoot`: a root twice the size, with fresh children, one of which
      is replaced by the old root. */
  function ExpandRoot(s: Settings, root: BNode, b: Rect): (r: BNode)
    requires Valid(s, root) && root.bounds.width >= s.minWidth && root.bounds.height >= s.minHeight
    ensures r.bounds == ExpandBounds(root.bounds, b)
    ensures r.bounds.width == 2.0 * root.bounds.width && r.bounds.height == 2.0 * root.bounds.height
    ensures ContainsRect(r.bounds, root.bounds)
    ensures r.objects == [] && r.kids.Four? && Kid(r.kids, OldRootQuarter(root.bounds, b)) == root
    ensures forall d :: d != OldRootQuarter(root.bounds, b) ==> Kid(r.kids, d).objects == [] && Kid(r.kids, d).kids.NoKids?
    ensures Valid(s, r) && Bag(r) == Bag(root)
  {
    var nb := ExpandBounds(root.bounds, b);
    var d := OldRootQuarter(root.bounds, b);
    NewKidsValid(s, nb);
    OldRootIsQuadrant(root.bounds, b);
    ReplaceKid(s, nb, NewKids(nb), d, root);
    SwapKid(NewKids(nb), d, root);
    assert Bag(Kid(NewKids(nb), d)) == multiset{};
    BNode(nb, [], WithKid(SetupChildNodes(s, nb), d, root))
  }

  lemma ExpandRootKeepsPlaced(s: Settings, root: BNode, b: Rect)
    requires Valid(s, root) && root.bounds.width >= s.minWidth && root.bounds.height >= s.minHeight
    requires Placed(root) && Settled(root)
    ensures Placed(ExpandRoot(s, root, b)) && Settled(ExpandRoot(s, root, b))
  {
    var nb := ExpandBounds(root.bounds, b);
    NewKidsValid(s, nb);
    PlacedWithKid(NewKids(nb), OldRootQuarter(root.bounds, b), root);
    SettledWithKid(NewKids(nb), OldRootQuarter(root.bounds, b), root);
  }

  /** The `while (!root.Bounds.Contains(bounds))` loop on bounds alone, with
      at most `fuel` expansions: the bounds it stops at, if any. */
  function GrowBounds(r: Rect, b: Rect, fuel: nat): (g: Option<Rect>)
    decreases fuel
    ensures g.Some? ==> ContainsRect(g.value, b)
  {
    if ContainsRect(r, b) then Some(r)
    else if fuel == 0 then None
    else GrowBounds(ExpandBounds(r, b), b, fuel - 1)
  }

  /** The expansion loop of `Insert` on the root node, with at most `fuel`
      calls of `ExpandRoot`. */
  function Grow(s: Settings, root: BNode, b: Rect, fuel: nat): (r: Result<BNode, Error>)
    requires Valid(s, root) && root.bounds.width >= s.minWidth && root.bounds.height >= s.minHeight
    decreases fuel
    ensures r.Success? <==> GrowBounds(root.bounds, b, fuel).Some?
    ensures r.Failure? ==> r.error == ExpansionLimit
    ensures r.Success? ==> r.value.bounds == GrowBounds(root.bounds, b, fuel).value && ContainsRect(r.value.bounds, b)
    ensures r.Success? ==> Valid(s, r.value) && Bag(r.value) == Bag(root)
    ensures r.Success? ==> r.value.bounds.width >= s.minWidth && r.value.bounds.height >= s.minHeight
  {
    if ContainsRect(root.bounds, b) then Success(root)
    else if fuel == 0 then Failure(ExpansionLimit)
    else Grow(s, ExpandRoot(s, root, b), b, fuel - 1)
  }

  lemma {:induction false} GrowKeepsPlaced(s: Settings, root: BNode, b: Rect, fuel: nat)
    requires Valid(s, root) && root.bounds.width >= s.minWidth && root.bounds.height >= s.minHeight
    requires Placed(root) && Settled(root)
    decreases fuel
    ensures Grow(s, root, b, fuel).Success? ==> Placed(Grow(s, root, b, fuel).value) && Settled(Grow(s, root, b, fuel).value)
  {
    if !ContainsRect(root.bounds, b) && fuel > 0 {
      ExpandRootKeepsPlaced(s, root, b);
      GrowKeepsPlaced(s, ExpandRoot(s, root, b), b, fuel - 1);
    }
  }

  // ------------------------------------------- the expansion loop ends

  function Max0(v: real): real
  {
    if v > 0.0 then v else 0.0
  }

  /** How far the interval `[a, c]` sticks out of `[lo, lo + len]`. */
  function Overhang(lo: real, len: real, a: real, c: real): (o: real)
    ensures o >= 0.0
    ensures o == 0.0 <==> lo <= a && c <= lo + len
  {
    Max0(lo - a) + Max0(c - (lo + len))
  }

  /** One `ExpandRoot` along one axis: the start stays when the object lies
      beyond it, and otherwise moves back by the old length; the length doubles. */
  function AxisStep(lo: real, len: real, a: real): real
  {
    if lo < a then lo else lo - len
  }

  /** `k` expansions along one axis: the final start and length. */
  function AxisIter(lo: real, len: real, a: real, k: nat): (real, real)
    decreases k
  {
    if k == 0 then (lo, len) else AxisIter(AxisStep(lo, len, a), 2.0 * len, a, k - 1)
  }

  /** `k` expansions of the root bounds. */
  function Iter(r: Rect, b: Rect, k: nat): Rect
    decreases k
  {
    if k == 0 then r else Iter(ExpandBounds(r, b), b, k - 1)
  }

  /** The two axes expand independently. */
  lemma {:induction false} IterAxes(r: Rect, b: Rect, k: nat)
    decreases k
    ensures (Iter(r, b, k).x, Iter(r, b, k).width) == AxisIter(r.x, r.width, b.x, k)
    ensures (Iter(r, b, k).y, Iter(r, b, k).height) == AxisIter(r.y, r.height, b.y, k)
  {
    if k > 0 {
      IterAxes(ExpandBounds(r, b), b, k - 1);
    }
  }

  /** An expansion never makes the overhang worse. */
  lemma AxisStepNoWorse(lo: real, len: real, a: real, c: real)
    requires len > 0.0 && a <= c
    ensures Overhang(AxisStep(lo, len, a), 2.0 * len, a, c) <= Overhang(lo, len, a, c)
  {
  }

  /** Two expansions cut the overhang by the old length, or to nothing. */
  lemma AxisTwoSteps(lo: real, len: real, a: real, c: real)
    requires len > 0.0 && a <= c
    ensures var lo2 := AxisStep(AxisStep(lo, len, a), 2.0 * len, a);
      Overhang(lo2, 4.0 * len, a, c) <= Max0(Overhang(lo, len, a, c) - len)
  {
    var lo1 := AxisStep(lo, len, a);
    AxisStepNoWorse(lo1, 2.0 * len, a, c);
  }

  /** Once inside, an axis stays inside. */
  lemma {:induction false} AxisStaysIn(lo: real, len: real, a: real, c: real, k: nat)
    requires len > 0.0 && a <= c && Overhang(lo, len, a, c) == 0.0
    decreases k
    ensures var (l, n) := AxisIter(lo, len, a, k); Overhang(l, n, a, c) == 0.0
  {
    if k > 0 {
      AxisStepNoWorse(lo, len, a, c);
      AxisStaysIn(AxisStep(lo, len, a), 2.0 * len, a, c, k - 1);
    }
  }

  lemma ScaleNonNegative(n: nat, w: real)
    requires w > 0.0
    ensures (n as real) * w >= 0.0
  {
    if n > 0 {
      MulLess(0.0, n as real, w);
    }
  }

  /** An overhang of at most `n` times `w0`, with the length at least `w0`,
      is gone after `2 * n` expansions. */
  lemma {:induction false} AxisSettles(lo: real, len: real, a: real, c: real, w0: real, n: nat, k: nat)
    requires len >= w0 > 0.0 && a <= c
    requires Overhang(lo, len, a, c) <= (n as real) * w0
    requires k >= 2 * n
    decreases n
    ensures var (l, m) := AxisIter(lo, len, a, k); Overhang(l, m, a, c) == 0.0
  {
    if n == 0 {
      AxisStaysIn(lo, len, a, c, k);
    } else {
      var lo1 := AxisStep(lo, len, a);
      var lo2 := AxisStep(lo1, 2.0 * len, a);
      AxisTwoSteps(lo, len, a, c);
      assert ((n - 1) as real) * w0 == (n as real) * w0 - w0;
      ScaleNonNegative(n - 1, w0);
      assert AxisIter(lo, len, a, k) == AxisIter(lo2, 4.0 * len, a, k - 2);
      AxisSettles(lo2, 4.0 * len, a, c, w0, n - 1, k - 2);
    }
  }

  /** Enough pairs of expansions to cover an overhang `o` in steps of `w`. */
  function Need(o: real, w: real): (n: nat)
    requires o >= 0.0 && w > 0.0
    ensures o <= (n as real) * w
  {
    var q := o / w;
    assert q * w == o;
    MulLess(q, (q.Floor + 1) as real, w);
    q.Floor + 1
  }

  /** A number of expansions after which the loop has stopped. */
  function ExpansionsNeeded(r: Rect, b: Rect): nat
    requires r.width > 0.0 && r.height > 0.0 && Proper(b)
  {
    var nx := Need(Overhang(r.x, r.width, b.x, b.x + b.width), r.width);
    var ny := Need(Overhang(r.y, r.height, b.y, b.y + b.height), r.height);
    2 * (if nx >= ny then nx else ny)
  }

  lemma {:induction false} GrowFinds(r: Rect, b: Rect, k: nat, fuel: nat)
    requires k <= fuel && ContainsRect(Iter(r, b, k), b)
    decreases k
    ensures GrowBounds(r, b, fuel).Some?
  {
    if k > 0 && !ContainsRect(r, b) {
      GrowFinds(ExpandBounds(r, b), b, k - 1, fuel - 1);
    }
  }

  /** From a root of positive size, the `Insert` loop ends: after
      `ExpansionsNeeded` expansions the root contains the object. */
  lemma GrowReaches(r: Rect, b: Rect)
    requires r.width > 0.0 && r.height > 0.0 && Proper(b)
    ensures GrowBounds(r, b, ExpansionsNeeded(r, b)).Some?
  {
    var k := ExpansionsNeeded(r, b);
    var nx := Need(Overhang(r.x, r.width, b.x, b.x + b.width), r.width);
    var ny := Need(Overhang(r.y, r.height, b.y, b.y + b.height), r.height);
    assert k >= 2 * nx && k >= 2 * ny;
    IterAxes(r, b, k);
    AxisReaches(r.x, r.width, b.x, b.x + b.width, k);
    AxisReaches(r.y, r.height, b.y, b.y + b.height, k);
    GrowFinds(r, b, k, k);
  }

  /** Along one axis, `2 * Need` expansions close the overhang. */
  lemma AxisReaches(lo: real, len: real, a: real, c: real, k: nat)
    requires len > 0.0 && a <= c
    requires k >= 2 * Need(Overhang(lo, len, a, c), len)
    ensures var (l, m) := AxisIter(lo, len, a, k); Overhang(l, m, a, c) == 0.0
  {
    AxisSettles(lo, len, a, c, len, Need(Overhang(lo, len, a, c), len), k);
  }

  /** A root without extent is left unchanged by `ExpandRoot`'s arithmetic. */
  lemma FlatRootStays(r: Rect, b: Rect)
    requires r.width == 0.0 && r.height == 0.0
    ensures ExpandBounds(r, b) == r
  {
  }

  /** As written, a first object with no width and no height gets a root with
      no extent, and then an object outside that point sends `Insert` round
      its expansion loop for ever: no number of expansions is enough. */
  lemma {:induction false} PointRootNeverGrows(s: Settings, p: Rect, b: Rect, fuel: nat)
    requires Sane(s) && p.width == 0.0 && p.height == 0.0
    requires !ContainsRect(RootBoundsAsWritten(s, p), b)
    decreases fuel
    ensures GrowBounds(RootBoundsAsWritten(s, p), b, fuel).None?
  {
    var r := RootBoundsAsWritten(s, p);
    assert Multiplier(s, p) == 0;
    assert r.width == 0.0 && r.height == 0.0;
    FlatRootStays(r, b);
    if fuel > 0 {
      PointRootNeverGrows(s, p, b, fuel - 1);
    }
  }

  /** The corrected root of the same point grows to hold the object. */
  lemma PointRootGrows(s: Settings, p: Rect, b: Rect)
    requires Sane(s) && p.width == 0.0 && p.height == 0.0 && Proper(b)
    ensures GrowBounds(RootBounds(s, p), b, ExpansionsNeeded(RootBounds(s, p), b)).Some?
  {
    GrowReaches(RootBounds(s, p), b);
  }

  /** For example: minimum leaves of 1 by 1, a first object at the point
      (0, 0), then a unit box at (5, 5). */
  lemma PointThenBoxLoops(fuel: nat)
    ensures GrowBounds(RootBoundsAsWritten(Settings(1.0, 1.0, 4, false), Rect(0.0, 0.0, 0.0, 0.0)), Rect(5.0, 5.0, 1.0, 1.0), fuel).None?
  {
    var s := Settings(1.0, 1.0, 4, false);
    var p := Rect(0.0, 0.0, 0.0, 0.0);
    assert Multiplier(s, p) == 0;
    assert RootBoundsAsWritten(s, p) == Rect(0.0, 0.0, 0.0, 0.0);
    PointRootNeverGrows(s, p, Rect(5.0, 5.0, 1.0, 1.0), fuel);
  }

  // --------------------------------------------------------------- the tree

  /** `QuadTree<T>`: its settings, its root once an object has been
      inserted, and, when sorting, each object's insertion number. */
  datatype BoxQuadTree = BoxQuadTree(settings: Settings, root: Option<BNode>, sortOrder: map<Item, nat>, nextSortId: nat)

  /** The constructor: no root yet, no sort numbers. */
  function NewTree(s: Settings): (t: BoxQuadTree)
    requires Sane(s)
    ensures Good(t) && Objects(t) == multiset{}
  {
    BoxQuadTree(s, None, map[], 0)
  }

  /** The objects stored in the tree. */
  function Objects(t: BoxQuadTree): multiset<Item>
  {
    if t.root.None? then multiset{} else Bag(t.root.value)
  }

  /** The root, when there is one, is well shaped, at least one minimum
      leaf in size, and every object in it is placed and settled. */
  ghost predicate GoodRoot(s: Settings, root: Option<BNode>)
  {
    root.Some? ==>
      var n := root.value;
      Valid(s, n) && Placed(n) && Settled(n) && n.bounds.width >= s.minWidth && n.bounds.height >= s.minHeight
  }

  /** No object is stored twice. */
  ghost predicate Unique(objs: multiset<Item>)
  {
    forall o :: objs[o] <= 1
  }

  /** When sorting, exactly the stored objects carry insertion numbers;
      otherwise none does. The numbers are distinct and below `next`. */
  ghost predicate Numbered(sort: bool, objs: multiset<Item>, order: map<Item, nat>, next: nat)
  {
    && (sort ==> forall o :: o in order <==> o in objs)
    && (!sort ==> order == map[])
    && (forall o :: o in order ==> order[o] < next)
    && (forall o, o' :: o in order && o' in order && o != o' ==> order[o] != order[o'])
  }

  /** What every public operation keeps. */
  ghost predicate Good(t: BoxQuadTree)
  {
    && Sane(t.settings)
    && GoodRoot(t.settings, t.root)
    && Unique(Objects(t))
    && Numbered(t.settings.sort, Objects(t), t.sortOrder, t.nextSortId)
  }

  /** `GetSortOrder`: the object's insertion number, or -1 when it has none. */
  function GetSortOrder(t: BoxQuadTree, o: Item): (r: int)
    ensures r == -1 <==> o !in t.sortOrder
    ensures Good(t) ==> r < t.nextSortId
    ensures Good(t) && !t.settings.sort ==> r == -1
    ensures Good(t) && t.settings.sort ==> (r == -1 <==> o !in Objects(t))
  {
    if o in t.sortOrder then t.sortOrder[o] else -1
  }

  /** `GetQuadObjectCount()`. */
  function ObjectCount(t: BoxQuadTree): (r: nat)
    ensures r == |Objects(t)|
  {
    if t.root.None? then 0 else Count(t.root.value)
  }

  /** The root `Insert` starts from: the existing one, or a fresh empty
      leaf on `RootBounds` for the first object. */
  function StartRoot(s: Settings, root: Option<BNode>, b: Rect): (r: BNode)
    requires Sane(s) && GoodRoot(s, root) && Proper(b)
    ensures Valid(s, r) && Placed(r) && Settled(r)
    ensures r.bounds.width >= s.minWidth && r.bounds.height >= s.minHeight
    ensures Bag(r) == (if root.None? then multiset{} else Bag(root.value))
    ensures root.None? ==> ContainsRect(r.bounds, b)
    ensures root.None? ==> r.objects == [] && r.kids.NoKids?
    ensures root.Some? ==> r == root.value
  {
    if root.None? then
      var n := BNode(RootBounds(s, b), [], NoKids);
      assert Flatten(n) == [];
      n
    else root.value
  }

  /** `Insert`: a new object gets the next sort number (when sorting); the
      first object creates the root; the root is expanded until it contains
      the object, at most `expansions` times; then the object goes in from
      the root. An object already stored is refused. */
  function Insert(t: BoxQuadTree, it: Item, expansions: nat): (r: Result<BoxQuadTree, Error>)
    requires Good(t) && Proper(it.bounds)
    ensures r.Failure? && r.error == DuplicateObject <==> it in Objects(t)
    ensures r.Failure? ==> r.error == DuplicateObject || r.error == ExpansionLimit
    ensures r.Success? ==> Objects(r.value) == Objects(t) + multiset{it}
    ensures r.Success? ==> r.value.root.Some? && ContainsRect(r.value.root.value.bounds, it.bounds)
    ensures r.Success? ==> r.value.settings == t.settings
  {
    if it in Objects(t) then Failure(DuplicateObject)
    else
      var s := t.settings;
      var numbered := s.sort && it !in t.sortOrder;
      var order := if numbered then t.sortOrder[it := t.nextSortId] else t.sortOrder;
      var next := if numbered then t.nextSortId + 1 else t.nextSortId;
      var grown := Grow(s, StartRoot(s, t.root, it.bounds), it.bounds, expansions);
      if grown.Failure? then Failure(ExpansionLimit)
      else
        var n := InsertNode(s, grown.value, it);
        Success(BoxQuadTree(s, Some(n.value), order, next))
  }

  /** Given enough expansions, `Insert` of a new object succeeds. */
  lemma InsertSucceeds(t: BoxQuadTree, it: Item)
    requires Good(t) && Proper(it.bounds) && it !in Objects(t)
    ensures Insert(t, it, ExpansionsNeeded(StartRoot(t.settings, t.root, it.bounds).bounds, it.bounds)).Success?
  {
    GrowReaches(StartRoot(t.settings, t.root, it.bounds).bounds, it.bounds);
  }

  lemma UniqueAdd(objs: multiset<Item>, it: Item)
    requires Unique(objs) && it !in objs
    ensures Unique(objs + multiset{it})
  {
    forall o ensures (objs + multiset{it})[o] <= 1 {
      assert (objs + multiset{it})[o] == objs[o] + (if o == it then 1 else 0);
    }
  }

  lemma UniqueRemove(objs: multiset<Item>, it: Item)
    requires Unique(objs)
    ensures Unique(objs - multiset{it})
  {
    forall o ensures (objs - multiset{it})[o] <= 1 {
      assert (objs - multiset{it})[o] <= objs[o];
    }
  }

  /** Numbering a new object with `next` keeps the numbering good. */
  lemma NumberedAdd(sort: bool, objs: multiset<Item>, order: map<Item, nat>, next: nat, it: Item)
    requires Numbered(sort, objs, order, next) && it !in objs
    ensures var numbered := sort && it !in order;
      Numbered(sort, objs + multiset{it},
        if numbered then order[it := next] else order,
        if numbered then next + 1 else next)
  {
    if sort {
      var order' := order[it := next];
      forall o | o in order' ensures order'[o] < next + 1 {
      }
      forall o, o' | o in order' && o' in order' && o != o' ensures order'[o] != order'[o'] {
      }
    }
  }

  lemma NumberedRemove(sort: bool, objs: multiset<Item>, order: map<Item, nat>, next: nat, it: Item)
    requires Numbered(sort, objs, order, next) && Unique(objs) && it in objs
    ensures Numbered(sort, objs - multiset{it}, if sort && it in order then order - {it} else order, next)
  {
    if sort {
      var rest := objs - multiset{it};
      forall o ensures o in order - {it} <==> o in rest {
        assert rest[o] == objs[o] - (if o == it then 1 else 0);
      }
    }
  }

  lemma InsertKeepsGood(t: BoxQuadTree, it: Item, expansions: nat)
    requires Good(t) && Proper(it.bounds)
    ensures Insert(t, it, expansions).Success? ==> Good(Insert(t, it, expansions).value)
  {
    var r := Insert(t, it, expansions);
    if r.Success? {
      var s := t.settings;
      var start := StartRoot(s, t.root, it.bounds);
      GrowKeepsPlaced(s, start, it.bounds, expansions);
      var g := Grow(s, start, it.bounds, expansions).value;
      InsertKeepsPlaced(s, g, it);
      InsertSettles(s, g, it);
      assert GoodRoot(s, r.value.root);
      UniqueAdd(Objects(t), it);
      NumberedAdd(s.sort, Objects(t), t.sortOrder, t.nextSortId, it);
    }
  }

  /** With sorting on, the object just inserted gets a number above every
      number already given out, and those stay as they were. */
  lemma InsertNumbersLast(t: BoxQuadTree, it: Item, expansions: nat)
    requires Good(t) && Proper(it.bounds) && t.settings.sort
    requires Insert(t, it, expansions).Success?
    ensures var t' := Insert(t, it, expansions).value;
      && GetSortOrder(t', it) == t.nextSortId
      && forall o :: o in Objects(t) ==> GetSortOrder(t', o) == GetSortOrder(t, o) < GetSortOrder(t', it)
  {
  }

  // ------------------------------------------------------------ tree query

  /** The sort key of `Query`: `GetSortOrder`'s number. */
  function Key(order: map<Item, nat>, o: Item): int
  {
    if o in order then order[o] else -1
  }

  predicate SortedBy(order: map<Item, nat>, s: seq<Item>)
  {
    forall i, j :: 0 <= i < j < |s| ==> Key(order, s[i]) <= Key(order, s[j])
  }

  /** A key no larger than any in a sorted sequence can head it. */
  lemma SortedCons(order: map<Item, nat>, h: Item, s: seq<Item>)
    requires SortedBy(order, s)
    requires forall x :: x in s ==> Key(order, h) <= Key(order, x)
    ensures SortedBy(order, [h] + s)
  {
    var r := [h] + s;
    forall i, j | 0 <= i < j < |r| ensures Key(order, r[i]) <= Key(order, r[j]) {
      if i == 0 {
        assert r[j] == s[j - 1];
        assert r[j] in s;
      } else {
        assert r[i] == s[i - 1] && r[j] == s[j - 1];
      }
    }
  }

  /** The head of a sorted sequence has the least key. */
  lemma SortedHead(order: map<Item, nat>, s: seq<Item>)
    requires SortedBy(order, s) && s != []
    ensures forall x :: x in s ==> Key(order, s[0]) <= Key(order, x)
  {
    forall x | x in s ensures Key(order, s[0]) <= Key(order, x) {
      var j :| 0 <= j < |s| && s[j] == x;
      if j > 0 {
        assert Key(order, s[0]) <= Key(order, s[j]);
      }
    }
  }

  /** Puts `o` into the sorted `s` before the first larger key. */
  function InsertSorted(order: map<Item, nat>, o: Item, s: seq<Item>): (r: seq<Item>)
    requires SortedBy(order, s)
    ensures SortedBy(order, r) && multiset(r) == multiset(s) + multiset{o}
  {
    if s == [] || Key(order, o) <= Key(order, s[0]) then
      assert forall x :: x in s ==> Key(order, o) <= Key(order, x) by {
        if s != [] { SortedHead(order, s); }
      }
      SortedCons(order, o, s);
      [o] + s
    else
      assert s == [s[0]] + s[1..];
      assert SortedBy(order, s[1..]) by {
        forall i, j | 0 <= i < j < |s[1..]| ensures Key(order, s[1..][i]) <= Key(order, s[1..][j]) {
          assert s[1..][i] == s[i + 1] && s[1..][j] == s[j + 1];
        }
      }
      var rest := InsertSorted(order, o, s[1..]);
      assert forall x :: x in rest ==> Key(order, s[0]) <= Key(order, x) by {
        SortedHead(order, s);
        forall x | x in rest ensures Key(order, s[0]) <= Key(order, x) {
          assert x in multiset(rest);
          assert x == o || x in multiset(s[1..]);
        }
      }
      SortedCons(order, s[0], rest);
      [s[0]] + rest
  }

  /** `results.Sort` by insertion number. */
  function SortByOrder(order: map<Item, nat>, s: seq<Item>): (r: seq<Item>)
    ensures SortedBy(order, r) && multiset(r) == multiset(s)
  {
    if s == [] then []
    else
      assert s == [s[0]] + s[1..];
      InsertSorted(order, s[0], SortByOrder(order, s[1..]))
  }

  /** `Query(bounds)`: the stored objects that intersect `q`, in insertion
      order when sorting. */
  function Query(t: BoxQuadTree, q: Rect): (r: seq<Item>)
    ensures multiset(r) <= Objects(t)
    ensures forall o :: o in r ==> Intersects(q, o.bounds)
    ensures t.settings.sort ==> SortedBy(t.sortOrder, r)
  {
    var found := if t.root.None? then [] else QueryNode(t.root.value, q);
    assert multiset(found) <= Objects(t);
    assert forall o :: o in found ==> Intersects(q, o.bounds);
    if t.settings.sort then
      var r := SortByOrder(t.sortOrder, found);
      assert forall o :: o in r ==> o in found by {
        forall o | o in r ensures o in found {
          assert o in multiset(r);
        }
      }
      r
    else found
  }

  /** The query finds every stored object that intersects the rectangle,
      each once. */
  lemma QueryFindsAll(t: BoxQuadTree, q: Rect)
    requires Good(t)
    ensures forall o :: o in Query(t, q) <==> o in Objects(t) && Intersects(q, o.bounds)
    ensures forall o :: multiset(Query(t, q))[o] <= 1
  {
    if t.root.Some? {
      var n := t.root.value;
      QueryComplete(t.settings, n, q);
      BagIsFlatten(n);
      var found := QueryNode(n, q);
      assert forall o :: o in found <==> o in Flatten(n) && Intersects(q, o.bounds);
      assert multiset(Query(t, q)) == multiset(found);
      forall o ensures o in Query(t, q) <==> o in Objects(t) && Intersects(q, o.bounds) {
        assert o in Query(t, q) <==> o in multiset(Query(t, q));
        assert o in found <==> o in multiset(found);
        assert o in Flatten(n) <==> o in multiset(Flatten(n));
      }
    }
  }

  /** An element at two positions is counted twice. */
  lemma TwoPositions(s: seq<Item>, i: int, j: int)
    requires 0 <= i < j < |s| && s[i] == s[j]
    ensures multiset(s)[s[i]] >= 2
  {
    assert s == s[..j] + s[j..];
    assert s[i] in s[..j];
    assert s[j..][0] == s[j];
    assert s[j] in s[j..];
  }

  /** A sequence sorted by an injective numbering, with no repeats and
      every element numbered, is strictly increasing in that numbering. */
  lemma StrictlySorted(order: map<Item, nat>, r: seq<Item>)
    requires SortedBy(order, r)
    requires forall o :: o in r ==> o in order
    requires forall o :: multiset(r)[o] <= 1
    requires forall o, o' :: o in order && o' in order && o != o' ==> order[o] != order[o']
    ensures forall i, j :: 0 <= i < j < |r| ==> order[r[i]] < order[r[j]]
  {
    forall i, j | 0 <= i < j < |r|
      ensures order[r[i]] < order[r[j]]
    {
      if r[i] == r[j] {
        TwoPositions(r, i, j);
        assert false;
      }
      assert Key(order, r[i]) <= Key(order, r[j]);
    }
  }

  /** With sorting on, of two objects in a query's result the one inserted
      first comes first. */
  lemma QueryInInsertionOrder(t: BoxQuadTree, q: Rect)
    requires Good(t) && t.settings.sort
    ensures var r := Query(t, q);
      forall i, j :: 0 <= i < j < |r| ==> GetSortOrder(t, r[i]) < GetSortOrder(t, r[j])
  {
    var r := Query(t, q);
    QueryFindsAll(t, q);
    assert forall o :: o in r ==> o in t.sortOrder;
    StrictlySorted(t.sortOrder, r);
  }

  // ----------------------------------------------------------- tree remove

  /** `Remove`: refuses an object that is not stored; otherwise drops its
      sort number, takes it out of its node and merges upwards. */
  function Remove(t: BoxQuadTree, it: Item): (r: Result<BoxQuadTree, Error>)
    requires Good(t)
    ensures r.Failure? <==> it !in Objects(t)
    ensures r.Failure? ==> r.error == KeyNotFound
    ensures r.Success? ==> Objects(r.value) == Objects(t) - multiset{it}
    ensures r.Success? ==> ObjectCount(r.value) == ObjectCount(t) - 1
    ensures r.Success? ==> r.value.settings == t.settings
    ensures r.Success? ==> it !in r.value.sortOrder
  {
    if it !in Objects(t) then Failure(KeyNotFound)
    else
      var s := t.settings;
      var order := if s.sort && it in t.sortOrder then t.sortOrder - {it} else t.sortOrder;
      var n := RemoveFrom(s, t.root.value, it).0;
      Success(BoxQuadTree(s, Some(n), order, t.nextSortId))
  }

  lemma RemoveKeepsGood(t: BoxQuadTree, it: Item)
    requires Good(t)
    ensures Remove(t, it).Success? ==> Good(Remove(t, it).value)
  {
    if it in Objects(t) {
      var s := t.settings;
      RemoveKeepsPlaced(s, t.root.value, it);
      RemoveSettles(s, t.root.value, it);
      assert GoodRoot(s, Remove(t, it).value.root);
      UniqueRemove(Objects(t), it);
      NumberedRemove(s.sort, Objects(t), t.sortOrder, t.nextSortId, it);
    }
  }
}

=== FILE: config.dfy ===
/** The configuration values of the simulation (SicknessSim/Constants.cs). */
module Config {

  /** Persons created Infectious when a simulation is constructed. */
  const InitialInfected: int := 100
  /** Chance that an Infectious person infects a Healthy neighbour in one tick. */
  const InfectiousInfectionRate: real := 0.02
  /** Chance that a Sick person infects a Healthy neighbour in one tick. */
  const SickInfectionRate: real := 0.08
  /** Chance that a corpse infects a Healthy neighbour in one tick. */
  const DeadInfectionRate: real := 0.5
  /** Side length of the square arena. */
  const RoomSize: real := 800.0
  /** Radius within which a person can infect another one. */
  const InfluenceRadius: real := 25.0
  const PopulationSize: int := 1000
  /** Distance a moving person covers in one tick. */
  const MoveDistance: real := 2.0
  /** Ticks between two direction changes of a moving person. */
  const ChangeDirectionAfter: int := 10
  /** Ticks an Infectious person takes to become Sick. */
  const TimeInfectious: int := 50
  /** Ticks a Sick person takes to die. */
  const TimeSick: int := 50
  /** Ticks a corpse stays in the population before it is removed. */
  const RemoveDeadAfter: int := 80
}

=== FILE: engine.dfy ===
/** The simulation loop of SicknessSim/Simulation.cs: population
    construction and the tick that advances every person in list order,
    spreads the disease from every non-Healthy person to the Healthy persons
    near it, and removes long-dead persons.

    The shared `Random` is the stream `draws` read at `cursor`; every person
    draws from the same stream, so their draws interleave exactly as the
    calls do. Proximity (`DistanceTo(p) <= InfluenceRadius`) is the parameter
    `near(target, source)`. */
module Engine {
  import opened Support
  import opened Vectors
  import opened Agent
  import Config

  /** Every value of the stream is a `Random.NextDouble()` result. */
  ghost predicate Uniform(draws: nat -> real)
  {
    forall k: nat :: IsDraw(draws(k))
  }

  /** The simulation: the population list, the tick counter and the
      position in the random stream. */
  datatype Simulation = Simulation(population: seq<Person>, time: int, cursor: nat)

  // ---------------------------------------------------------- construction

  /** A position drawn as two uniform values scaled to the room. */
  function Place(draws: nat -> real, cursor: nat): Vector
  {
    Vector(draws(cursor) * Config.RoomSize, draws(cursor + 1) * Config.RoomSize)
  }

  lemma PlaceInArena(draws: nat -> real, cursor: nat)
    requires Uniform(draws)
    ensures InArena(Place(draws, cursor))
  {
    assert IsDraw(draws(cursor)) && IsDraw(draws(cursor + 1));
  }

  predicate AllTaken(pool: Pool)
  {
    forall j :: 0 <= j < |pool| ==> pool[j]
  }

  /** One constructor loop: `count` persons of one status, each placed at
      two fresh draws; an Infectious person gets `TimeInfected = 0`. */
  function Spawn(pool: Pool, draws: nat -> real, cursor: nat, count: nat, status: Status): (r: (seq<Person>, Pool, nat))
    decreases count
    ensures |r.0| == count && r.2 == cursor + 2 * count
    ensures forall i :: 0 <= i < count ==>
      && r.0[i].status == status && r.0[i].position == Place(draws, cursor + 2 * i)
      && r.0[i].timeInfected == (if status == Infectious then Some(0) else None)
      && r.0[i].timeSick == None && r.0[i].timeDied == None && !r.0[i].toBeRemoved
      && r.0[i].facing == Right && r.0[i].lastDirectionChange == -Config.ChangeDirectionAfter
    ensures AllTaken(pool) ==>
      && AllTaken(r.1) && |r.1| == |pool| + count
      && forall i :: 0 <= i < count ==> r.0[i].id == |pool| + i
  {
    if count == 0 then ([], pool, cursor)
    else
      var (p, pool1) := NewPerson(pool, Place(draws, cursor), status);
      var first := if status == Infectious then p.(timeInfected := Some(0)) else p;
      var rest := Spawn(pool1, draws, cursor + 2, count - 1, status);
      ([first] + rest.0, rest.1, rest.2)
  }

  /** The number of Healthy persons the constructor creates: its first loop
      runs `popSize - IniitialInfected` times, i.e. not at all when that is
      negative. */
  function HealthyCount(popSize: int): nat
  {
    if popSize - Config.InitialInfected > 0 then popSize - Config.InitialInfected else 0
  }

  /** The `Simulation(popSize)` constructor on a fresh stream: the Healthy
      persons first, then the initially infected ones, and time 0. */
  function NewSimulation(popSize: int, pool: Pool, draws: nat -> real): (r: (Simulation, Pool))
    ensures var (sim, _) := r;
      && |sim.population| == HealthyCount(popSize) + Config.InitialInfected
      && sim.time == 0 && sim.cursor == 2 * |sim.population|
    ensures var pop := r.0.population;
      forall i :: 0 <= i < |pop| ==> pop[i].position == Place(draws, 2 * i) && !pop[i].toBeRemoved && pop[i].timeDied == None
    ensures var pop := r.0.population;
      forall i :: 0 <= i < HealthyCount(popSize) ==> pop[i].status == Healthy && pop[i].timeInfected == None
    ensures var pop := r.0.population;
      forall i :: HealthyCount(popSize) <= i < |pop| ==> pop[i].status == Infectious && pop[i].timeInfected == Some(0)
    ensures var (sim, pool') := r;
      AllTaken(pool) ==> AllTaken(pool') && forall i :: 0 <= i < |sim.population| ==> sim.population[i].id == |pool| + i
  {
    var healthy := Spawn(pool, draws, 0, HealthyCount(popSize), Healthy);
    var infected := Spawn(healthy.1, draws, healthy.2, Config.InitialInfected, Infectious);
    SpawnTwice(pool, draws, HealthyCount(popSize), Config.InitialInfected, healthy, infected);
    SpawnTwiceIds(pool, draws, HealthyCount(popSize), Config.InitialInfected);
    (Simulation(healthy.0 + infected.0, 0, infected.2), infected.1)
  }

  /** The constructor's two loops, one after the other: the persons of the
      second loop follow those of the first, at the next draws. */
  lemma SpawnTwice(pool: Pool, draws: nat -> real, h: nat, m: nat,
                   healthy: (seq<Person>, Pool, nat), infected: (seq<Person>, Pool, nat))
    requires healthy == Spawn(pool, draws, 0, h, Healthy)
    requires infected == Spawn(healthy.1, draws, healthy.2, m, Infectious)
    ensures var pop := healthy.0 + infected.0;
      && (forall i :: 0 <= i < |pop| ==> pop[i].position == Place(draws, 2 * i) && !pop[i].toBeRemoved && pop[i].timeDied == None)
      && (forall i :: 0 <= i < h ==> pop[i].status == Healthy && pop[i].timeInfected == None)
      && (forall i :: h <= i < |pop| ==> pop[i].status == Infectious && pop[i].timeInfected == Some(0))
  {
    assert healthy.2 == 2 * h;
    forall k | 0 <= k < |infected.0|
      ensures infected.0[k].position == Place(draws, 2 * h + 2 * k)
    {
      assert infected.0[k].position == Place(draws, healthy.2 + 2 * k);
    }
    SpawnedAfter(healthy.0, infected.0, draws, h);
  }

  /** From a pool with no free slot, the two loops hand out consecutive new ids. */
  lemma SpawnTwiceIds(pool: Pool, draws: nat -> real, h: nat, m: nat)
    ensures var healthy := Spawn(pool, draws, 0, h, Healthy);
      var infected := Spawn(healthy.1, draws, healthy.2, m, Infectious);
      var pop := healthy.0 + infected.0;
      AllTaken(pool) ==> AllTaken(infected.1) && forall i :: 0 <= i < |pop| ==> pop[i].id == |pool| + i
  {
    var healthy := Spawn(pool, draws, 0, h, Healthy);
    var infected := Spawn(healthy.1, draws, healthy.2, m, Infectious);
    if AllTaken(pool) {
      var pop := healthy.0 + infected.0;
      forall i | 0 <= i < |pop|
        ensures pop[i].id == |pool| + i
      {
        if i >= h {
          assert pop[i] == infected.0[i - h];
        }
      }
    }
  }

  lemma SpawnedAfter(first: seq<Person>, second: seq<Person>, draws: nat -> real, h: nat)
    requires |first| == h
    requires forall i :: 0 <= i < h ==>
      first[i].position == Place(draws, 2 * i) && !first[i].toBeRemoved && first[i].timeDied == None &&
      first[i].status == Healthy && first[i].timeInfected == None
    requires forall k :: 0 <= k < |second| ==>
      second[k].position == Place(draws, 2 * h + 2 * k) && !second[k].toBeRemoved && second[k].timeDied == None &&
      second[k].status == Infectious && second[k].timeInfected == Some(0)
    ensures var pop := first + second;
      && (forall i :: 0 <= i < |pop| ==> pop[i].position == Place(draws, 2 * i) && !pop[i].toBeRemoved && pop[i].timeDied == None)
      && (forall i :: 0 <= i < h ==> pop[i].status == Healthy && pop[i].timeInfected == None)
      && (forall i :: h <= i < |pop| ==> pop[i].status == Infectious && pop[i].timeInfected == Some(0))
  {
    var pop := first + second;
    forall i | h <= i < |pop|
      ensures pop[i] == second[i - h] && pop[i].position == Place(draws, 2 * i)
    {
      var k := i - h;
      assert 2 * h + 2 * k == 2 * i;
    }
  }

  /** Every constructed person stands in the room. */
  lemma NewSimulationInArena(popSize: int, pool: Pool, draws: nat -> real)
    requires Uniform(draws)
    ensures forall p :: p in NewSimulation(popSize, pool, draws).0.population ==> InArena(p.position)
  {
    PlacedInArena(NewSimulation(popSize, pool, draws).0.population, draws);
  }

  /** Persons placed at successive pairs of draws stand in the room. */
  lemma PlacedInArena(pop: seq<Person>, draws: nat -> real)
    requires Uniform(draws)
    requires forall i :: 0 <= i < |pop| ==> pop[i].position == Place(draws, 2 * i)
    ensures forall p :: p in pop ==> InArena(p.position)
  {
    forall p | p in pop
      ensures InArena(p.position)
    {
      var i :| 0 <= i < |pop| && pop[i] == p;
      PlaceInArena(draws, 2 * i);
    }
  }

  // --------------------------------------------------------------- contagion

  /** The rate switch on the source's status. A Healthy source keeps the
      initial 0.0 (the `Debug.Fail` branch, which the tick never reaches). */
  function Rate(s: Status): (r: real)
    ensures 0.0 <= r < 1.0
    ensures r == 0.0 <==> s == Healthy
  {
    match s
    case Healthy => 0.0
    case Infectious => Config.InfectiousInfectionRate
    case Sick => Config.SickInfectionRate
    case Dead => Config.DeadInfectionRate
  }

  /** The more advanced the source's illness, the likelier a hit. */
  lemma RateGrowsWithSeverity(a: Status, b: Status)
    requires Rank(a) < Rank(b)
    ensures Rate(a) < Rate(b)
  {
  }

  /** Strictly increasing: list order, each index once. */
  predicate Ascending(ts: seq<nat>)
  {
    forall k, l :: 0 <= k < l < |ts| ==> ts[k] < ts[l]
  }

  /** Every element is an index into a list of length `n`. */
  predicate Indices(ts: seq<nat>, n: nat)
  {
    forall k :: 0 <= k < |ts| ==> ts[k] < n
  }

  /** `findPersonsInInfluenceRadius`: the indices, in list order from `from`,
      of the Healthy persons near `source`. */
  function Targets(near: (Vector, Vector) -> bool, pop: seq<Person>, source: Vector, from: nat): (r: seq<nat>)
    requires from <= |pop|
    decreases |pop| - from
    ensures forall k :: 0 <= k < |r| ==> from <= r[k] < |pop|
    ensures Ascending(r) && Indices(r, |pop|)
    ensures forall j :: from <= j < |pop| ==> (j in r <==> pop[j].status == Healthy && near(pop[j].position, source))
  {
    if from == |pop| then []
    else
      var rest := Targets(near, pop, source, from + 1);
      if pop[from].status == Healthy && near(pop[from].position, source) then [from] + rest else rest
  }

  /** A hit: the target becomes Infectious, infected at `time`. */
  function Infected(p: Person, time: int): Person
  {
    p.(status := Infectious, timeInfected := Some(time))
  }

  /** The roll loop: one draw per target, in order; a draw at most `rate`
      infects that target. */
  function Infect(pop: seq<Person>, targets: seq<nat>, rate: real, time: int, draws: nat -> real, cursor: nat): (r: (seq<Person>, nat))
    requires Indices(targets, |pop|)
    requires Ascending(targets)
    decreases |targets|
    ensures |r.0| == |pop| && r.1 == cursor + |targets|
    ensures forall j :: 0 <= j < |pop| && j !in targets ==> r.0[j] == pop[j]
    ensures forall k :: 0 <= k < |targets| ==>
      r.0[targets[k]] == if draws(cursor + k) <= rate then Infected(pop[targets[k]], time) else pop[targets[k]]
  {
    if targets == [] then (pop, cursor)
    else
      var j := targets[0];
      var pop1 := if draws(cursor) <= rate then pop[j := Infected(pop[j], time)] else pop;
      var r := Infect(pop1, targets[1..], rate, time, draws, cursor + 1);
      InfectStep(pop, pop1, targets, r.0, rate, time, draws, cursor);
      r
  }

  /** The induction step of `Infect`: the first target's roll composed with
      the rolls of the others. */
  lemma InfectStep(pop: seq<Person>, pop1: seq<Person>, targets: seq<nat>, r: seq<Person>, rate: real, time: int, draws: nat -> real, cursor: nat)
    requires targets != [] && forall k :: 0 <= k < |targets| ==> targets[k] < |pop|
    requires Ascending(targets)
    requires pop1 == if draws(cursor) <= rate then pop[targets[0] := Infected(pop[targets[0]], time)] else pop
    requires |r| == |pop1|
    requires forall j :: 0 <= j < |pop1| && j !in targets[1..] ==> r[j] == pop1[j]
    requires forall k :: 0 <= k < |targets[1..]| ==>
      r[targets[1..][k]] == if draws(cursor + 1 + k) <= rate then Infected(pop1[targets[1..][k]], time) else pop1[targets[1..][k]]
    ensures forall j :: 0 <= j < |pop| && j !in targets ==> r[j] == pop[j]
    ensures forall k :: 0 <= k < |targets| ==>
      r[targets[k]] == if draws(cursor + k) <= rate then Infected(pop[targets[k]], time) else pop[targets[k]]
  {
    var j := targets[0];
    assert j !in targets[1..];
    forall k | 0 <= k < |targets|
      ensures r[targets[k]] == if draws(cursor + k) <= rate then Infected(pop[targets[k]], time) else pop[targets[k]]
    {
      if k > 0 {
        assert targets[k] == targets[1..][k - 1] && targets[k] != j;
      }
    }
  }

  /** The outcome of the roll loop read off `before` and `after`: the `m`-th
      target is infected exactly when the `m`-th draw from `cursor` is at most
      `rate`, and stays as it was otherwise. */
  predicate Rolls(before: seq<Person>, after: seq<Person>, targets: seq<nat>, rate: real, time: int, draws: nat -> real, cursor: nat)
  {
    forall m :: 0 <= m < |targets| && targets[m] < |before| && targets[m] < |after| ==>
      after[targets[m]] == if draws(cursor + m) <= rate then Infected(before[targets[m]], time) else before[targets[m]]
  }

  /** The removal rule: dead for at least `RemoveDeadAfter` ticks. A missing
      death time compares false. */
  predicate RemovalDue(p: Person, time: int)
  {
    p.status == Dead && p.timeDied.Some? && time >= p.timeDied.value + Config.RemoveDeadAfter
  }

  /** What one tick may do to a person: it keeps its id, its status moves at
      most one step forward, a Healthy person can only become Infectious at
      this tick, an illness already under way keeps its start time, one
      infected at this very tick stays Infectious, it is flagged exactly when
      it was flagged before or is due for removal, and it stays in the room. */
  predicate Progress(before: Person, after: Person, time: int)
  {
    && after.id == before.id
    && Rank(before.status) <= Rank(after.status) <= Rank(before.status) + 1
    && (before.status == Healthy && after.status != Healthy ==>
          after.status == Infectious && after.timeInfected == Some(time))
    && (before.status != Healthy ==> after.timeInfected == before.timeInfected)
    && (before.status == Infectious && before.timeInfected == Some(time) ==> after.status == Infectious)
    && (after.toBeRemoved <==> before.toBeRemoved || RemovalDue(after, time))
    && (InArena(before.position) ==> InArena(after.position))
  }

  /** Person `i`'s turn in the tick loop: `Person.Tick(time)`, then the rest
      of the turn, `Spread`, for the ticked person. */
  function Visit(near: (Vector, Vector) -> bool, pop: seq<Person>, i: nat, time: int, draws: nat -> real, cursor: nat): (r: (seq<Person>, nat))
    requires i < |pop| && Uniform(draws)
    ensures |r.0| == |pop|
    ensures Progress(pop[i], r.0[i], time)
    ensures var p := Tick(pop[i], time, draws, cursor);
      r.1 == p.1 + (if p.0.status == Healthy then 0 else |Targets(near, pop[i := p.0], p.0.position, 0)|)
    ensures forall j :: 0 <= j < |pop| && j != i && r.0[j] != pop[j] ==>
      && pop[j].status == Healthy && r.0[j] == Infected(pop[j], time)
      && Tick(pop[i], time, draws, cursor).0.status != Healthy
      && near(pop[j].position, Tick(pop[i], time, draws, cursor).0.position)
    // the visitor becomes `Person.Tick`'s result, flagged when due for removal
    ensures var t := Tick(pop[i], time, draws, cursor);
      r.0[i] == if RemovalDue(t.0, time) then t.0.(toBeRemoved := true) else t.0
    // a non-Healthy visitor's m-th target is hit by the m-th draw after its own
    ensures var t := Tick(pop[i], time, draws, cursor);
      t.0.status != Healthy ==>
        Rolls(pop, r.0, Targets(near, pop[i := t.0], t.0.position, 0), Rate(t.0.status), time, draws, t.1)
  {
    assert IsDraw(draws(cursor));
    var t := Tick(pop[i], time, draws, cursor);
    Spread(near, pop, i, t.0, time, draws, t.1)
  }

  /** The rest of a turn once person `i` has ticked to `p`: when `p` is not
      Healthy, one roll against each Healthy person near it and the removal
      flag. */
  function Spread(near: (Vector, Vector) -> bool, pop: seq<Person>, i: nat, p: Person, time: int, draws: nat -> real, cursor: nat): (r: (seq<Person>, nat))
    requires i < |pop|
    ensures |r.0| == |pop|
    ensures r.0[i] == if RemovalDue(p, time) then p.(toBeRemoved := true) else p
    ensures r.1 == cursor + (if p.status == Healthy then 0 else |Targets(near, pop[i := p], p.position, 0)|)
    ensures forall j :: 0 <= j < |pop| && j != i && r.0[j] != pop[j] ==>
      && pop[j].status == Healthy && r.0[j] == Infected(pop[j], time)
      && p.status != Healthy && near(pop[j].position, p.position)
    ensures p.status != Healthy ==>
      Rolls(pop, r.0, Targets(near, pop[i := p], p.position, 0), Rate(p.status), time, draws, cursor)
  {
    var pop1 := pop[i := p];
    if p.status == Healthy then (pop1, cursor)
    else
      var targets := Targets(near, pop1, p.position, 0);
      var (pop2, c2) := Infect(pop1, targets, Rate(p.status), time, draws, cursor);
      assert i !in targets;
      var q := if RemovalDue(p, time) then p.(toBeRemoved := true) else p;
      RollsAroundVisitor(pop, i, p, q, targets, Rate(p.status), time, draws, cursor);
      ((if RemovalDue(p, time) then pop2[i := q] else pop2), c2)
  }

  /** The rolls of a visit seen from the population before it: the visitor's
      slot is overwritten, so the targets' outcomes are read off the original
      list. */
  lemma RollsAroundVisitor(pop: seq<Person>, i: nat, p: Person, q: Person, targets: seq<nat>,
                           rate: real, time: int, draws: nat -> real, cursor: nat)
    requires i < |pop| && i !in targets && Indices(targets, |pop|) && Ascending(targets)
    ensures var pop2 := Infect(pop[i := p], targets, rate, time, draws, cursor).0;
      pop2[i] == p && Rolls(pop, pop2[i := q], targets, rate, time, draws, cursor)
  {
    var pop2 := Infect(pop[i := p], targets, rate, time, draws, cursor).0;
    forall m | 0 <= m < |targets|
      ensures pop2[i := q][targets[m]] ==
        if draws(cursor + m) <= rate then Infected(pop[targets[m]], time) else pop[targets[m]]
    {
      assert targets[m] != i;
    }
  }

  /** A visit changes nobody but the visitor and its targets. */
  lemma VisitKeepsOthers(near: (Vector, Vector) -> bool, pop: seq<Person>, i: nat, time: int, draws: nat -> real, cursor: nat)
    requires i < |pop| && Uniform(draws)
    ensures var r := Visit(near, pop, i, time, draws, cursor).0;
      var t := Tick(pop[i], time, draws, cursor);
      var ts := Targets(near, pop[i := t.0], t.0.position, 0);
      forall j :: 0 <= j < |pop| && j != i && (t.0.status == Healthy || j !in ts) ==> r[j] == pop[j]
  {
    assert IsDraw(draws(cursor));
    var t := Tick(pop[i], time, draws, cursor);
    SpreadKeepsOthers(near, pop, i, t.0, time, draws, t.1);
  }

  /** The rest of a turn changes nobody but the visitor and its targets. */
  lemma SpreadKeepsOthers(near: (Vector, Vector) -> bool, pop: seq<Person>, i: nat, p: Person, time: int, draws: nat -> real, cursor: nat)
    requires i < |pop|
    ensures var r := Spread(near, pop, i, p, time, draws, cursor).0;
      var ts := Targets(near, pop[i := p], p.position, 0);
      forall j :: 0 <= j < |pop| && j != i && (p.status == Healthy || j !in ts) ==> r[j] == pop[j]
  {
    var r := Spread(near, pop, i, p, time, draws, cursor).0;
    var ts := Targets(near, pop[i := p], p.position, 0);
    forall j | 0 <= j < |pop| && j != i && (p.status == Healthy || j !in ts)
      ensures r[j] == pop[j]
    {
      assert pop[i := p][j] == pop[j];
    }
  }

  /** Infecting a Healthy person after its own turn keeps the tick's progress. */
  lemma InfectAfterTurn(a: Person, b: Person, time: int)
    requires Progress(a, b, time) && b.status == Healthy
    ensures Progress(a, Infected(b, time), time)
  {
  }

  /** A person infected before its own turn then behaves as freshly infected. */
  lemma InfectBeforeTurn(a: Person, c: Person, time: int)
    requires a.status == Healthy && Progress(Infected(a, time), c, time)
    ensures Progress(a, c, time)
  {
  }

  /** The tick loop from person `i` on. Persons already visited can still be
      infected by later ones; persons not yet visited progress by one tick. */
  function Pass(near: (Vector, Vector) -> bool, pop: seq<Person>, i: nat, time: int, draws: nat -> real, cursor: nat): (r: (seq<Person>, nat))
    requires i <= |pop| && Uniform(draws)
    decreases |pop| - i
    ensures |r.0| == |pop|
    ensures forall k :: 0 <= k < i ==>
      r.0[k] == pop[k] || (pop[k].status == Healthy && r.0[k] == Infected(pop[k], time))
    ensures forall k :: i <= k < |pop| ==> Progress(pop[k], r.0[k], time)
  {
    if i == |pop| then (pop, cursor)
    else
      var (pop1, c1) := Visit(near, pop, i, time, draws, cursor);
      var r := Pass(near, pop1, i + 1, time, draws, c1);
      PassStep(pop, pop1, r.0, i, time);
      r
  }

  /** The induction step of `Pass`: composes person `i`'s turn with the rest
      of the loop. */
  lemma PassStep(pop: seq<Person>, pop1: seq<Person>, r: seq<Person>, i: nat, time: int)
    requires i < |pop| == |pop1| == |r|
    requires Progress(pop[i], pop1[i], time)
    requires forall j :: 0 <= j < |pop| && j != i && pop1[j] != pop[j] ==>
      pop[j].status == Healthy && pop1[j] == Infected(pop[j], time)
    requires forall k :: 0 <= k < i + 1 ==>
      r[k] == pop1[k] || (pop1[k].status == Healthy && r[k] == Infected(pop1[k], time))
    requires forall k :: i + 1 <= k < |pop| ==> Progress(pop1[k], r[k], time)
    ensures forall k :: 0 <= k < i ==>
      r[k] == pop[k] || (pop[k].status == Healthy && r[k] == Infected(pop[k], time))
    ensures forall k :: i <= k < |pop| ==> Progress(pop[k], r[k], time)
  {
    if r[i] != pop1[i] {
      InfectAfterTurn(pop[i], pop1[i], time);
    }
    forall k | i + 1 <= k < |pop|
      ensures Progress(pop[k], r[k], time)
    {
      if pop1[k] != pop[k] {
        InfectBeforeTurn(pop[k], r[k], time);
      }
    }
  }

  /** `Simulation.Tick`: the loop over every person in list order, then the
      removal of the flagged persons (keeping the others in order) and
      `time++`. */
  function SimulationTick(near: (Vector, Vector) -> bool, sim: Simulation, draws: nat -> real): (r: Simulation)
    requires Uniform(draws)
    ensures r.time == sim.time + 1
    ensures var pass := Pass(near, sim.population, 0, sim.time, draws, sim.cursor).0;
      && r.population == Survivors(pass) && r.cursor == Pass(near, sim.population, 0, sim.time, draws, sim.cursor).1
      && (forall k :: 0 <= k < |sim.population| ==> Progress(sim.population[k], pass[k], sim.time))
    ensures forall o :: o in r.population ==> !o.toBeRemoved
    ensures forall o :: o in r.population ==>
      exists k :: 0 <= k < |sim.population| && Progress(sim.population[k], o, sim.time)
  {
    var (pass, c) := Pass(near, sim.population, 0, sim.time, draws, sim.cursor);
    assert forall o :: o in pass ==> exists k :: 0 <= k < |pass| && pass[k] == o;
    Simulation(Survivors(pass), sim.time + 1, c)
  }

  /** Across a tick, a person either leaves the population because it was
      already flagged or has been dead for `RemoveDeadAfter` ticks, or it
      stays with its status not moved backwards. */
  lemma TickRemovesExactlyTheDue(near: (Vector, Vector) -> bool, sim: Simulation, draws: nat -> real, k: nat)
    requires Uniform(draws) && k < |sim.population|
    ensures var pass := Pass(near, sim.population, 0, sim.time, draws, sim.cursor).0;
      && Rank(sim.population[k].status) <= Rank(pass[k].status)
      && (pass[k] in SimulationTick(near, sim, draws).population <==>
            !sim.population[k].toBeRemoved && !RemovalDue(pass[k], sim.time))
  {
  }

  // ------------------------------------------------------- who infects whom

  /** A turn of the loop as a function of the population, the index of the
      person whose turn it is, and the stream position. */
  type TurnStep = (seq<Person>, nat, nat) -> (seq<Person>, nat)

  ghost predicate KeepsLength(step: TurnStep)
  {
    forall s, j, c :: |step(s, j, c).0| == |s|
  }

  /** The turns from person `i` up to, not including, person `stop`: the
      population and stream position they leave. */
  ghost function Turns(step: TurnStep, pop: seq<Person>, i: nat, stop: nat, cursor: nat): (r: (seq<Person>, nat))
    requires i <= stop <= |pop| && KeepsLength(step)
    decreases stop - i
    ensures |r.0| == |pop|
  {
    if i == stop then (pop, cursor)
    else
      var v := step(pop, i, cursor);
      Turns(step, v.0, i + 1, stop, v.1)
  }

  /** Turns from `i` to `n` are the turns from `i` to `k` followed by those
      from `k` to `n`. */
  lemma {:induction false} TurnsCompose(step: TurnStep, pop: seq<Person>, i: nat, k: nat, n: nat, cursor: nat)
    requires i <= k <= n <= |pop| && KeepsLength(step)
    decreases k - i
    ensures var m := Turns(step, pop, i, k, cursor);
      Turns(step, pop, i, n, cursor) == Turns(step, m.0, k, n, m.1)
  {
    if i < k {
      var v := step(pop, i, cursor);
      TurnsCompose(step, v.0, i + 1, k, n, v.1);
    }
  }

  /** The tick's turn: `Visit` on the given population. */
  ghost function TurnOf(near: (Vector, Vector) -> bool, time: int, draws: nat -> real): (step: TurnStep)
    requires Uniform(draws)
    ensures KeepsLength(step)
  {
    (s: seq<Person>, j: nat, c: nat) => if j < |s| then Visit(near, s, j, time, draws, c) else (s, c)
  }

  /** The population and stream position just before person `i`'s turn. */
  ghost function BeforeTurn(near: (Vector, Vector) -> bool, pop: seq<Person>, i: nat, time: int, draws: nat -> real, cursor: nat): (r: (seq<Person>, nat))
    requires i <= |pop| && Uniform(draws)
    ensures |r.0| == |pop|
  {
    Turns(TurnOf(near, time, draws), pop, 0, i, cursor)
  }

  /** The loop from `i` is all the turns from `i` to the end of the list. */
  lemma {:induction false} PassIsTurns(near: (Vector, Vector) -> bool, pop: seq<Person>, i: nat, time: int, draws: nat -> real, cursor: nat)
    requires i <= |pop| && Uniform(draws)
    decreases |pop| - i
    ensures Pass(near, pop, i, time, draws, cursor) == Turns(TurnOf(near, time, draws), pop, i, |pop|, cursor)
  {
    if i < |pop| {
      var v := Visit(near, pop, i, time, draws, cursor);
      assert Pass(near, pop, i, time, draws, cursor) == Pass(near, v.0, i + 1, time, draws, v.1);
      assert TurnOf(near, time, draws)(pop, i, cursor) == v;
      PassIsTurns(near, v.0, i + 1, time, draws, v.1);
    }
  }

  /** The state before turn `i + 1` is turn `i` applied to the state before it. */
  lemma BeforeNext(near: (Vector, Vector) -> bool, pop: seq<Person>, i: nat, time: int, draws: nat -> real, cursor: nat)
    requires i < |pop| && Uniform(draws)
    ensures var b := BeforeTurn(near, pop, i, time, draws, cursor);
      BeforeTurn(near, pop, i + 1, time, draws, cursor) == Visit(near, b.0, i, time, draws, b.1)
  {
    TurnsCompose(TurnOf(near, time, draws), pop, 0, i, i + 1, cursor);
  }

  /** The loop over the whole list is its first `i` turns followed by the
      loop from `i`. */
  lemma PassSplits(near: (Vector, Vector) -> bool, pop: seq<Person>, i: nat, time: int, draws: nat -> real, cursor: nat)
    requires i <= |pop| && Uniform(draws)
    ensures var b := BeforeTurn(near, pop, i, time, draws, cursor);
      Pass(near, pop, 0, time, draws, cursor) == Pass(near, b.0, i, time, draws, b.1)
  {
    var b := BeforeTurn(near, pop, i, time, draws, cursor);
    PassIsTurns(near, pop, 0, time, draws, cursor);
    PassIsTurns(near, b.0, i, time, draws, b.1);
    TurnsCompose(TurnOf(near, time, draws), pop, 0, i, |pop|, cursor);
  }

  /** Person `i`'s turn on the population `s`, with the stream at `c`, hits
      person `k`: after its own `Person.Tick` the visitor is not Healthy, `k`
      is among the Healthy persons near it, and the roll for `k` is at most
      the rate of the visitor's status. */
  predicate Hits(near: (Vector, Vector) -> bool, s: seq<Person>, i: nat, time: int, draws: nat -> real, c: nat, k: nat)
    requires i < |s| && Uniform(draws)
  {
    assert IsDraw(draws(c));
    var t := Tick(s[i], time, draws, c);
    var ts := Targets(near, s[i := t.0], t.0.position, 0);
    t.0.status != Healthy && Rolled(ts, k, draws, t.1, Rate(t.0.status))
  }

  /** `k` is a target whose roll, the draw at its place in the list, is at
      most `rate`. */
  predicate Rolled(targets: seq<nat>, k: nat, draws: nat -> real, c: nat, rate: real)
  {
    exists m :: 0 <= m < |targets| && targets[m] == k && draws(c + m) <= rate
  }

  /** Targets are distinct, so the roll for the `m`-th is the `m`-th draw. */
  lemma RolledAt(targets: seq<nat>, m: nat, draws: nat -> real, c: nat, rate: real)
    requires m < |targets| && Ascending(targets)
    ensures Rolled(targets, targets[m], draws, c, rate) <==> draws(c + m) <= rate
  {
    if Rolled(targets, targets[m], draws, c, rate) {
      var m' :| 0 <= m' < |targets| && targets[m'] == targets[m] && draws(c + m') <= rate;
      assert m' == m;
    }
  }

  /** Person `k` is hit at person `i`'s turn of the loop over `pop`. */
  ghost predicate HitBy(near: (Vector, Vector) -> bool, pop: seq<Person>, time: int, draws: nat -> real, cursor: nat, i: nat, k: nat)
    requires i < |pop| && Uniform(draws)
  {
    var b := BeforeTurn(near, pop, i, time, draws, cursor);
    Hits(near, b.0, i, time, draws, b.1, k)
  }

  /** One turn infects a Healthy person exactly when it hits it, and leaves a
      person who is not Healthy not Healthy. */
  lemma VisitInfectsTheHit(near: (Vector, Vector) -> bool, s: seq<Person>, h: nat, time: int, draws: nat -> real, c: nat, k: nat)
    requires h < |s| && k < |s| && Uniform(draws)
    ensures var s' := Visit(near, s, h, time, draws, c).0;
      && (s[k].status == Healthy ==> (s'[k].status != Healthy <==> Hits(near, s, h, time, draws, c, k)))
      && (s[k].status != Healthy ==> s'[k].status != Healthy)
  {
    var s' := Visit(near, s, h, time, draws, c).0;
    assert IsDraw(draws(c));
    var (p, c1) := Tick(s[h], time, draws, c);
    var ts := Targets(near, s[h := p], p.position, 0);
    VisitKeepsOthers(near, s, h, time, draws, c);
    if s[k].status != Healthy {
    } else if k == h {
    } else if p.status == Healthy || k !in ts {
      assert s'[k] == s[k];
    } else {
      var m :| 0 <= m < |ts| && ts[m] == k;
      RolledTarget(near, s, h, time, draws, c, m);
    }
  }

  /** The `m`-th target of a turn is infected exactly when the turn hits it. */
  lemma RolledTarget(near: (Vector, Vector) -> bool, s: seq<Person>, h: nat, time: int, draws: nat -> real, c: nat, m: nat)
    requires h < |s| && Uniform(draws)
    requires Tick(s[h], time, draws, c).0.status != Healthy
    requires m < |Targets(near, s[h := Tick(s[h], time, draws, c).0], Tick(s[h], time, draws, c).0.position, 0)|
    ensures var t := Tick(s[h], time, draws, c);
      var k := Targets(near, s[h := t.0], t.0.position, 0)[m];
      Visit(near, s, h, time, draws, c).0[k].status != Healthy <==> s[k].status != Healthy || Hits(near, s, h, time, draws, c, k)
  {
    var t := Tick(s[h], time, draws, c);
    var ts := Targets(near, s[h := t.0], t.0.position, 0);
    var k := ts[m];
    HitsTheRolled(near, s, h, time, draws, c, m);
  }

  /** The turn hits its `m`-th target exactly when that target's roll is at
      most the rate of the visitor's status. */
  lemma HitsTheRolled(near: (Vector, Vector) -> bool, s: seq<Person>, h: nat, time: int, draws: nat -> real, c: nat, m: nat)
    requires h < |s| && Uniform(draws)
    requires Tick(s[h], time, draws, c).0.status != Healthy
    requires m < |Targets(near, s[h := Tick(s[h], time, draws, c).0], Tick(s[h], time, draws, c).0.position, 0)|
    ensures var t := Tick(s[h], time, draws, c);
      var k := Targets(near, s[h := t.0], t.0.position, 0)[m];
      Hits(near, s, h, time, draws, c, k) <==> draws(t.1 + m) <= Rate(t.0.status)
  {
    var t := Tick(s[h], time, draws, c);
    var ts := Targets(near, s[h := t.0], t.0.position, 0);
    RolledAt(ts, m, draws, t.1, Rate(t.0.status));
  }

  /** Person `h`'s turn of the loop infects a person who is Healthy just
      before it exactly when it hits that person, and keeps a person who is
      not Healthy not Healthy. */
  lemma HitAtTurn(near: (Vector, Vector) -> bool, pop: seq<Person>, h: nat, time: int, draws: nat -> real, cursor: nat, k: nat)
    requires h < |pop| && k < |pop| && Uniform(draws)
    ensures var before := BeforeTurn(near, pop, h, time, draws, cursor).0[k];
      var after := BeforeTurn(near, pop, h + 1, time, draws, cursor).0[k];
      && (before.status == Healthy ==> (after.status != Healthy <==> HitBy(near, pop, time, draws, cursor, h, k)))
      && (before.status != Healthy ==> after.status != Healthy)
  {
    var b := BeforeTurn(near, pop, h, time, draws, cursor);
    BeforeNext(near, pop, h, time, draws, cursor);
    VisitInfectsTheHit(near, b.0, h, time, draws, b.1, k);
    assert HitBy(near, pop, time, draws, cursor, h, k) == Hits(near, b.0, h, time, draws, b.1, k);
  }

  /** Before person `i`'s turn, a person who started Healthy is no longer
      Healthy exactly when one of the first `i` turns hit it. */
  lemma {:induction false} HitsBeforeTurn(near: (Vector, Vector) -> bool, pop: seq<Person>, i: nat, time: int, draws: nat -> real, cursor: nat, k: nat)
    requires i <= |pop| && Uniform(draws) && k < |pop| && pop[k].status == Healthy
    decreases i
    ensures BeforeTurn(near, pop, i, time, draws, cursor).0[k].status != Healthy <==>
      exists h :: 0 <= h < i && HitBy(near, pop, time, draws, cursor, h, k)
  {
    if i > 0 {
      var h := i - 1;
      HitAtTurn(near, pop, h, time, draws, cursor, k);
      HitsBeforeTurn(near, pop, h, time, draws, cursor, k);
      if BeforeTurn(near, pop, h, time, draws, cursor).0[k].status != Healthy {
        var h' :| 0 <= h' < h && HitBy(near, pop, time, draws, cursor, h', k);
        assert 0 <= h' < i;
      } else if HitBy(near, pop, time, draws, cursor, h, k) {
        assert 0 <= h < i;
      } else {
        assert forall h' :: 0 <= h' < i && HitBy(near, pop, time, draws, cursor, h', k) ==> h' == h;
      }
    }
  }

  /** Across a tick, a person who was Healthy is infected exactly when some
      turn hits it, and then it is Infectious since this tick. */
  lemma TickInfectsExactlyTheHit(near: (Vector, Vector) -> bool, sim: Simulation, draws: nat -> real, k: nat)
    requires Uniform(draws) && k < |sim.population| && sim.population[k].status == Healthy
    ensures var pass := Pass(near, sim.population, 0, sim.time, draws, sim.cursor).0;
      && (pass[k].status != Healthy <==>
            exists i :: 0 <= i < |sim.population| && HitBy(near, sim.population, sim.time, draws, sim.cursor, i, k))
      && (pass[k].status != Healthy ==> pass[k].status == Infectious && pass[k].timeInfected == Some(sim.time))
  {
    var n := |sim.population|;
    PassSplits(near, sim.population, n, sim.time, draws, sim.cursor);
    HitsBeforeTurn(near, sim.population, n, sim.time, draws, sim.cursor, k);
  }

  /** Before its own turn a person is as it started, or was just infected by
      an earlier turn. */
  lemma {:induction false} AheadOfTurn(near: (Vector, Vector) -> bool, pop: seq<Person>, i: nat, time: int, draws: nat -> real, cursor: nat, j: nat)
    requires i <= j < |pop| && Uniform(draws)
    decreases i
    ensures var s := BeforeTurn(near, pop, i, time, draws, cursor).0;
      s[j] == pop[j] || (pop[j].status == Healthy && s[j] == Infected(pop[j], time))
  {
    if i > 0 {
      AheadOfTurn(near, pop, i - 1, time, draws, cursor, j);
      TurnAhead(near, pop, i - 1, time, draws, cursor, j);
    }
  }

  /** Turn `h` keeps a later person as it was or infects it. */
  lemma TurnAhead(near: (Vector, Vector) -> bool, pop: seq<Person>, h: nat, time: int, draws: nat -> real, cursor: nat, j: nat)
    requires h < j < |pop| && Uniform(draws)
    ensures var a := BeforeTurn(near, pop, h, time, draws, cursor).0[j];
      var z := BeforeTurn(near, pop, h + 1, time, draws, cursor).0[j];
      z == a || (a.status == Healthy && z == Infected(a, time))
  {
    var b := BeforeTurn(near, pop, h, time, draws, cursor);
    BeforeNext(near, pop, h, time, draws, cursor);
    var v := Visit(near, b.0, h, time, draws, b.1).0;
    assert v[j] == b.0[j] || (b.0[j].status == Healthy && v[j] == Infected(b.0[j], time));
  }

  /** Person `k` across a tick: up to its turn it is as it started or just
      infected; its turn is `Person.Tick` (flagged when due for removal); any
      later change is an infection of a person still Healthy. */
  lemma OwnTurnIsTick(near: (Vector, Vector) -> bool, sim: Simulation, draws: nat -> real, k: nat)
    requires Uniform(draws) && k < |sim.population|
    ensures var b := BeforeTurn(near, sim.population, k, sim.time, draws, sim.cursor);
      var q := Tick(b.0[k], sim.time, draws, b.1).0;
      var turn := if RemovalDue(q, sim.time) then q.(toBeRemoved := true) else q;
      var pass := Pass(near, sim.population, 0, sim.time, draws, sim.cursor).0;
      && (b.0[k] == sim.population[k] ||
            (sim.population[k].status == Healthy && b.0[k] == Infected(sim.population[k], sim.time)))
      && (pass[k] == turn || (turn.status == Healthy && pass[k] == Infected(turn, sim.time)))
  {
    var b := BeforeTurn(near, sim.population, k, sim.time, draws, sim.cursor);
    AheadOfTurn(near, sim.population, k, sim.time, draws, sim.cursor, k);
    assert BeforeTurn(near, sim.population, k + 1, sim.time, draws, sim.cursor).0[k] ==
      Visit(near, b.0, k, sim.time, draws, b.1).0[k] by {
      BeforeNext(near, sim.population, k, sim.time, draws, sim.cursor);
    }
    AfterTurn(near, sim.population, k + 1, sim.time, draws, sim.cursor, k);
  }

  /** After person `k`'s turn, the rest of the loop can only infect it. */
  lemma AfterTurn(near: (Vector, Vector) -> bool, pop: seq<Person>, i: nat, time: int, draws: nat -> real, cursor: nat, k: nat)
    requires k < i <= |pop| && Uniform(draws)
    ensures var s := BeforeTurn(near, pop, i, time, draws, cursor).0;
      var pass := Pass(near, pop, 0, time, draws, cursor).0;
      pass[k] == s[k] || (s[k].status == Healthy && pass[k] == Infected(s[k], time))
  {
    PassSplits(near, pop, i, time, draws, cursor);
  }

  // ------------------------------------------------ in-place, in-order pass

  /** Persons on a horizontal line: near when at most 12 apart along x. */
  function OnLine(target: Vector, source: Vector): bool
  {
    -12.0 <= target.x - source.x <= 12.0
  }

  function Resident(id: nat, x: real, status: Status): Person
  {
    Person(id, Vector(x, 100.0), status, Right, -Config.ChangeDirectionAfter,
           if status == Infectious then Some(0) else None, None, None, false)
  }

  function Zeros(k: nat): real { 0.0 }

  /** A resident after its first tick: it has turned to the direction of a
      zero draw (Top) and stepped up by `MoveDistance`. */
  function Walked(id: nat, x: real, status: Status): Person
  {
    Resident(id, x, status).(facing := Top, lastDirectionChange := 0, position := Vector(x, 98.0))
  }

  lemma TickResident(id: nat, x: real, status: Status, c: nat)
    requires 0.0 <= x <= Config.RoomSize && Moves(status)
    ensures Tick(Resident(id, x, status), 0, Zeros, c) == (Walked(id, x, status), c + 1)
  {
    assert DirectionOf(0.0) == Top;
    assert Step(Vector(x, 100.0), Top, Config.MoveDistance) == Vector(x, 98.0);
  }

  lemma InfectResident(id: nat, x: real)
    ensures Infected(Resident(id, x, Healthy), 0) == Resident(id, x, Infectious)
  {
  }

  /** One unfolding of `Targets`. */
  lemma TargetsUnfold(near: (Vector, Vector) -> bool, pop: seq<Person>, source: Vector, from: nat)
    requires from < |pop|
    ensures Targets(near, pop, source, from) ==
      (if pop[from].status == Healthy && near(pop[from].position, source) then [from] else []) +
      Targets(near, pop, source, from + 1)
  {
  }

  /** The index list `findPersonsInInfluenceRadius` yields over three persons. */
  lemma TargetsOfThree(near: (Vector, Vector) -> bool, p0: Person, p1: Person, p2: Person, source: Vector)
    ensures Targets(near, [p0, p1, p2], source, 0) ==
      (if p0.status == Healthy && near(p0.position, source) then [0] else []) +
      ((if p1.status == Healthy && near(p1.position, source) then [1] else []) +
       (if p2.status == Healthy && near(p2.position, source) then [2] else []))
  {
    var pop := [p0, p1, p2];
    var s0: seq<nat> := if p0.status == Healthy && near(p0.position, source) then [0] else [];
    var s1: seq<nat> := if p1.status == Healthy && near(p1.position, source) then [1] else [];
    var s2: seq<nat> := if p2.status == Healthy && near(p2.position, source) then [2] else [];
    assert pop[0] == p0 && pop[1] == p1 && pop[2] == p2;
    assert Targets(near, pop, source, 3) == [];
    assert Targets(near, pop, source, 2) == s2 by {
      TargetsUnfold(near, pop, source, 2);
    }
    assert Targets(near, pop, source, 1) == s1 + s2 by {
      TargetsUnfold(near, pop, source, 1);
    }
    assert Targets(near, pop, source, 0) == s0 + (s1 + s2) by {
      TargetsUnfold(near, pop, source, 0);
    }
  }

  /** Three persons on a line: B within reach of A, C within reach of B
      but not of A. */
  predicate ChainLayout(ax: real, bx: real, cx: real)
  {
    && 0.0 <= ax <= Config.RoomSize && 0.0 <= bx <= Config.RoomSize && 0.0 <= cx <= Config.RoomSize
    && OnLine(Vector(bx, 98.0), Vector(ax, 98.0)) && OnLine(Vector(cx, 98.0), Vector(bx, 98.0))
    && !OnLine(Vector(cx, 98.0), Vector(ax, 98.0))
  }

  lemma ChainFirstVisit(ax: real, bx: real, cx: real)
    requires ChainLayout(ax, bx, cx)
    ensures Visit(OnLine, [Resident(0, ax, Infectious), Resident(1, bx, Healthy), Resident(2, cx, Healthy)], 0, 0, Zeros, 0)
         == ([Walked(0, ax, Infectious), Resident(1, bx, Infectious), Resident(2, cx, Healthy)], 2)
  {
    assert Uniform(Zeros);
    var a, b, c := Resident(0, ax, Infectious), Resident(1, bx, Healthy), Resident(2, cx, Healthy);
    var a', b1 := Walked(0, ax, Infectious), Resident(1, bx, Infectious);
    assert Tick(a, 0, Zeros, 0) == (a', 1) by {
      TickResident(0, ax, Infectious, 0);
    }
    assert [a, b, c][0 := a'] == [a', b, c];
    assert Targets(OnLine, [a', b, c], a'.position, 0) == [1] by {
      TargetsOfThree(OnLine, a', b, c, a'.position);
    }
    assert Infect([a', b, c], [1], Rate(Infectious), 0, Zeros, 1) == ([a', b1, c], 2) by {
      InfectResident(1, bx);
      assert [a', b, c][1 := b1] == [a', b1, c];
    }
    assert !RemovalDue(a', 0);
  }

  lemma ChainSecondVisit(ax: real, bx: real, cx: real)
    requires ChainLayout(ax, bx, cx)
    ensures Visit(OnLine, [Walked(0, ax, Infectious), Resident(1, bx, Infectious), Resident(2, cx, Healthy)], 1, 0, Zeros, 2)
         == ([Walked(0, ax, Infectious), Walked(1, bx, Infectious), Resident(2, cx, Infectious)], 4)
  {
    assert Uniform(Zeros);
    var a', b1, c := Walked(0, ax, Infectious), Resident(1, bx, Infectious), Resident(2, cx, Healthy);
    var b', c1 := Walked(1, bx, Infectious), Resident(2, cx, Infectious);
    assert Tick(b1, 0, Zeros, 2) == (b', 3) by {
      TickResident(1, bx, Infectious, 2);
    }
    assert [a', b1, c][1 := b'] == [a', b', c];
    assert Targets(OnLine, [a', b', c], b'.position, 0) == [2] by {
      TargetsOfThree(OnLine, a', b', c, b'.position);
    }
    assert Infect([a', b', c], [2], Rate(Infectious), 0, Zeros, 3) == ([a', b', c1], 4) by {
      InfectResident(2, cx);
      assert [a', b', c][2 := c1] == [a', b', c1];
    }
    assert !RemovalDue(b', 0);
  }

  lemma ChainThirdVisit(ax: real, bx: real, cx: real)
    requires ChainLayout(ax, bx, cx)
    ensures Visit(OnLine, [Walked(0, ax, Infectious), Walked(1, bx, Infectious), Resident(2, cx, Infectious)], 2, 0, Zeros, 4)
         == ([Walked(0, ax, Infectious), Walked(1, bx, Infectious), Walked(2, cx, Infectious)], 5)
  {
    assert Uniform(Zeros);
    var a', b', c1, c' := Walked(0, ax, Infectious), Walked(1, bx, Infectious), Resident(2, cx, Infectious), Walked(2, cx, Infectious);
    TickResident(2, cx, Infectious, 4);
    assert [a', b', c1][2 := c'] == [a', b', c'];
    TargetsOfThree(OnLine, a', b', c', c'.position);
    assert Infect([a', b', c'], [], Rate(Infectious), 0, Zeros, 5) == ([a', b', c'], 5);
  }

  /** A converted earlier in the pass acts as a source when reached later:
      with A infectious, Healthy B in its reach, Healthy C in B's reach only,
      and every draw 0, B catches it from A and passes it on to C within the
      same tick. */
  lemma InfectionChainsWithinOneTick(ax: real, bx: real, cx: real)
    requires ChainLayout(ax, bx, cx)
    ensures var sim := Simulation([Resident(0, ax, Infectious), Resident(1, bx, Healthy), Resident(2, cx, Healthy)], 0, 0);
      SimulationTick(OnLine, sim, Zeros).population == [Walked(0, ax, Infectious), Walked(1, bx, Infectious), Walked(2, cx, Infectious)]
  {
    assert Uniform(Zeros);
    var a, b, c := Resident(0, ax, Infectious), Resident(1, bx, Healthy), Resident(2, cx, Healthy);
    var a', b', c' := Walked(0, ax, Infectious), Walked(1, bx, Infectious), Walked(2, cx, Infectious);
    var b1, c1 := Resident(1, bx, Infectious), Resident(2, cx, Infectious);
    ChainFirstVisit(ax, bx, cx);
    ChainSecondVisit(ax, bx, cx);
    ChainThirdVisit(ax, bx, cx);
    assert Pass(OnLine, [a', b', c'], 3, 0, Zeros, 5) == ([a', b', c'], 5);
    assert Pass(OnLine, [a', b', c1], 2, 0, Zeros, 4) == ([a', b', c'], 5);
    assert Pass(OnLine, [a', b1, c], 1, 0, Zeros, 2) == ([a', b', c'], 5);
    assert Pass(OnLine, [a, b, c], 0, 0, Zeros, 0) == ([a', b', c'], 5);
    SurvivorsKeepAll([a', b', c']);
  }

  lemma ReversedVisits(ax: real, bx: real, cx: real)
    requires ChainLayout(ax, bx, cx)
    ensures Visit(OnLine, [Resident(2, cx, Healthy), Resident(1, bx, Healthy), Resident(0, ax, Infectious)], 0, 0, Zeros, 0)
         == ([Walked(2, cx, Healthy), Resident(1, bx, Healthy), Resident(0, ax, Infectious)], 1)
    ensures Visit(OnLine, [Walked(2, cx, Healthy), Resident(1, bx, Healthy), Resident(0, ax, Infectious)], 1, 0, Zeros, 1)
         == ([Walked(2, cx, Healthy), Walked(1, bx, Healthy), Resident(0, ax, Infectious)], 2)
  {
    assert Uniform(Zeros);
    var c, b, a := Resident(2, cx, Healthy), Resident(1, bx, Healthy), Resident(0, ax, Infectious);
    var c', b' := Walked(2, cx, Healthy), Walked(1, bx, Healthy);
    TickResident(2, cx, Healthy, 0);
    assert [c, b, a][0 := c'] == [c', b, a];
    TickResident(1, bx, Healthy, 1);
    assert [c', b, a][1 := b'] == [c', b', a];
  }

  lemma ReversedLastVisit(ax: real, bx: real, cx: real)
    requires ChainLayout(ax, bx, cx)
    ensures Visit(OnLine, [Walked(2, cx, Healthy), Walked(1, bx, Healthy), Resident(0, ax, Infectious)], 2, 0, Zeros, 2)
         == ([Walked(2, cx, Healthy), Walked(1, bx, Infectious), Walked(0, ax, Infectious)], 4)
  {
    assert Uniform(Zeros);
    var c', b', a := Walked(2, cx, Healthy), Walked(1, bx, Healthy), Resident(0, ax, Infectious);
    var a', b2 := Walked(0, ax, Infectious), Walked(1, bx, Infectious);
    assert Tick(a, 0, Zeros, 2) == (a', 3) by {
      TickResident(0, ax, Infectious, 2);
    }
    assert [c', b', a][2 := a'] == [c', b', a'];
    assert Targets(OnLine, [c', b', a'], a'.position, 0) == [1] by {
      TargetsOfThree(OnLine, c', b', a', a'.position);
    }
    assert Infect([c', b', a'], [1], Rate(Infectious), 0, Zeros, 3) == ([c', b2, a'], 4) by {
      assert Infected(b', 0) == b2;
      assert [c', b', a'][1 := b2] == [c', b2, a'];
    }
    assert !RemovalDue(a', 0);
  }

  /** The same three persons listed the other way round: B is visited while
      still Healthy, so only A's roll reaches it and C stays Healthy. */
  lemma ReversedOrderStopsTheChain(ax: real, bx: real, cx: real)
    requires ChainLayout(ax, bx, cx)
    ensures var sim := Simulation([Resident(2, cx, Healthy), Resident(1, bx, Healthy), Resident(0, ax, Infectious)], 0, 0);
      SimulationTick(OnLine, sim, Zeros).population == [Walked(2, cx, Healthy), Walked(1, bx, Infectious), Walked(0, ax, Infectious)]
  {
    assert Uniform(Zeros);
    var c, b, a := Resident(2, cx, Healthy), Resident(1, bx, Healthy), Resident(0, ax, Infectious);
    var c', b', a' := Walked(2, cx, Healthy), Walked(1, bx, Healthy), Walked(0, ax, Infectious);
    var b2 := Walked(1, bx, Infectious);
    ReversedVisits(ax, bx, cx);
    ReversedLastVisit(ax, bx, cx);
    assert Pass(OnLine, [c', b2, a'], 3, 0, Zeros, 4) == ([c', b2, a'], 4);
    assert Pass(OnLine, [c', b', a], 2, 0, Zeros, 2) == ([c', b2, a'], 4);
    assert Pass(OnLine, [c', b, a], 1, 0, Zeros, 1) == ([c', b2, a'], 4);
    assert Pass(OnLine, [c, b, a], 0, 0, Zeros, 0) == ([c', b2, a'], 4);
    SurvivorsKeepAll([c', b2, a']);
  }
}

=== FILE: person.dfy ===
/** One simulated person (class `Person` in SicknessSim/Person.cs): the
    first-free-slot id pool, wrap-around movement, direction changes and the
    per-tick status machine. Objects with identity become values; the shared
    `Random` becomes a stream `draws` of uniform values in [0, 1) read at a cursor. */
module Agent {
  import opened Support
  import opened Vectors
  import Config

  datatype Status = Healthy | Infectious | Sick | Dead

  /** Position of a status along Healthy < Infectious < Sick < Dead. */
  function Rank(s: Status): nat
  {
    match s
    case Healthy => 0
    case Infectious => 1
    case Sick => 2
    case Dead => 3
  }

  /** Facing direction; the enum values are Top = 0, Right = 1, Down = 2, Left = 3. */
  datatype Direction = Top | Right | Down | Left

  function DirectionIndex(d: Direction): nat
  {
    match d
    case Top => 0
    case Right => 1
    case Down => 2
    case Left => 3
  }

  /** Healthy and Infectious persons move; Sick and Dead ones do not. */
  predicate Moves(s: Status)
  {
    s == Healthy || s == Infectious
  }

  datatype Person = Person(
    id: nat,
    position: Vector,
    status: Status,
    facing: Direction,
    lastDirectionChange: int,
    timeInfected: Option<int>,
    timeSick: Option<int>,
    timeDied: Option<int>,
    toBeRemoved: bool)

  /** The static `UsedCounter` list: slot `i` tells whether id `i` is taken. */
  type Pool = seq<bool>

  /** A uniform draw of `Random.NextDouble()`. */
  predicate IsDraw(u: real)
  {
    0.0 <= u < 1.0
  }

  /** `GetAvailableIndex`: the lowest free slot, or -1 when every slot is taken. */
  function AvailableIndex(pool: Pool): (r: int)
    ensures -1 <= r < |pool|
    ensures r == -1 <==> forall i :: 0 <= i < |pool| ==> pool[i]
    ensures r >= 0 ==> !pool[r] && forall i :: 0 <= i < r ==> pool[i]
  {
    if |pool| == 0 then -1
    else if !pool[0] then 0
    else
      var k := AvailableIndex(pool[1..]);
      if k == -1 then -1 else k + 1
  }

  /** The `Person` constructor: takes the lowest free id, or appends a new
      taken slot when none is free. A reused slot is left marked free. */
  function NewPerson(pool: Pool, pos: Vector, status: Status): (r: (Person, Pool))
    ensures var (p, pool') := r;
      && p.position == pos && p.status == status
      && p.facing == Right && p.lastDirectionChange == -Config.ChangeDirectionAfter
      && p.timeInfected == None && p.timeSick == None && p.timeDied == None
      && !p.toBeRemoved
    ensures var (p, pool') := r;
      if exists i :: 0 <= i < |pool| && !pool[i] then
        p.id < |pool| && !pool[p.id] && (forall i :: 0 <= i < p.id ==> pool[i]) && pool' == pool
      else
        p.id == |pool| && pool' == pool + [true]
  {
    var free := AvailableIndex(pool);
    var id := if free == -1 then |pool| else free;
    var pool' := if free == -1 then pool + [true] else pool;
    (Person(id, pos, status, Right, -Config.ChangeDirectionAfter, None, None, None, false), pool')
  }

  /** `Dispose`: frees the person's slot, which the next constructor may take. */
  function Dispose(pool: Pool, id: nat): (r: Pool)
    requires id < |pool|
    ensures |r| == |pool| && !r[id]
    ensures forall i :: 0 <= i < |pool| && i != id ==> r[i] == pool[i]
    ensures 0 <= AvailableIndex(r) <= id
  {
    pool[id := false]
  }

  /** Two persons constructed one after the other while a slot is free get the
      same id: the pool does not guarantee that live ids are distinct. */
  lemma ReusedSlotIsHandedOutTwice(pool: Pool, a: Vector, b: Vector, sa: Status, sb: Status)
    requires exists i :: 0 <= i < |pool| && !pool[i]
    ensures var (p, pool') := NewPerson(pool, a, sa);
      NewPerson(pool', b, sb).0.id == p.id
  {
  }

  /** A concrete run: persons 0 and 1 live, 0 is disposed, then two new
      persons both receive id 0. */
  lemma DuplicateLiveIds()
    ensures var pool := Dispose([true, true], 0);
      var (c, pool1) := NewPerson(pool, Zero, Healthy);
      var (d, pool2) := NewPerson(pool1, One, Healthy);
      c.id == 0 && d.id == 0 && pool2 == [false, true]
  {
  }

  /** `randomDirection`: `Random.Next(4)` of the next uniform draw, i.e. the
      quarter of [0, 1) the draw falls into. */
  function DirectionOf(u: real): (d: Direction)
    requires IsDraw(u)
    ensures DirectionIndex(d) as real <= 4.0 * u < DirectionIndex(d) as real + 1.0
  {
    if u < 0.25 then Top else if u < 0.5 then Right else if u < 0.75 then Down else Left
  }

  /** The unit vector of a direction; y grows downwards. */
  function Heading(d: Direction): Vector
  {
    match d
    case Top => Vector(0.0, -1.0)
    case Right => Vector(1.0, 0.0)
    case Down => Vector(0.0, 1.0)
    case Left => Vector(-1.0, 0.0)
  }

  /** The position `moveVector` computes before wrapping. */
  function Step(pos: Vector, d: Direction, distance: real): (r: Vector)
    ensures Sub(r, pos) == Scale(Heading(d), distance)
  {
    match d
    case Top => Add(pos, Vector(0.0, -distance))
    case Right => Add(pos, Vector(distance, 0.0))
    case Down => Add(pos, Vector(0.0, distance))
    case Left => Add(pos, Vector(-distance, 0.0))
  }

  predicate InRoom(c: real)
  {
    0.0 <= c <= Config.RoomSize
  }

  predicate InArena(v: Vector)
  {
    InRoom(v.x) && InRoom(v.y)
  }

  /** Toroidal wrap of one coordinate: below 0 goes to the far edge, beyond
      the far edge goes to 0. */
  function Wrap(c: real): (r: real)
    ensures InRoom(r)
    ensures InRoom(c) ==> r == c
  {
    if c < 0.0 then Config.RoomSize else if c > Config.RoomSize then 0.0 else c
  }

  /** `moveVector`: a step of `distance` in direction `d`, wrapped into the arena. */
  function MoveVector(pos: Vector, d: Direction, distance: real): (r: Vector)
    ensures InArena(r)
    ensures InArena(Step(pos, d, distance)) ==> r == Step(pos, d, distance)
    ensures InArena(pos) && (d == Top || d == Down) ==> r.x == pos.x
    ensures InArena(pos) && (d == Left || d == Right) ==> r.y == pos.y
  {
    var raw := Step(pos, d, distance);
    Vector(Wrap(raw.x), Wrap(raw.y))
  }

  /** A move of at most one arena side from inside the arena that leaves it
      lands exactly on the opposite edge. */
  lemma WrapLandsOnOppositeEdge(pos: Vector, d: Direction, distance: real)
    requires InArena(pos) && 0.0 <= distance <= Config.RoomSize
    ensures var raw := Step(pos, d, distance);
      var r := MoveVector(pos, d, distance);
      (raw.x < 0.0 ==> r.x == Config.RoomSize) && (raw.x > Config.RoomSize ==> r.x == 0.0) &&
      (raw.y < 0.0 ==> r.y == Config.RoomSize) && (raw.y > Config.RoomSize ==> r.y == 0.0)
  {
  }

  /** `Move`: Healthy and Infectious persons take one step; the others stay. */
  function Move(p: Person): (r: Person)
    ensures r == p.(position := r.position)
    ensures Moves(p.status) ==> r.position == MoveVector(p.position, p.facing, Config.MoveDistance)
    ensures !Moves(p.status) ==> r.position == p.position
  {
    if Moves(p.status) then p.(position := MoveVector(p.position, p.facing, Config.MoveDistance)) else p
  }

  /** Whether a moving person picks a new direction at tick `t`. */
  predicate DueForTurn(p: Person, t: int)
  {
    t >= p.lastDirectionChange + Config.ChangeDirectionAfter
  }

  /** Whether the status step is due at tick `t`: an Infectious person has
      been infectious for `TimeInfectious` ticks, or a Sick person sick for
      `TimeSick` ticks. A missing start time compares false (C#'s lifted `>=`
      on `int?`), so such a person is never due. */
  predicate StatusDue(p: Person, t: int)
  {
    match p.status
    case Infectious => p.timeInfected.Some? && t >= p.timeInfected.value + Config.TimeInfectious
    case Sick => p.timeSick.Some? && t >= p.timeSick.value + Config.TimeSick
    case _ => false
  }

  /** The status part of `Tick`: exactly one step forward when due and none
      otherwise, with the tick of the change recorded. */
  function Advance(p: Person, t: int): (r: Person)
    // the status takes one step exactly when the time is up
    ensures Rank(r.status) == Rank(p.status) + (if StatusDue(p, t) then 1 else 0)
    // the tick of a new Sick or Dead status is recorded
    ensures r.status == Sick && p.status != Sick ==> r.timeSick == Some(t)
    ensures r.status == Dead && p.status != Dead ==> r.timeDied == Some(t)
    // a recorded time changes only together with its status
    ensures r.timeSick != p.timeSick ==> p.status == Infectious && r.status == Sick
    ensures r.timeDied != p.timeDied ==> p.status == Sick && r.status == Dead
    // only the status and its recorded times change
    ensures r == p.(status := r.status, timeSick := r.timeSick, timeDied := r.timeDied)
  {
    match p.status
    case Infectious =>
      if p.timeInfected.Some? && t >= p.timeInfected.value + Config.TimeInfectious
      then p.(status := Sick, timeSick := Some(t)) else p
    case Sick =>
      if p.timeSick.Some? && t >= p.timeSick.value + Config.TimeSick
      then p.(status := Dead, timeDied := Some(t)) else p
    case _ => p
  }

  /** `Person.Tick(t)`: a moving person first turns to a freshly drawn
      direction when due, then moves; finally the status advances. Returns the
      updated person and the cursor after the draws it consumed. */
  function Tick(p: Person, t: int, draws: nat -> real, cursor: nat): (r: (Person, nat))
    requires Moves(p.status) && DueForTurn(p, t) ==> IsDraw(draws(cursor))
    // the status moves at most one step forward, and exactly one when due
    ensures Rank(r.0.status) == Rank(p.status) || Rank(r.0.status) == Rank(p.status) + 1
    ensures Rank(r.0.status) == Rank(p.status) + (if StatusDue(p, t) then 1 else 0)
    ensures r.0.status == p.status ==> r.0.timeSick == p.timeSick && r.0.timeDied == p.timeDied
    ensures p.status == Healthy || p.status == Dead ==> r.0.status == p.status
    ensures r.0.status == Sick && p.status == Infectious ==>
      p.timeInfected.Some? && t >= p.timeInfected.value + Config.TimeInfectious && r.0.timeSick == Some(t)
    ensures r.0.status == Dead && p.status == Sick ==>
      p.timeSick.Some? && t >= p.timeSick.value + Config.TimeSick && r.0.timeDied == Some(t)
    ensures p.status == Infectious && p.timeInfected == None ==> r.0.status == Infectious
    // Sick and Dead persons neither turn, move nor draw
    ensures !Moves(p.status) ==>
      r.1 == cursor && r.0.position == p.position &&
      r.0.facing == p.facing && r.0.lastDirectionChange == p.lastDirectionChange
    // a moving person draws a direction exactly when due, then steps that way
    ensures Moves(p.status) && DueForTurn(p, t) ==>
      r.1 == cursor + 1 && r.0.facing == DirectionOf(draws(cursor)) && r.0.lastDirectionChange == t
    ensures Moves(p.status) && !DueForTurn(p, t) ==>
      r.1 == cursor && r.0.facing == p.facing && r.0.lastDirectionChange == p.lastDirectionChange
    ensures Moves(p.status) ==> r.0.position == MoveVector(p.position, r.0.facing, Config.MoveDistance)
    ensures InArena(p.position) ==> InArena(r.0.position)
    // nothing else changes
    ensures r.0.id == p.id && r.0.toBeRemoved == p.toBeRemoved && r.0.timeInfected == p.timeInfected
    ensures r.1 <= cursor + 1
  {
    if Moves(p.status) then
      var turned := if DueForTurn(p, t)
        then p.(facing := DirectionOf(draws(cursor)), lastDirectionChange := t)
        else p;
      var next := if DueForTurn(p, t) then cursor + 1 else cursor;
      (Advance(Move(turned), t), next)
    else
      (Advance(p, t), cursor)
  }

  /** A freshly constructed moving person turns on its first tick at any `t >= 0`. */
  lemma FreshPersonTurnsAtOnce(pool: Pool, pos: Vector, s: Status, t: int)
    requires t >= 0
    ensures DueForTurn(NewPerson(pool, pos, s).0, t)
  {
  }

  /** The persons not flagged for removal, in their original order. */
  function Survivors(s: seq<Person>): (r: seq<Person>)
    ensures multiset(r) <= multiset(s)
    ensures forall o :: o in r <==> o in s && !o.toBeRemoved
  {
    if s == [] then []
    else
      assert s == [s[0]] + s[1..];
      (if s[0].toBeRemoved then [] else [s[0]]) + Survivors(s[1..])
  }

  lemma {:induction false} SurvivorsAppend(a: seq<Person>, b: seq<Person>)
    ensures Survivors(a + b) == Survivors(a) + Survivors(b)
  {
    if a == [] {
      assert a + b == b;
    } else {
      assert (a + b)[1..] == a[1..] + b;
      SurvivorsAppend(a[1..], b);
    }
  }

  /** With nobody flagged, nobody is dropped. */
  lemma {:induction false} SurvivorsKeepAll(s: seq<Person>)
    requires forall o :: o in s ==> !o.toBeRemoved
    ensures Survivors(s) == s
  {
    if s != [] {
      assert !s[0].toBeRemoved;
      assert Survivors(s[1..]) == s[1..] by {
        assert forall o :: o in s[1..] ==> o in s;
        SurvivorsKeepAll(s[1..]);
      }
      assert Survivors(s) == [s[0]] + Survivors(s[1..]);
      assert [s[0]] + s[1..] == s;
    }
  }
}

=== FILE: pointtree.dfy ===
/** The point quadtree of SicknessSim/QuadTree.cs: a region tree over the
    arena whose nodes store persons by position, split into four quadrants
    when they fill up, and answer rectangle queries.

    The source sizes children with truncated integer halves while `getIndex`
    compares with the exact midpoint; the model is parametric in the
    `SplitRule` so that both the source's rule (`AsWritten`) and the exact
    halving (`Exact`) can be stated and compared. */
module PointTree {
  import opened Vectors
  import opened Rects
  import opened Support
  import opened Agent

  /** A node splits once it holds this many persons... */
  const ObjectsPerNode: nat := 32
  /** ...unless its level has reached this depth. */
  const MaxDepth: nat := 200

  datatype SplitRule = AsWritten | Exact

  /** A node: its depth, its region, the persons it stores itself, and its
      children. */
  datatype Node = Node(level: nat, bounds: Rect, objects: seq<Person>, kids: Children)

  /** Either no children (the `children[0] == null` case) or four: `q0`
      top-right, `q1` top-left, `q2` bottom-left, `q3` bottom-right. */
  datatype Children = NoChildren | Four(q0: Node, q1: Node, q2: Node, q3: Node)

  /** `children[i]`. */
  function Kid(c: Children, i: int): Node
    requires c.Four? && 0 <= i < 4
  {
    if i == 0 then c.q0 else if i == 1 then c.q1 else if i == 2 then c.q2 else c.q3
  }

  /** The children with `children[i]` replaced by `k`. */
  function WithKid(c: Children, i: int, k: Node): (r: Children)
    requires c.Four? && 0 <= i < 4
    ensures r.Four? && Kid(r, i) == k
    ensures forall j :: 0 <= j < 4 && j != i ==> Kid(r, j) == Kid(c, j)
  {
    if i == 0 then c.(q0 := k) else if i == 1 then c.(q1 := k) else if i == 2 then c.(q2 := k) else c.(q3 := k)
  }

  // ---------------------------------------------------------------- geometry

  /** C#'s `(int)` cast of a double: truncation toward zero. */
  function Trunc(r: real): int
  {
    if r >= 0.0 then r.Floor else -((-r).Floor)
  }

  /** C#'s integer `/ 2`: truncation toward zero. */
  function Half(a: int): int
  {
    if a >= 0 then a / 2 else -((-a) / 2)
  }

  /** `Contains(rect, point)`: closed containment of a point. */
  predicate InsideRect(rect: Rect, v: Vector)
  {
    rect.Left() <= v.x && rect.Right() >= v.x && rect.Top() <= v.y && rect.Bottom() >= v.y
  }

  function VerticalMid(b: Rect): real { b.x + b.width / 2.0 }
  function HorizontalMid(b: Rect): real { b.y + b.height / 2.0 }

  /** `getIndex(Vector)`: the quadrant a point falls strictly into, or -1 when
      it lies on either midpoint line. */
  function GetIndex(b: Rect, v: Vector): (r: int)
    ensures r == 1 <==> v.x < VerticalMid(b) && v.y < HorizontalMid(b)
    ensures r == 0 <==> v.x > VerticalMid(b) && v.y < HorizontalMid(b)
    ensures r == 2 <==> v.x < VerticalMid(b) && v.y > HorizontalMid(b)
    ensures r == 3 <==> v.x > VerticalMid(b) && v.y > HorizontalMid(b)
    ensures r == -1 <==> v.x == VerticalMid(b) || v.y == HorizontalMid(b)
  {
    var top := v.y < HorizontalMid(b);
    var bottom := v.y > HorizontalMid(b);
    if v.x < VerticalMid(b) then
      (if top then 1 else if bottom then 2 else -1)
    else if v.x > VerticalMid(b) then
      (if top then 0 else if bottom then 3 else -1)
    else -1
  }

  /** The exact closed quadrant `i` of `b`. */
  function Quadrant(b: Rect, i: int): Rect
    requires 0 <= i < 4
  {
    var w := b.width / 2.0;
    var h := b.height / 2.0;
    if i == 0 then Rect(b.x + w, b.y, w, h)
    else if i == 1 then Rect(b.x, b.y, w, h)
    else if i == 2 then Rect(b.x, b.y + h, w, h)
    else Rect(b.x + w, b.y + h, w, h)
  }

  /** A point of `b` that `GetIndex` sends to quadrant `i` lies in that quadrant. */
  lemma IndexedPointInQuadrant(b: Rect, v: Vector)
    requires InsideRect(b, v)
    requires GetIndex(b, v) != -1
    ensures InsideRect(Quadrant(b, GetIndex(b, v)), v)
  {
  }

  /** Child `i`'s region as `Split` computes it under the given rule. */
  function ChildRect(rule: SplitRule, b: Rect, i: int): (r: Rect)
    requires 0 <= i < 4
    ensures rule == Exact ==> r == Quadrant(b, i)
    ensures rule == AsWritten ==>
      r.width == Half(Trunc(b.width)) as real && r.height == Half(Trunc(b.height)) as real
  {
    match rule
    case Exact => Quadrant(b, i)
    case AsWritten =>
      var w := Half(Trunc(b.width));
      var h := Half(Trunc(b.height));
      var x := Trunc(b.x);
      var y := Trunc(b.y);
      if i == 0 then Rect((x + w) as real, y as real, w as real, h as real)
      else if i == 1 then Rect(x as real, y as real, w as real, h as real)
      else if i == 2 then Rect(x as real, (y + h) as real, w as real, h as real)
      else Rect((x + w) as real, (y + h) as real, w as real, h as real)
  }

  /** `Split`: four empty children one level deeper. Under the source's rule
      child 0 lies right of child 1, child 3 right of child 2, and children 2
      and 3 lie below 1 and 0. */
  function Split(rule: SplitRule, level: nat, b: Rect): (r: Children)
    ensures r.Four?
    ensures forall i :: 0 <= i < 4 ==>
      Kid(r, i) == Node(level + 1, ChildRect(rule, b, i), [], NoChildren)
    ensures rule == AsWritten ==>
      var w := Half(Trunc(b.width)) as real;
      var h := Half(Trunc(b.height)) as real;
      && r.q0.bounds.x == r.q1.bounds.x + w && r.q0.bounds.y == r.q1.bounds.y
      && r.q2.bounds.x == r.q1.bounds.x && r.q2.bounds.y == r.q1.bounds.y + h
      && r.q3.bounds.x == r.q0.bounds.x && r.q3.bounds.y == r.q2.bounds.y
      && r.q1.bounds.x == Trunc(b.x) as real && r.q1.bounds.y == Trunc(b.y) as real
  {
    Four(Node(level + 1, ChildRect(rule, b, 0), [], NoChildren), Node(level + 1, ChildRect(rule, b, 1), [], NoChildren),
         Node(level + 1, ChildRect(rule, b, 2), [], NoChildren), Node(level + 1, ChildRect(rule, b, 3), [], NoChildren))
  }

  // -------------------------------------------------------------- structure

  /** Children come four at a time, one level deeper, and only below `MaxDepth`. */
  predicate Valid(n: Node)
    decreases n
  {
    n.kids.NoChildren? || (n.level < MaxDepth && ValidKids(n.level, n.kids))
  }

  predicate ValidKids(level: nat, c: Children)
    decreases c
  {
    c.Four? &&
    c.q0.level == level + 1 && Valid(c.q0) && c.q1.level == level + 1 && Valid(c.q1) &&
    c.q2.level == level + 1 && Valid(c.q2) && c.q3.level == level + 1 && Valid(c.q3)
  }

  lemma SplitIsValid(rule: SplitRule, level: nat, b: Rect)
    ensures ValidKids(level, Split(rule, level, b))
    ensures BagKids(Split(rule, level, b)) == multiset{}
  {
    var c := Split(rule, level, b);
    assert Bag(c.q0) == multiset{} && Bag(c.q1) == multiset{} && Bag(c.q2) == multiset{} && Bag(c.q3) == multiset{};
  }

  lemma KidIsValid(level: nat, c: Children, i: int)
    requires ValidKids(level, c) && 0 <= i < 4
    ensures Kid(c, i).level == level + 1 && Valid(Kid(c, i))
  {
  }

  /** Every person stored in the subtree, node before children, children in index order. */
  function Flatten(n: Node): seq<Person>
    decreases n
  {
    n.objects + FlattenKids(n.kids)
  }

  function FlattenKids(c: Children): seq<Person>
    decreases c
  {
    match c
    case NoChildren => []
    case Four(a, b, d, e) => Flatten(a) + Flatten(b) + Flatten(d) + Flatten(e)
  }

  /** The multiset of persons stored in the subtree. */
  function Bag(n: Node): multiset<Person>
    decreases n
  {
    multiset(n.objects) + BagKids(n.kids)
  }

  function BagKids(c: Children): multiset<Person>
    decreases c
  {
    match c
    case NoChildren => multiset{}
    case Four(a, b, d, e) => Bag(a) + Bag(b) + Bag(d) + Bag(e)
  }

  /** The storage-order listing holds exactly the stored persons; this
      mirrors `BoxTree.BagIsFlatten` for the point tree's node type. */
  lemma {:induction false} BagIsFlatten(n: Node)
    decreases n
    ensures Bag(n) == multiset(Flatten(n))
  {
    BagKidsIsFlatten(n.kids);
  }

  lemma {:induction false} BagKidsIsFlatten(c: Children)
    decreases c
    ensures BagKids(c) == multiset(FlattenKids(c))
  {
    match c
    case NoChildren =>
    case Four(a, b, d, e) =>
      BagIsFlatten(a); BagIsFlatten(b); BagIsFlatten(d); BagIsFlatten(e);
  }

  /** The persons of `s` whose position lies in `rect`, in order. */
  function Filter(s: seq<Person>, rect: Rect): (r: seq<Person>)
    ensures multiset(r) <= multiset(s)
    ensures forall p :: p in r <==> p in s && InsideRect(rect, p.position)
  {
    if s == [] then []
    else
      assert s == [s[0]] + s[1..];
      (if InsideRect(rect, s[0].position) then [s[0]] else []) + Filter(s[1..], rect)
  }

  lemma {:induction false} FilterAppend(a: seq<Person>, b: seq<Person>, rect: Rect)
    ensures Filter(a + b, rect) == Filter(a, rect) + Filter(b, rect)
  {
    if a == [] {
      assert a + b == b;
    } else {
      var head := if InsideRect(rect, a[0].position) then [a[0]] else [];
      assert (a + b)[0] == a[0] && (a + b)[1..] == a[1..] + b;
      assert Filter(a + b, rect) == head + Filter(a[1..] + b, rect);
      FilterAppend(a[1..], b, rect);
      assert Filter(a, rect) == head + Filter(a[1..], rect);
    }
  }

  /** `Query`: prunes nodes whose region misses `rect`, keeps stored persons
      inside `rect`, then descends into the four children. */
  function Query(n: Node, rect: Rect): (r: seq<Person>)
    decreases n
    ensures multiset(r) <= multiset(Flatten(n))
    ensures forall p :: p in r ==> InsideRect(rect, p.position)
  {
    if !Intersects(n.bounds, rect) then []
    else Filter(n.objects, rect) + QueryKids(n.kids, rect)
  }

  function QueryKids(c: Children, rect: Rect): (r: seq<Person>)
    decreases c
    ensures multiset(r) <= multiset(FlattenKids(c))
    ensures forall p :: p in r ==> InsideRect(rect, p.position)
  {
    match c
    case NoChildren => []
    case Four(a, b, d, e) => Query(a, rect) + Query(b, rect) + Query(d, rect) + Query(e, rect)
  }

  /** `Clear`: empties every node's list and keeps every child. */
  function Clear(n: Node): (r: Node)
    decreases n
    ensures Flatten(r) == []
    ensures r.level == n.level && r.bounds == n.bounds && r.kids.Four? == n.kids.Four?
    ensures Valid(n) ==> Valid(r)
  {
    n.(objects := [], kids := ClearKids(n.level, n.kids))
  }

  function ClearKids(level: nat, c: Children): (r: Children)
    decreases c
    ensures FlattenKids(r) == []
    ensures r.Four? == c.Four?
    ensures c.Four? ==> forall i :: 0 <= i < 4 ==> Kid(r, i).level == Kid(c, i).level && Kid(r, i).bounds == Kid(c, i).bounds
    ensures ValidKids(level, c) ==> ValidKids(level, r)
  {
    match c
    case NoChildren => NoChildren
    case Four(a, b, d, e) => Four(Clear(a), Clear(b), Clear(d), Clear(e))
  }

  // -------------------------------------------------------------- insertion

  /** Replacing child `i` keeps the shape when the new child has the old
      one's level. */
  lemma ReplaceKid(level: nat, c: Children, i: int, k: Node)
    requires c.Four? && 0 <= i < 4
    ensures ValidKids(level, c) && k.level == level + 1 && Valid(k) ==> ValidKids(level, WithKid(c, i, k))
  {
  }

  /** Storing `p` in child `i` stores it in the children. */
  lemma AddToKid(c: Children, i: int, k: Node, p: Person)
    requires c.Four? && 0 <= i < 4
    requires Bag(k) == Bag(Kid(c, i)) + multiset{p}
    ensures BagKids(WithKid(c, i, k)) == BagKids(c) + multiset{p}
  {
    if i == 0 {
      assert WithKid(c, i, k) == c.(q0 := k);
    } else if i == 1 {
      assert WithKid(c, i, k) == c.(q1 := k);
    } else if i == 2 {
      assert WithKid(c, i, k) == c.(q2 := k);
    } else {
      assert WithKid(c, i, k) == c.(q3 := k);
    }
  }

  /** Storing `p` in child `i` stores it in the node. */
  lemma DelegateStores(n: Node, i: int, k: Node, p: Person)
    requires Valid(n) && n.kids.Four? && 0 <= i < 4 && k.level == n.level + 1 && Valid(k)
    requires Bag(k) == Bag(Kid(n.kids, i)) + multiset{p}
    ensures Valid(n.(kids := WithKid(n.kids, i, k)))
    ensures Bag(n.(kids := WithKid(n.kids, i, k))) == Bag(n) + multiset{p}
  {
    ReplaceKid(n.level, n.kids, i, k);
    AddToKid(n.kids, i, k, p);
  }

  /** Rebuilding a node from the redistribution's result stores the node's
      old persons plus `p`. */
  lemma RebuildStores(n: Node, p: Person, kids: Children, kept: seq<Person>, kids': Children)
    requires kids == n.kids || (n.kids.NoChildren? && BagKids(kids) == multiset{})
    requires multiset(kept) + BagKids(kids') == multiset(n.objects + [p]) + BagKids(kids)
    ensures Bag(Node(n.level, n.bounds, kept, kids')) == Bag(n) + multiset{p}
  {
  }

  /** `QuadTreeNode.Insert`: a node with children hands a point off its
      midlines to the one child `getIndex` names; otherwise the node keeps it
      and, once it holds `ObjectsPerNode` persons below `MaxDepth`, splits (if
      it has no children yet) and pushes every stored person it can down. */
  function Insert(rule: SplitRule, n: Node, p: Person): (r: Node)
    requires Valid(n)
    decreases MaxDepth - n.level, 1, 0
    ensures Valid(r) && r.level == n.level && r.bounds == n.bounds
    ensures n.kids.Four? ==> r.kids.Four? && forall i :: 0 <= i < 4 ==> Kid(r.kids, i).bounds == Kid(n.kids, i).bounds
    ensures Bag(r) == Bag(n) + multiset{p}
    // a person on a midline stays in the node's own list
    ensures GetIndex(n.bounds, p.position) == -1 ==> p in r.objects
  {
    if n.kids.Four? && GetIndex(n.bounds, p.position) != -1 then
      var i := GetIndex(n.bounds, p.position);
      KidIsValid(n.level, n.kids, i);
      var k := Insert(rule, Kid(n.kids, i), p);
      DelegateStores(n, i, k, p);
      n.(kids := WithKid(n.kids, i, k))
    else
      var objs := n.objects + [p];
      if |objs| >= ObjectsPerNode && n.level < MaxDepth then
        var kids := if n.kids.Four? then n.kids else Split(rule, n.level, n.bounds);
        SplitIsValid(rule, n.level, n.bounds);
        var rest := Redistribute(rule, n.level, n.bounds, objs, kids);
        RebuildStores(n, p, kids, rest.0, rest.1);
        Node(n.level, n.bounds, rest.0, rest.1)
      else
        n.(objects := objs)
  }

  /** Moving `o` into child `i` moves it into the children. */
  lemma MoveToKid(level: nat, c: Children, i: int, k: Node, o: Person)
    requires ValidKids(level, c) && 0 <= i < 4
    requires k.level == level + 1 && Valid(k) && k.bounds == Kid(c, i).bounds
    requires Bag(k) == Bag(Kid(c, i)) + multiset{o}
    ensures ValidKids(level, WithKid(c, i, k))
    ensures BagKids(WithKid(c, i, k)) == BagKids(c) + multiset{o}
    ensures forall j :: 0 <= j < 4 ==> Kid(WithKid(c, i, k), j).bounds == Kid(c, j).bounds
  {
    ReplaceKid(level, c, i, k);
    AddToKid(c, i, k, o);
  }

  /** The persons of `objs` on a midline of `b`, in list order: those
      `getIndex` gives no quadrant. */
  function Midline(b: Rect, objs: seq<Person>): (r: seq<Person>)
    ensures forall o :: o in r <==> o in objs && GetIndex(b, o.position) == -1
    ensures |r| <= |objs|
  {
    if objs == [] then []
    else if GetIndex(b, objs[0].position) == -1 then [objs[0]] + Midline(b, objs[1..])
    else Midline(b, objs[1..])
  }

  /** The redistribution loop of `Insert`: walks the node's list in order,
      moving each person with a quadrant into that child and keeping the rest
      in order. Returns the kept persons and the updated children. */
  function Redistribute(rule: SplitRule, level: nat, b: Rect, objs: seq<Person>, c: Children): (r: (seq<Person>, Children))
    requires level < MaxDepth && ValidKids(level, c)
    decreases MaxDepth - level, 0, |objs|
    ensures ValidKids(level, r.1)
    ensures forall i :: 0 <= i < 4 ==> Kid(r.1, i).bounds == Kid(c, i).bounds
    ensures multiset(r.0) + BagKids(r.1) == multiset(objs) + BagKids(c)
    ensures forall o :: o in r.0 ==> o in objs && GetIndex(b, o.position) == -1
    // the kept list is exactly the midline persons, in their list order
    ensures r.0 == Midline(b, objs)
  {
    if objs == [] then ([], c)
    else
      var o := objs[0];
      assert multiset(objs) == multiset{o} + multiset(objs[1..]) by {
        assert objs == [o] + objs[1..];
      }
      var i := GetIndex(b, o.position);
      if i == -1 then
        var rest := Redistribute(rule, level, b, objs[1..], c);
        assert multiset([o] + rest.0) + BagKids(rest.1) == multiset{o} + (multiset(rest.0) + BagKids(rest.1));
        assert multiset(objs) + BagKids(c) == multiset{o} + (multiset(objs[1..]) + BagKids(c));
        assert forall x :: x in objs[1..] ==> x in objs;
        ([o] + rest.0, rest.1)
      else
        KidIsValid(level, c, i);
        var k := Insert(rule, Kid(c, i), o);
        MoveToKid(level, c, i, k, o);
        Redistribute(rule, level, b, objs[1..], WithKid(c, i, k))
  }

  /** At `MaxDepth` a node never splits: its list just grows. */
  lemma NoSplitAtMaxDepth(rule: SplitRule, n: Node, p: Person)
    requires Valid(n) && n.level >= MaxDepth
    ensures Insert(rule, n, p) == n.(objects := n.objects + [p])
  {
  }

  /** Below the threshold a leaf just appends. */
  lemma LeafBelowCapacityAppends(rule: SplitRule, n: Node, p: Person)
    requires Valid(n) && n.kids.NoChildren? && |n.objects| + 1 < ObjectsPerNode
    ensures Insert(rule, n, p) == n.(objects := n.objects + [p])
  {
  }

  // -------------------------------------------------- settled node lists

  /** A node with children keeps in its own list only persons on a midline. */
  predicate Settled(n: Node)
    decreases n
  {
    (n.kids.Four? ==> forall o :: o in n.objects ==> GetIndex(n.bounds, o.position) == -1) &&
    SettledKids(n.kids)
  }

  predicate SettledKids(c: Children)
    decreases c
  {
    c.Four? ==> Settled(c.q0) && Settled(c.q1) && Settled(c.q2) && Settled(c.q3)
  }

  lemma SettledKid(c: Children, i: int)
    requires SettledKids(c) && c.Four? && 0 <= i < 4
    ensures Settled(Kid(c, i))
  {
  }

  lemma SettledWithKid(c: Children, i: int, k: Node)
    requires SettledKids(c) && c.Four? && 0 <= i < 4 && Settled(k)
    ensures SettledKids(WithKid(c, i, k))
  {
  }

  /** Insertion keeps every split node's own list down to midline persons. */
  lemma {:induction false} InsertSettles(rule: SplitRule, n: Node, p: Person)
    requires Valid(n) && Settled(n)
    decreases MaxDepth - n.level, 1, 0
    ensures Settled(Insert(rule, n, p))
  {
    if n.kids.Four? && GetIndex(n.bounds, p.position) != -1 {
      var i := GetIndex(n.bounds, p.position);
      KidIsValid(n.level, n.kids, i);
      SettledKid(n.kids, i);
      InsertSettles(rule, Kid(n.kids, i), p);
      SettledWithKid(n.kids, i, Insert(rule, Kid(n.kids, i), p));
    } else {
      var objs := n.objects + [p];
      if |objs| >= ObjectsPerNode && n.level < MaxDepth {
        var kids := if n.kids.Four? then n.kids else Split(rule, n.level, n.bounds);
        SplitIsValid(rule, n.level, n.bounds);
        RedistributeSettles(rule, n.level, n.bounds, objs, kids);
      }
    }
  }

  lemma {:induction false} RedistributeSettles(rule: SplitRule, level: nat, b: Rect, objs: seq<Person>, c: Children)
    requires level < MaxDepth && ValidKids(level, c) && SettledKids(c)
    decreases MaxDepth - level, 0, |objs|
    ensures SettledKids(Redistribute(rule, level, b, objs, c).1)
  {
    if objs != [] {
      var o := objs[0];
      var i := GetIndex(b, o.position);
      if i == -1 {
        RedistributeSettles(rule, level, b, objs[1..], c);
      } else {
        KidIsValid(level, c, i);
        SettledKid(c, i);
        InsertSettles(rule, Kid(c, i), o);
        var k := Insert(rule, Kid(c, i), o);
        SettledWithKid(c, i, k);
        MoveToKid(level, c, i, k, o);
        RedistributeSettles(rule, level, b, objs[1..], WithKid(c, i, k));
      }
    }
  }

  // ------------------------------------------------- placement and queries

  /** Every region is non-negative, children are the exact quadrants of their
      parent, and every stored person lies in its node's region. */
  predicate Placed(n: Node)
    decreases n
  {
    n.bounds.width >= 0.0 && n.bounds.height >= 0.0 &&
    (forall o :: o in n.objects ==> InsideRect(n.bounds, o.position)) &&
    PlacedKids(n.bounds, n.kids)
  }

  predicate PlacedKids(b: Rect, c: Children)
    decreases c
  {
    c.Four? ==>
      c.q0.bounds == Quadrant(b, 0) && Placed(c.q0) && c.q1.bounds == Quadrant(b, 1) && Placed(c.q1) &&
      c.q2.bounds == Quadrant(b, 2) && Placed(c.q2) && c.q3.bounds == Quadrant(b, 3) && Placed(c.q3)
  }

  lemma PlacedKid(b: Rect, c: Children, i: int)
    requires PlacedKids(b, c) && c.Four? && 0 <= i < 4
    ensures Kid(c, i).bounds == Quadrant(b, i) && Placed(Kid(c, i))
  {
  }

  lemma PlacedWithKid(b: Rect, c: Children, i: int, k: Node)
    requires PlacedKids(b, c) && c.Four? && 0 <= i < 4 && Placed(k) && k.bounds == Quadrant(b, i)
    ensures PlacedKids(b, WithKid(c, i, k))
  {
  }

  lemma QuadrantWithin(b: Rect, i: int, v: Vector)
    requires 0 <= i < 4 && b.width >= 0.0 && b.height >= 0.0
    requires InsideRect(Quadrant(b, i), v)
    ensures InsideRect(b, v)
  {
  }

  /** Every person stored below a placed node lies in the node's region. */
  lemma {:induction false} PlacedInside(n: Node)
    requires Placed(n)
    decreases n
    ensures forall o :: o in Flatten(n) ==> InsideRect(n.bounds, o.position)
  {
    var c := n.kids;
    if c.Four? {
      PlacedInside(c.q0); PlacedInside(c.q1); PlacedInside(c.q2); PlacedInside(c.q3);
      forall o | o in FlattenKids(c)
        ensures InsideRect(n.bounds, o.position)
      {
        if o in Flatten(c.q0) { QuadrantWithin(n.bounds, 0, o.position); }
        else if o in Flatten(c.q1) { QuadrantWithin(n.bounds, 1, o.position); }
        else if o in Flatten(c.q2) { QuadrantWithin(n.bounds, 2, o.position); }
        else { QuadrantWithin(n.bounds, 3, o.position); }
      }
    }
  }

  lemma FilterNone(s: seq<Person>, rect: Rect)
    requires forall o :: o in s ==> !InsideRect(rect, o.position)
    ensures Filter(s, rect) == []
  {
    if s != [] {
      FilterNone(s[1..], rect);
    }
  }

  /** Query completeness: on a placed tree the pruned query returns exactly
      the stored persons inside the rectangle, in storage order. */
  lemma {:induction false} QueryComplete(n: Node, rect: Rect)
    requires Placed(n)
    decreases n
    ensures Query(n, rect) == Filter(Flatten(n), rect)
  {
    if !Intersects(n.bounds, rect) {
      PlacedInside(n);
      forall o | o in Flatten(n)
        ensures !InsideRect(rect, o.position)
      {
        if InsideRect(rect, o.position) {
          CommonPointIntersects(n.bounds, rect, o.position.x, o.position.y);
        }
      }
      FilterNone(Flatten(n), rect);
    } else {
      FilterAppend(n.objects, FlattenKids(n.kids), rect);
      var c := n.kids;
      if c.Four? {
        QueryComplete(c.q0, rect); QueryComplete(c.q1, rect);
        QueryComplete(c.q2, rect); QueryComplete(c.q3, rect);
        FilterAppend(Flatten(c.q0), Flatten(c.q1), rect);
        FilterAppend(Flatten(c.q0) + Flatten(c.q1), Flatten(c.q2), rect);
        FilterAppend(Flatten(c.q0) + Flatten(c.q1) + Flatten(c.q2), Flatten(c.q3), rect);
      }
    }
  }

  // ------------------------------------------------------ halvable regions

  predicate IsWhole(r: real)
  {
    r.Floor as real == r
  }

  /** `w` can be halved `k` times without remainder. */
  predicate HalvesEvenly(w: int, k: nat)
    decreases k
  {
    k == 0 || (w % 2 == 0 && HalvesEvenly(w / 2, k - 1))
  }

  /** A region whose corner is on whole coordinates and whose sides are whole
      multiples of `2^k`: `k` rounds of truncating halving lose nothing. */
  predicate Halvable(b: Rect, k: nat)
  {
    IsWhole(b.x) && IsWhole(b.y) && b.width >= 0.0 && b.height >= 0.0 &&
    IsWhole(b.width) && IsWhole(b.height) &&
    HalvesEvenly(b.width.Floor, k) && HalvesEvenly(b.height.Floor, k)
  }

  /** Splitting depth left below a node at `level`. */
  function Room(level: nat): nat
  {
    if level < MaxDepth then MaxDepth - level else 0
  }

  /** The split rule loses nothing in the region of a node at `level`. */
  predicate Fits(rule: SplitRule, level: nat, b: Rect)
  {
    rule == Exact || Halvable(b, Room(level))
  }

  lemma TruncWhole(r: real)
    requires IsWhole(r)
    ensures Trunc(r) as real == r
  {
    var f := r.Floor;
    assert -r == (-f) as real;
    assert (-r).Floor == -f;
  }

  lemma HalveWhole(r: real, k: nat)
    requires r >= 0.0 && IsWhole(r) && HalvesEvenly(r.Floor, k + 1)
    ensures Half(Trunc(r)) as real == r / 2.0
    ensures IsWhole(r / 2.0) && HalvesEvenly((r / 2.0).Floor, k)
  {
    var w := r.Floor;
    assert Trunc(r) == w by { TruncWhole(r); }
    assert w % 2 == 0 && HalvesEvenly(w / 2, k);
    HalfOfEven(w);
  }

  /** Halving an even whole number in the reals gives its integer half. */
  lemma HalfOfEven(w: int)
    requires w % 2 == 0
    ensures (w as real) / 2.0 == (w / 2) as real && ((w as real) / 2.0).Floor == w / 2
  {
    var h := w / 2;
    assert w == 2 * h;
    assert (w as real) == 2.0 * (h as real);
  }

  /** On a halvable region the truncating split yields the exact quadrants,
      and each quadrant is halvable one round fewer. */
  lemma {:induction false} HalvableSplits(b: Rect, k: nat)
    requires Halvable(b, k + 1)
    ensures forall i :: 0 <= i < 4 ==> ChildRect(AsWritten, b, i) == Quadrant(b, i)
    ensures forall i :: 0 <= i < 4 ==> Halvable(Quadrant(b, i), k)
  {
    HalveWhole(b.width, k);
    HalveWhole(b.height, k);
    TruncWhole(b.x);
    TruncWhole(b.y);
    var w := b.width / 2.0;
    var h := b.height / 2.0;
    assert (b.x + w).Floor == b.x.Floor + w.Floor;
    assert (b.y + h).Floor == b.y.Floor + h.Floor;
  }

  /** A quadrant of a fitting region fits one level down. */
  lemma KidFits(rule: SplitRule, level: nat, b: Rect, i: int)
    requires level < MaxDepth && 0 <= i < 4 && Fits(rule, level, b)
    ensures Fits(rule, level + 1, Quadrant(b, i))
  {
    if rule == AsWritten {
      HalvableSplits(b, Room(level + 1));
    }
  }

  /** A fresh split of a fitting region is placed: its children are the
      exact quadrants. */
  lemma SplitIsPlaced(rule: SplitRule, level: nat, b: Rect)
    requires level < MaxDepth && b.width >= 0.0 && b.height >= 0.0 && Fits(rule, level, b)
    ensures PlacedKids(b, Split(rule, level, b))
  {
    if rule == AsWritten {
      HalvableSplits(b, Room(level + 1));
    }
    var c := Split(rule, level, b);
    assert Kid(c, 0) == c.q0 && Kid(c, 1) == c.q1 && Kid(c, 2) == c.q2 && Kid(c, 3) == c.q3;
  }

  /** Insertion of a person inside the region keeps the tree placed, as long
      as the split rule loses nothing in that region. */
  lemma {:induction false} InsertKeepsPlaced(rule: SplitRule, n: Node, p: Person)
    requires Valid(n) && Placed(n) && InsideRect(n.bounds, p.position) && Fits(rule, n.level, n.bounds)
    decreases MaxDepth - n.level, 1, 0
    ensures Placed(Insert(rule, n, p))
  {
    if n.kids.Four? && GetIndex(n.bounds, p.position) != -1 {
      var i := GetIndex(n.bounds, p.position);
      KidIsValid(n.level, n.kids, i);
      PlacedKid(n.bounds, n.kids, i);
      IndexedPointInQuadrant(n.bounds, p.position);
      KidFits(rule, n.level, n.bounds, i);
      InsertKeepsPlaced(rule, Kid(n.kids, i), p);
      PlacedWithKid(n.bounds, n.kids, i, Insert(rule, Kid(n.kids, i), p));
    } else {
      var objs := n.objects + [p];
      if |objs| >= ObjectsPerNode && n.level < MaxDepth {
        var kids := if n.kids.Four? then n.kids else Split(rule, n.level, n.bounds);
        SplitIsValid(rule, n.level, n.bounds);
        if n.kids.NoChildren? {
          SplitIsPlaced(rule, n.level, n.bounds);
        }
        RedistributeKeepsPlaced(rule, n.level, n.bounds, objs, kids);
      }
    }
  }

  lemma {:induction false} RedistributeKeepsPlaced(rule: SplitRule, level: nat, b: Rect, objs: seq<Person>, c: Children)
    requires level < MaxDepth && ValidKids(level, c) && PlacedKids(b, c) && Fits(rule, level, b)
    requires forall o :: o in objs ==> InsideRect(b, o.position)
    decreases MaxDepth - level, 0, |objs|
    ensures PlacedKids(b, Redistribute(rule, level, b, objs, c).1)
  {
    if objs != [] {
      var o := objs[0];
      var i := GetIndex(b, o.position);
      assert forall x :: x in objs[1..] ==> x in objs;
      if i == -1 {
        RedistributeKeepsPlaced(rule, level, b, objs[1..], c);
      } else {
        KidIsValid(level, c, i);
        PlacedKid(b, c, i);
        IndexedPointInQuadrant(b, o.position);
        KidFits(rule, level, b, i);
        InsertKeepsPlaced(rule, Kid(c, i), o);
        var k := Insert(rule, Kid(c, i), o);
        PlacedWithKid(b, c, i, k);
        MoveToKid(level, c, i, k, o);
        RedistributeKeepsPlaced(rule, level, b, objs[1..], WithKid(c, i, k));
      }
    }
  }

  /** Clearing keeps the region layout, so a placed tree stays placed. */
  lemma {:induction false} ClearKeepsPlaced(n: Node)
    requires Placed(n)
    decreases n
    ensures Placed(Clear(n))
  {
    var c := n.kids;
    if c.Four? {
      ClearKeepsPlaced(c.q0); ClearKeepsPlaced(c.q1); ClearKeepsPlaced(c.q2); ClearKeepsPlaced(c.q3);
    }
  }

  lemma {:induction false} ClearKeepsSettled(n: Node)
    decreases n
    ensures Settled(Clear(n))
  {
    var c := n.kids;
    if c.Four? {
      ClearKeepsSettled(c.q0); ClearKeepsSettled(c.q1); ClearKeepsSettled(c.q2); ClearKeepsSettled(c.q3);
    }
  }

  // ------------------------------------------------------------ the tree

  /** `QuadTree`: the root node plus the list of every person inserted. */
  datatype QuadTree = QuadTree(root: Node, allPersons: seq<Person>)

  /** The root holds exactly the persons of the list. */
  predicate Consistent(t: QuadTree)
  {
    Bag(t.root) == multiset(t.allPersons)
  }

  /** The invariant the tree operations keep under a given split rule. */
  predicate Good(rule: SplitRule, t: QuadTree)
  {
    Valid(t.root) && t.root.level == 0 && Placed(t.root) && Settled(t.root) &&
    Fits(rule, 0, t.root.bounds) && Consistent(t)
  }

  /** The empty tree over the square room `[0, side] x [0, side]`. */
  function NewQuadTree(side: real): (t: QuadTree)
    requires side >= 0.0
    ensures Good(Exact, t) && t.allPersons == []
    ensures t.root.bounds == Rect(0.0, 0.0, side, side) && Flatten(t.root) == []
  {
    QuadTree(Node(0, Rect(0.0, 0.0, side, side), [], NoChildren), [])
  }

  /** `QuadTree.Insert`: store in the root and append to the list. */
  function TreeInsert(rule: SplitRule, t: QuadTree, p: Person): (r: QuadTree)
    requires Valid(t.root)
    ensures r.allPersons == t.allPersons + [p]
    ensures Bag(r.root) == Bag(t.root) + multiset{p}
    ensures Consistent(t) ==> Consistent(r)
  {
    QuadTree(Insert(rule, t.root, p), t.allPersons + [p])
  }

  /** Inserting a person inside the room keeps a good tree good. */
  lemma TreeInsertKeepsGood(rule: SplitRule, t: QuadTree, p: Person)
    requires Good(rule, t) && InsideRect(t.root.bounds, p.position)
    ensures Good(rule, TreeInsert(rule, t, p))
  {
    InsertKeepsPlaced(rule, t.root, p);
    InsertSettles(rule, t.root, p);
  }

  /** `QuadTree.Query`. */
  function TreeQuery(t: QuadTree, rect: Rect): (r: seq<Person>)
    ensures multiset(r) <= multiset(Flatten(t.root))
    ensures forall o :: o in r ==> InsideRect(rect, o.position)
  {
    Query(t.root, rect)
  }

  /** On a good tree a query finds exactly the listed persons inside the
      rectangle, each as often as it was inserted. */
  lemma TreeQueryComplete(rule: SplitRule, t: QuadTree, rect: Rect)
    requires Good(rule, t)
    ensures multiset(TreeQuery(t, rect)) == multiset(Filter(t.allPersons, rect))
  {
    QueryComplete(t.root, rect);
    BagIsFlatten(t.root);
    FilterSameBag(Flatten(t.root), t.allPersons, rect);
  }

  lemma {:induction false} FilterBag(s: seq<Person>, rect: Rect, o: Person)
    ensures multiset(Filter(s, rect))[o] == if InsideRect(rect, o.position) then multiset(s)[o] else 0
  {
    if s != [] {
      FilterBag(s[1..], rect, o);
      assert s == [s[0]] + s[1..];
    }
  }

  /** Filtering depends only on the multiset of persons. */
  lemma FilterSameBag(a: seq<Person>, b: seq<Person>, rect: Rect)
    requires multiset(a) == multiset(b)
    ensures multiset(Filter(a, rect)) == multiset(Filter(b, rect))
  {
    forall o
      ensures multiset(Filter(a, rect))[o] == multiset(Filter(b, rect))[o]
    {
      FilterBag(a, rect, o);
      FilterBag(b, rect, o);
    }
  }

  /** Inserting a list of persons in order, as `Refresh` does. */
  function InsertAll(rule: SplitRule, n: Node, ps: seq<Person>): (r: Node)
    requires Valid(n)
    decreases |ps|
    ensures Valid(r) && r.level == n.level && r.bounds == n.bounds
    ensures Bag(r) == Bag(n) + multiset(ps)
  {
    if ps == [] then n
    else
      assert ps == [ps[0]] + ps[1..];
      InsertAll(rule, Insert(rule, n, ps[0]), ps[1..])
  }

  lemma {:induction false} InsertAllKeepsPlaced(rule: SplitRule, n: Node, ps: seq<Person>)
    requires Valid(n) && Placed(n) && Settled(n) && Fits(rule, n.level, n.bounds)
    requires forall o :: o in ps ==> InsideRect(n.bounds, o.position)
    decreases |ps|
    ensures Placed(InsertAll(rule, n, ps)) && Settled(InsertAll(rule, n, ps))
  {
    if ps != [] {
      InsertKeepsPlaced(rule, n, ps[0]);
      InsertSettles(rule, n, ps[0]);
      assert forall o :: o in ps[1..] ==> o in ps;
      InsertAllKeepsPlaced(rule, Insert(rule, n, ps[0]), ps[1..]);
    }
  }

  /** `Refresh`: empty every node, drop the persons flagged for removal and
      re-insert the rest in list order. */
  function Refresh(rule: SplitRule, t: QuadTree): (r: QuadTree)
    requires Valid(t.root)
    ensures r.allPersons == Survivors(t.allPersons)
    ensures Consistent(r) && Valid(r.root) && r.root.bounds == t.root.bounds
  {
    var cleared := Clear(t.root);
    BagIsFlatten(cleared);
    assert Bag(cleared) == multiset{};
    QuadTree(InsertAll(rule, cleared, Survivors(t.allPersons)), Survivors(t.allPersons))
  }

  /** After `Refresh` no stored person is flagged for removal, and every
      unflagged listed person is stored. */
  lemma RefreshDropsFlagged(rule: SplitRule, t: QuadTree)
    requires Valid(t.root)
    ensures forall o :: o in Flatten(Refresh(rule, t).root) <==> o in t.allPersons && !o.toBeRemoved
  {
    var r := Refresh(rule, t);
    BagIsFlatten(r.root);
    forall o
      ensures o in Flatten(r.root) <==> o in multiset(r.allPersons)
    {
    }
  }

  /** `Refresh` keeps a good tree good: the survivors are still in the room. */
  lemma RefreshKeepsGood(rule: SplitRule, t: QuadTree)
    requires Good(rule, t)
    ensures Good(rule, Refresh(rule, t))
  {
    var cleared := Clear(t.root);
    ClearKeepsPlaced(t.root);
    ClearKeepsSettled(t.root);
    PlacedInside(t.root);
    BagIsFlatten(t.root);
    var kept := Survivors(t.allPersons);
    forall o | o in kept
      ensures InsideRect(t.root.bounds, o.position)
    {
      assert o in multiset(t.allPersons);
      assert o in Flatten(t.root);
    }
    InsertAllKeepsPlaced(rule, cleared, kept);
  }

  // ------------------------------------------- the truncating split at work

  /** The level-5 top-left region of the 800-unit room: 800 halved five times. */
  const OddRegion := Rect(0.0, 0.0, 25.0, 25.0)
  const Probe := Rect(24.25, 0.5, 0.5, 1.0)

  function Visitor(): Person
  {
    Person(0, Vector(24.5, 1.0), Healthy, Right, 0, None, None, None, false)
  }

  /** As written: a split node of odd width stores a person in a child whose
      truncated region ends before the person, so a query around the person
      prunes that child and misses it although it is stored. */
  lemma TruncatedSplitLosesPerson()
    ensures var n := Node(5, OddRegion, [], Split(AsWritten, 5, OddRegion));
            var r := Insert(AsWritten, n, Visitor());
            && Visitor() in Flatten(r)
            && InsideRect(Probe, Visitor().position)
            && Query(r, Probe) == []
  {
    var n := Node(5, OddRegion, [], Split(AsWritten, 5, OddRegion));
    assert GetIndex(OddRegion, Visitor().position) == 0;
    assert n.kids.q0.bounds == Rect(12.0, 0.0, 12.0, 12.0);
    var r := Insert(AsWritten, n, Visitor());
    assert r.kids.q0.objects == [Visitor()];
    assert !Intersects(r.kids.q0.bounds, Probe);
  }

  /** The exact split of `OddRegion` with the visitor stored in its first child. */
  function ExactTree(): Node
  {
    var n := Node(5, OddRegion, [], Split(Exact, 5, OddRegion));
    n.(kids := WithKid(n.kids, 0, n.kids.q0.(objects := [Visitor()])))
  }

  lemma ExactInsertStores()
    ensures Insert(Exact, Node(5, OddRegion, [], Split(Exact, 5, OddRegion)), Visitor()) == ExactTree()
  {
    var n := Node(5, OddRegion, [], Split(Exact, 5, OddRegion));
    assert GetIndex(OddRegion, Visitor().position) == 0;
    LeafBelowCapacityAppends(Exact, n.kids.q0, Visitor());
  }

  lemma ExactTreePlaced()
    ensures Placed(ExactTree()) && Flatten(ExactTree()) == [Visitor()]
  {
    var n := Node(5, OddRegion, [], Split(Exact, 5, OddRegion));
    SplitIsPlaced(Exact, 5, OddRegion);
    PlacedWithKid(OddRegion, n.kids, 0, n.kids.q0.(objects := [Visitor()]));
  }

  /** Corrected: with exact halves the same insertion is found by the query. */
  lemma ExactSplitFindsPerson()
    ensures var n := Node(5, OddRegion, [], Split(Exact, 5, OddRegion));
            Query(Insert(Exact, n, Visitor()), Probe) == [Visitor()]
  {
    ExactInsertStores();
    ExactTreePlaced();
    QueryComplete(ExactTree(), Probe);
    assert Filter([Visitor()], Probe) == [Visitor()];
  }

}

=== FILE: rect.dfy ===
/** The axis-aligned rectangle used by both quadtrees: the WPF `Rect` value,
    taken as closed intervals `[x, x + width] × [y, y + height]` (y grows
    downwards, so `y` is the top edge). */
module Rects {

  datatype Rect = Rect(x: real, y: real, width: real, height: real) {
    function Left(): real { x }
    function Right(): real { x + width }
    function Top(): real { y }
    function Bottom(): real { y + height }
  }

  /** WPF refuses to build a `Rect` with a negative width or height. */
  predicate Proper(r: Rect)
  {
    r.width >= 0.0 && r.height >= 0.0
  }

  /** `a.IntersectsWith(b)`: the closed rectangles share at least one point. */
  predicate Intersects(a: Rect, b: Rect)
  {
    a.Left() <= b.Right() && b.Left() <= a.Right() &&
    a.Top() <= b.Bottom() && b.Top() <= a.Bottom()
  }

  /** `outer.Contains(inner)`: `inner` lies entirely within `outer`. */
  predicate ContainsRect(outer: Rect, inner: Rect)
  {
    outer.Left() <= inner.Left() && inner.Right() <= outer.Right() &&
    outer.Top() <= inner.Top() && inner.Bottom() <= outer.Bottom()
  }

  /** Two rectangles that both hold the point `(px, py)` intersect. */
  lemma CommonPointIntersects(a: Rect, b: Rect, px: real, py: real)
    requires a.Left() <= px <= a.Right() && a.Top() <= py <= a.Bottom()
    requires b.Left() <= px <= b.Right() && b.Top() <= py <= b.Bottom()
    ensures Intersects(a, b)
  {
  }

  /** A rectangle intersecting `inner` also intersects any rectangle containing it. */
  lemma IntersectsGrows(outer: Rect, inner: Rect, q: Rect)
    requires ContainsRect(outer, inner)
    requires Intersects(inner, q)
    ensures Intersects(outer, q)
  {
  }
}

=== FILE: support.dfy ===
/** Small failure-carrying datatypes shared by the whole model. */
module Support {

  /** A value that may be absent; models C#'s `int?` (null) and a missing child slot. */
  datatype Option<T> = None | Some(value: T)

  /** The outcome of an operation the source can abort by throwing. */
  datatype Result<T, E> = Success(value: T) | Failure(error: E)
}

=== FILE: vector.dfy ===
/** The 2D vector value type of the simulation (SicknessSim/Vector.cs), with
    `double` modelled as `real`. */
module Vectors {

  datatype Vector = Vector(x: real, y: real)

  const Zero: Vector := Vector(0.0, 0.0)
  const One: Vector := Vector(1.0, 1.0)

  function Sub(a: Vector, b: Vector): (r: Vector)
    ensures r == Zero <==> a == b
  {
    Vector(a.x - b.x, a.y - b.y)
  }

  /** `a + b`; subtracting `b` again gives back `a`. */
  function Add(a: Vector, b: Vector): (r: Vector)
    ensures Sub(r, b) == a
    ensures b == Zero ==> r == a
  {
    Vector(a.x + b.x, a.y + b.y)
  }

  /** `a * b`: the componentwise product. */
  function Mul(a: Vector, b: Vector): (r: Vector)
    ensures b == One ==> r == a
    ensures b == Zero ==> r == Zero
  {
    Vector(a.x * b.x, a.y * b.y)
  }

  /** `a * s`: both components scaled by `s`. */
  function Scale(a: Vector, s: real): (r: Vector)
    ensures r == Mul(a, Vector(s, s))
  {
    Vector(a.x * s, a.y * s)
  }

  /** `a + s`: `s` added to both components. */
  function AddScalar(a: Vector, s: real): (r: Vector)
    ensures r == Add(a, Vector(s, s))
  {
    Vector(a.x + s, a.y + s)
  }

  /** `Equals` / `==`: both components equal. */
  predicate Equals(a: Vector, b: Vector)
    ensures Equals(a, b) <==> a == b
  {
    a.x == b.x && a.y == b.y
  }

  /** `!=`: the negation of `Equals`. */
  predicate NotEquals(a: Vector, b: Vector)
    ensures NotEquals(a, b) <==> a != b
  {
    !Equals(a, b)
  }

  /** `Dot(a, b)`: the sum of the coordinates of the componentwise product. */
  function Dot(a: Vector, b: Vector): (r: real)
    ensures r == Mul(a, b).x + Mul(a, b).y
    ensures b == One ==> r == a.x + a.y
    ensures b == Zero ==> r == 0.0
  {
    a.x * b.x + a.y * b.y
  }

  lemma MulCommutes(a: Vector, b: Vector)
    ensures Mul(a, b) == Mul(b, a)
  {
  }

  /** The componentwise product distributes over `+`. */
  lemma MulDistributes(a: Vector, b: Vector, c: Vector)
    ensures Mul(a, Add(b, c)) == Add(Mul(a, b), Mul(a, c))
  {
  }

  /** The dot product is bilinear: linear in its second argument. */
  lemma DotDistributes(a: Vector, b: Vector, c: Vector)
    ensures Dot(a, Add(b, c)) == Dot(a, b) + Dot(a, c)
  {
  }

  /** `+` commutes. */
  lemma AddCommutes(a: Vector, b: Vector)
    ensures Add(a, b) == Add(b, a)
  {
  }

  /** The dot product is symmetric. */
  lemma DotSymmetric(a: Vector, b: Vector)
    ensures Dot(a, b) == Dot(b, a)
  {
  }

  /** A vector's dot product with itself is a sum of squares. */
  lemma DotSelfNonNegative(a: Vector)
    ensures Dot(a, a) >= 0.0
  {
  }

  // ------------------------------------------------------------- distance

  /** The radicand of `DistanceTo` as written: each axis multiplies the
      difference of the coordinates by their product, not by the difference. */
  function DistanceRadicand(a: Vector, b: Vector): real
  {
    (a.x - b.x) * (a.x * b.x) + (a.y - b.y) * (a.y * b.y)
  }

  /** `a.DistanceTo(b) <= radius` as written. `Math.Sqrt` of a negative
      radicand is NaN, which compares false; for a non-negative radicand and
      radius, `Sqrt(s) <= radius` holds exactly when `s <= radius * radius`. */
  predicate WithinAsWritten(a: Vector, b: Vector, radius: real)
  {
    0.0 <= DistanceRadicand(a, b) <= radius * radius
  }

  lemma MulPositive(a: real, b: real)
    requires a > 0.0 && b > 0.0
    ensures a * b > 0.0
  {
  }

  /** A square is non-negative. */
  lemma SquareNonNegative(d: real)
    ensures d * d >= 0.0
  {
    if d > 0.0 {
      MulPositive(d, d);
    } else if d < 0.0 {
      MulPositive(-d, -d);
      assert d * d == (-d) * (-d);
    }
  }

  /** For non-negative `r`, `d * d <= r * r` exactly when `-r <= d <= r`. */
  lemma SquareBound(d: real, r: real)
    requires r >= 0.0
    ensures d * d <= r * r <==> -r <= d <= r
  {
    var m := if d >= 0.0 then d else -d;
    assert d * d == m * m;
    assert (m - r) * (m + r) == m * m - r * r;
    if m > r {
      MulPositive(m - r, m + r);
    } else if m < r {
      MulPositive(r - m, r + m);
      assert (r - m) * (r + m) == r * r - m * m;
    }
  }

  /** The squared Euclidean distance. */
  function SquaredDistance(a: Vector, b: Vector): real
  {
    (a.x - b.x) * (a.x - b.x) + (a.y - b.y) * (a.y - b.y)
  }

  /** The evidently intended test: Euclidean distance at most `radius`. */
  predicate Within(a: Vector, b: Vector, radius: real)
  {
    SquaredDistance(a, b) <= radius * radius
  }

  /** The intended test is symmetric and holds for a point and itself. */
  lemma WithinSymmetric(a: Vector, b: Vector, radius: real)
    ensures Within(a, b, radius) <==> Within(b, a, radius)
    ensures Within(a, a, radius)
  {
    assert (b.x - a.x) * (b.x - a.x) == (a.x - b.x) * (a.x - b.x);
    assert (b.y - a.y) * (b.y - a.y) == (a.y - b.y) * (a.y - b.y);
    SquareNonNegative(radius);
  }

  /** Two points on a horizontal line are within `radius` exactly when their
      horizontal gap is at most `radius`. */
  lemma WithinOnLine(a: Vector, d: real, radius: real)
    requires radius >= 0.0
    ensures Within(a, Vector(a.x + d, a.y), radius) <==> -radius <= d <= radius
  {
    var b := Vector(a.x + d, a.y);
    assert a.x - b.x == -d && a.y - b.y == 0.0;
    assert SquaredDistance(a, b) == (-d) * (-d);
    SquareBound(-d, radius);
  }

  /** As written the radicand changes sign when the points swap, so two
      points are near each other both ways only when it vanishes. */
  lemma RadicandAntisymmetric(a: Vector, b: Vector, radius: real)
    ensures DistanceRadicand(b, a) == -DistanceRadicand(a, b)
    ensures WithinAsWritten(a, b, radius) && WithinAsWritten(b, a, radius) ==> DistanceRadicand(a, b) == 0.0
  {
    assert (b.x - a.x) * (b.x * a.x) == -((a.x - b.x) * (a.x * b.x));
    assert (b.y - a.y) * (b.y * a.y) == -((a.y - b.y) * (a.y * b.y));
  }

  lemma OriginPairNearAsWritten()
    ensures WithinAsWritten(Vector(0.0, 0.0), Vector(100.0, 100.0), 25.0)
  {
    assert DistanceRadicand(Vector(0.0, 0.0), Vector(100.0, 100.0)) == 0.0;
  }

  lemma OriginPairFar()
    ensures !Within(Vector(0.0, 0.0), Vector(100.0, 100.0), 25.0)
  {
    OriginPairDistance();
  }

  lemma OriginPairDistance()
    ensures SquaredDistance(Vector(0.0, 0.0), Vector(100.0, 100.0)) == 20000.0
  {
    var d := Sub(Vector(0.0, 0.0), Vector(100.0, 100.0));
    assert d == Vector(-100.0, -100.0);
    assert d.x * d.x == 10000.0;
  }

  /** As written, a point at the origin is "within 25" of a point 141 away. */
  lemma FarPairCountsAsNear()
    ensures WithinAsWritten(Vector(0.0, 0.0), Vector(100.0, 100.0), 25.0)
    ensures !Within(Vector(0.0, 0.0), Vector(100.0, 100.0), 25.0)
  {
    OriginPairNearAsWritten();
    OriginPairFar();
  }

  /** As written, a point 2 units away is not "within 25". */
  lemma ClosePairCountsAsFar()
    ensures !WithinAsWritten(Vector(10.0, 10.0), Vector(12.0, 10.0), 25.0)
    ensures Within(Vector(10.0, 10.0), Vector(12.0, 10.0), 25.0)
  {
    WithinOnLine(Vector(10.0, 10.0), 2.0, 25.0);
    ClosePairRadicand();
  }

  lemma ClosePairRadicand()
    ensures DistanceRadicand(Vector(10.0, 10.0), Vector(12.0, 10.0)) == -240.0
  {
  }
}
